=== FILE: README.md ===
# AI Life Planner: a Dafny model of its planning logic

AI Life Planner is a personal planning app. A React client collects a
profile (health, schedule, life goals, finances), asks a Go/Fiber server to
build a prompt from it and have a language model generate a life plan, and
offers a dashboard of small trackers: habits, tasks, moods, budgets, goals,
a Pomodoro timer and an assistant chat. The server stores everything in
Supabase tables.

This project models the logic in both halves that can be specified.

The client:
- the profile-and-plan flow (form → saving → saved → generating → generated, with a fallback on each failure);
- the goals overview, with its card interleaving, its "AI plan missing" reconciliation and its delete and cleanup dialogs;
- the Pomodoro cycle and its mm:ss display;
- the login and tab shell;
- the two assistant chats;
- the dashboard's list stores: habits with streaks, tasks and time blocks, a mood journal with one entry per day, finance records with one per month, goals;
- the insight aggregates, the habits page mapping and the finance calculator;
- the profile pages;
- the three client services and their "403 means nothing stored yet" conventions.

The server:
- every gateway's mapping of a request to 422, 403, 500 or 200;
- the services behind the gateways;
- the prompt, plan and chat orchestration;
- the cascading deletes that stop at the first failing step.

Each server request is modelled as one atomic step on a `Database` object
whose tables are sequences of rows. The repository calls that fail during a
request are given as a set of operations. The language model, the prompt
wording, "now" and "today" are parameters. On the client, each HTTP
exchange is an input: a network failure, or a reply with a status, a status
text and a JSON body or none. Components whose handlers update state are
classes whose methods change their fields; pure derivations are functions.
A handful of lemmas connect the two halves, for example:
- a server refusal reaches the client as an empty record rather than an error;
- submitting the setup form twice leaves the user's life goal unreadable.

Where the code and its comments disagree, the model follows the code. For
example, the comment at client/src/pages/GoalsOverview.tsx:302-304
describes the opposite of what line 303 does.

## Model

| member | source | states |
|---|---|---|
| AppShell.RestoredTab | client/src/App.tsx:33-34 | the tab restored from storage is never empty, and it is the stored tab whenever one is stored |
| AppShell.App.constructor | client/src/App.tsx:21-49 | a mounted shell is logged out and loading, shows 'dashboard', and the mount run of the persistence effect has stored 'dashboard' |
| AppShell.App.SetTab | client/src/App.tsx:45-49 | the persistence effect stores the new tab only when it changed and is not 'login'; the storage never holds 'login' and agrees with the active tab |
| AppShell.App.HandleLogin | client/src/App.tsx:31-35 | logging in shows the stored tab, or 'dashboard' when none is stored |
| AppShell.App.HandleLogout | client/src/App.tsx:37-43 | logging out clears the user and the stored tab and shows 'dashboard'; the effect then stores 'dashboard' again unless the tab was already 'dashboard' |
| AppShell.App.OnSession | client/src/App.tsx:51-78 | a session logs the user in at the stored tab with the session's user id (empty id read as none); no session logs out to 'dashboard'; only the first answer ends loading |
| AppShell.ReloadWithSession | client/src/App.tsx:45-65 | a reload with a live session always lands on 'dashboard': the mount effect overwrites the stored tab before the session answer reads it |
| AppShell.LoggedOutRouting | client/src/App.tsx:90-116 | logged out, only the login page (exactly for tab 'login') or the landing page is shown |
| AppShell.LoggedInRouting | client/src/App.tsx:118-152 | logged in, each of the twelve known tab ids shows its own page and any other id shows the dashboard |
| AppShell.LoadingScreenOnlyWhileLoading | client/src/App.tsx:85 | the loading screen is shown exactly while loading |
| AssistantPage.HistoryMessages | client/src/pages/AssistantPage.tsx:45-51 | one message per stored record, in order, with its id and text, from the user exactly when the sender is 'user' |
| AssistantPage.MergedHistory | client/src/pages/AssistantPage.tsx:40-60 | the history is appended after the current transcript only when the reply says 'success' and carries an array; otherwise the transcript is unchanged |
| AssistantPage.ReplyContent | client/src/pages/AssistantPage.tsx:94-128 | the assistant's text is the reply's string data on 'success', the apology otherwise, and the send-error text when the call throws |
| AssistantPage.ChatPage.constructor | client/src/pages/AssistantPage.tsx:19-31 | a fresh page holds only the greeting, an empty input, nothing loading and no open dialog |
| AssistantPage.ChatPage.FetchHistory | client/src/pages/AssistantPage.tsx:40-60 | fetching the history merges it after the greeting and keeps the greeting first |
| AssistantPage.ChatPage.Type | client/src/pages/AssistantPage.tsx:318 | typing replaces the input and nothing else |
| AssistantPage.ChatPage.HandleSend | client/src/pages/AssistantPage.tsx:71-132 | a blank input sends nothing; otherwise the untrimmed input is sent with sender 'user', the transcript gains that message and exactly one reply, and the input is cleared |
| AssistantPage.ChatPage.Send | client/src/pages/AssistantPage.tsx:74-131 | a send appends the user's untrimmed message and then exactly one reply (the data of a 'success' with text, the apology otherwise, the error text on an exception), clears the input and ends loading |
| AssistantPage.ChatPage.AskDeleteConfirm | client/src/pages/AssistantPage.tsx:251 | opening or closing the dialog changes nothing else |
| AssistantPage.ChatPage.HandleDeleteChat | client/src/pages/AssistantPage.tsx:139-164 | a 'success' resets the transcript to the greeting and closes the dialog; any other answer changes nothing |
| AssistantSection.Respond | client/src/components/sections/AssistantSection.tsx:148-152 | each canned answer is chosen exactly when its keyword group occurs in the lower-cased question and no earlier group does |
| AssistantSection.RespondIgnoresCase | client/src/components/sections/AssistantSection.tsx:148-152 | two questions that differ only in ASCII letter case get the same answer |
| AssistantSection.ThesisWins | client/src/components/sections/AssistantSection.tsx:148 | a question mentioning the thesis gets the thesis plan whatever text is added before or after it |
| AssistantSection.ChatSection.constructor | client/src/components/sections/AssistantSection.tsx:13-21 | the chat opens with the welcome message and an empty input |
| AssistantSection.ChatSection.Type | client/src/components/sections/AssistantSection.tsx:251 | typing replaces the input and keeps the messages |
| AssistantSection.ChatSection.HandleSend | client/src/components/sections/AssistantSection.tsx:30-50 | a blank input changes nothing; otherwise the trimmed question and the answer to it are appended in that order and the input is cleared |
| BonusPage.Duration | client/src/pages/BonusPage.tsx:29-33 | every session type has a positive length: 25, 5 and 15 minutes |
| BonusPage.NextSession | client/src/pages/BonusPage.tsx:37-44 | a work session is followed by a break and a break by work |
| BonusPage.NextSessionCycle | client/src/pages/BonusPage.tsx:37-44 | work and breaks alternate, and the break after work is long exactly when the pomodoro about to be counted is a multiple of four |
| BonusPage.FormatTime | client/src/pages/BonusPage.tsx:58-62 | the display is digits, a ':' and two digits, whose values are the whole minutes and the remaining seconds; below 100 minutes it is five characters |
| BonusPage.FormatTimeParts | client/src/pages/BonusPage.tsx:58-62 | the display is exactly its minutes part, one ':' and its seconds part, and both parts are all digits |
| BonusPage.ParseJoined | client/src/pages/BonusPage.tsx:58-62 | any two runs of digits joined by ':' read back as the first times sixty plus the second |
| BonusPage.FormatTimeRoundTrip | client/src/pages/BonusPage.tsx:58-62 | reading the display back as minutes and seconds gives the number of seconds shown |
| BonusPage.PomodoroTimer.constructor | client/src/pages/BonusPage.tsx:13-19 | the timer starts at work, 25:00, stopped, with nothing completed and focus mode off |
| BonusPage.PomodoroTimer.StartNextSession | client/src/pages/BonusPage.tsx:46-56 | leaving a work session counts one pomodoro; the next session starts stopped at its full length |
| BonusPage.PomodoroTimer.Tick | client/src/pages/BonusPage.tsx:65-100 | a running second counts down by one, and the last second ends the session and moves to the next one; the remaining time stays within the session's length |
| BonusPage.PomodoroTimer.PlayPause | client/src/pages/BonusPage.tsx:156-158 | play/pause flips running and touches nothing else |
| BonusPage.PomodoroTimer.SkipSession | client/src/pages/BonusPage.tsx:160-163 | skipping stops the timer and starts the next session as if the current one had ended |
| BonusPage.PomodoroTimer.Reset | client/src/pages/BonusPage.tsx:149-154 | reset returns to work, 25:00, stopped, nothing completed |
| BonusPage.PomodoroTimer.SetFocusMode | client/src/pages/BonusPage.tsx:102-110 | switching focus mode off resets the timer; switching it on, or setting the same mode, changes nothing else |
| BonusPage.SkipThroughCycle | client/src/pages/BonusPage.tsx:37-56 | skipping through four work sessions from a fresh timer yields short, short, short, then long break |
| BonusPage.Reverse | client/src/pages/BonusPage.tsx:118 | the reversed list has the same length and the i-th entry from the end at position i |
| BonusPage.NormaliseMoods | client/src/pages/BonusPage.tsx:112-122 | a single entry gives one mood, a list as many moods as it has entries |
| BonusPage.NormaliseMoodsShape | client/src/pages/BonusPage.tsx:112-122 | a single entry becomes a one-entry list; a list is reversed with nothing lost or added, and reversing it again restores it |
| BonusPage.ReverseMultiset | client/src/pages/BonusPage.tsx:118 | reversing keeps exactly the same entries |
| BonusPage.MoodTracker.constructor | client/src/pages/BonusPage.tsx:11-16 | no mood selected, an empty note and no entries |
| BonusPage.MoodTracker.SelectMood | client/src/pages/BonusPage.tsx:186 | a mood button selects its value and changes nothing else |
| BonusPage.MoodTracker.TypeNote | client/src/pages/BonusPage.tsx:205 | typing replaces the note and leaves the selection and the entries unchanged |
| BonusPage.MoodTracker.HandleMoodSubmit | client/src/pages/BonusPage.tsx:128-147 | with a mood selected, its label and the note are sent with an empty user id and both are cleared whatever the request's fate; with none selected nothing is sent |
| BonusPage.MoodTracker.FetchMood | client/src/pages/BonusPage.tsx:112-122 | a fetched payload replaces the entries by its normalised list; a failed fetch keeps them |
| BonusSection.MoodJournal.constructor | client/src/components/sections/BonusSection.tsx:8-11 | the journal starts from the stored entries, with no selections and empty notes |
| BonusSection.MoodJournal.TypeNotes | client/src/components/sections/BonusSection.tsx:152 | typing replaces the notes and leaves the entries and both selections unchanged |
| BonusSection.MoodJournal.SaveMoodEntry | client/src/components/sections/BonusSection.tsx:20-44 | without both a mood and an energy level nothing happens; otherwise today's entry replaces the entry already stored for today in its place, or is appended, and no two entries ever share a date |
| BonusSection.FocusTimer.constructor | client/src/components/sections/BonusSection.tsx:12-15 | a 25-minute length, stopped, showing 25:00, with no live interval |
| BonusSection.FocusTimer.SelectLength | client/src/components/sections/BonusSection.tsx:196-199 | the length changes only while the timer is stopped, and live intervals are untouched |
| BonusSection.FocusTimer.Start | client/src/components/sections/BonusSection.tsx:46-67 | starting runs the timer from the full length and adds one live interval that captured the current length; from a stopped timer with no live interval it leaves exactly one |
| BonusSection.FocusTimer.Stop | client/src/components/sections/BonusSection.tsx:69-73 | as written: stopping returns the dial to the full length but leaves every live interval running, so a running timer with one interval ends stopped with one still live |
| BonusSection.FocusTimer.StopChecked | client/src/components/sections/BonusSection.tsx:69-73 | corrected: stopping also clears the live interval, so a stopped timer has none |
| BonusSection.FocusTimer.Tick | client/src/components/sections/BonusSection.tsx:51-66 | as written: a tick of any live interval, running or not, counts the dial down by one second, borrowing a minute at zero seconds; at 0:00 it stops, clears that interval and resets to the length the interval captured, with the seconds left at 59 |
| BonusSection.FocusTimer.TickChecked | client/src/components/sections/BonusSection.tsx:51-66 | corrected: the countdown ends stopped at the captured length with zero seconds; it keeps the one-live-interval invariant, and a running timer at 0:00 shows its full length again |
| BonusSection.StopKeepsCounting | client/src/components/sections/BonusSection.tsx:46-73 | as written: start then stop, and one second later the stopped dial shows 24:59 with an interval still live; start again and one second lowers the dial by two; with the corrected stop nothing is left live |
| BonusSection.FinishedCountdown | client/src/components/sections/BonusSection.tsx:51-66 | the last tick of a finished countdown shows the length plus 59 seconds as written, and exactly the length when corrected |
| Dashboard.ActionTarget | client/src/pages/Dashboard.tsx:106-132 | every quick action and the assistant button navigate to a tab the shell knows, never to 'login' or back to 'dashboard' |
| Dashboard.ActionsReachTheirPages | client/src/pages/Dashboard.tsx:106-132 | each action shows a signed-in user the page of its own tab, and different actions show different pages |
| Dashboard.DashboardPage.constructor | client/src/pages/Dashboard.tsx:19-27 | the form starts empty with gender 'None', and the profile is not yet known to be empty, so no dialog is open |
| Dashboard.DashboardPage.FetchUserProfile | client/src/pages/Dashboard.tsx:33-62 | a fetched profile fills the form and sets the empty flag; the dialog opens only when the flag changes to true and is never closed by a fetch; a failed fetch changes nothing |
| Dashboard.DashboardPage.HandleSetupProfile | client/src/pages/Dashboard.tsx:64-67 | the set-up button closes the dialog and navigates to the profile page |
| Dashboard.MountDashboard | client/src/pages/Dashboard.tsx:29-62 | on a fresh dashboard the dialog opens exactly when the fetched profile is the empty one |
| DeleteService.DeleteCall | client/src/services/delete_service.ts:5-48 | without a user the call throws before any request; with one it never throws, sends the DELETE exactly when there is a token, and returns the success value exactly on a 2xx |
| DeleteService.DeleteGoalOutcomes | client/src/services/delete_service.ts:5-48 | deleting a goal reports 200 exactly when the DELETE of that goal id succeeded and 500 otherwise, and never says 'success' |
| DeleteService.DeleteGoal | client/src/services/delete_service.ts:5-48 | without a user it throws before any request; with one it sends DELETE to the goal's path exactly when there is a token, and returns 200 exactly when that DELETE succeeded, 500 otherwise |
| DeleteService.DeleteChat | client/src/services/delete_service.ts:50-87 | without a user it throws; with one it sends DELETE to the user's chat path exactly when there is a token, and answers 'success' exactly when it succeeded, 'failed' otherwise |
| DeleteService.DeleteUserData | client/src/services/delete_service.ts:88-124 | without a user it throws; with one it sends DELETE to the user's data path exactly when there is a token, and answers 'success' exactly when it succeeded, 'failed' otherwise |
| DeleteService.UserScopedDeleteOutcomes | client/src/services/delete_service.ts:50-124 | deleting the chat or the user's data answers 'success' exactly on a 2xx and 'failed' otherwise, and targets the signed-in user's id |
| FinancePage.AvailableForSavings | client/src/pages/FinancePage.tsx:16-18 | the overview's savings capacity is 10000, fixed by the sample data whatever the budget inputs say |
| FinancePage.CeilDiv | client/src/pages/FinancePage.tsx:201 | for a positive number of months, the least whole number that, saved every month, reaches the goal |
| FinancePage.CeilDivUnique | client/src/pages/FinancePage.tsx:201 | no other whole number has both bounds, so the ceiling is pinned down |
| FinancePage.NegativeCeil | client/src/pages/FinancePage.tsx:201 | for a negative number of months, the ceiling of the quotient: multiplied back it is at most the goal, one less would exceed it |
| FinancePage.RequiredMonthly | client/src/pages/FinancePage.tsx:186-201 | Math.ceil(goal / months) on JavaScript numbers: NaN exactly when an input is missing (parseFloat failed) or both are zero; plus or minus Infinity exactly for zero months and a goal of that sign; a whole amount otherwise, the ceiling for positive and for negative months |
| FinancePage.Calculate | client/src/pages/FinancePage.tsx:210-218 | a surplus exactly when the monthly amount is minus Infinity or a whole amount the capacity covers; an Infinity asks an infinite deficit, NaN shows a NaN deficit, and a whole amount shows the absolute difference, positive for a deficit |
| FinancePage.SurplusIffCapacityCovers | client/src/pages/FinancePage.tsx:201-218 | for positive months, the capacity covers the ceiling exactly when the capacity saved every month reaches the goal |
| FinancePage.NegativeTimeframeAsksNothing | client/src/pages/FinancePage.tsx:201 | a positive goal over a negative number of months asks a monthly amount of zero or less |
| FinancePage.PageVerdict | client/src/pages/FinancePage.tsx:182-218 | the verdict of the inputs: a NaN deficit when an input does not parse; an infinite deficit for a positive goal in zero months and an infinite surplus for a negative one; a surplus of at least the capacity for a positive goal over negative months; for positive months a surplus exactly when the capacity saved every month reaches the goal |
| FinancePage.DefaultVerdict | client/src/pages/FinancePage.tsx:13-14 | the default goal of 10000 over 3 months asks for 3334 a month and leaves a surplus of 6666, on the page as in the calculation |
| FinanceSection.TotalExpenses | client/src/components/sections/FinanceSection.tsx:16-24 | the sample expenses total 30500 |
| FinanceSection.NewRecord | client/src/components/sections/FinanceSection.tsx:32-44 | the record for the month carries the parsed income, the sample expenses, savings of income minus 30500, and one savings goal exactly when the goal field was filled in |
| FinanceSection.MonthlyIncome | client/src/components/sections/FinanceSection.tsx:13-25 | the shown income is never zero: the first record for the month gives its income, or 45000 when that income is zero, and 45000 when no record has the month |
| FinanceSection.FinanceStore.constructor | client/src/components/sections/FinanceSection.tsx:8-11 | the store starts from the stored records with an empty, hidden form |
| FinanceSection.FinanceStore.TypeIncome | client/src/components/sections/FinanceSection.tsx:109 | typing replaces the income input and leaves the savings goal, the records and the form's visibility unchanged |
| FinanceSection.FinanceStore.TypeSavingsGoal | client/src/components/sections/FinanceSection.tsx:121 | typing replaces the savings-goal input and leaves the income, the records and the form's visibility unchanged |
| FinanceSection.FinanceStore.AddFinancialData | client/src/components/sections/FinanceSection.tsx:29-59 | an empty income field does nothing; otherwise the month's record is replaced in its place or appended, no two records ever share a month, and the form is cleared and hidden |
| GoalInput.GoalForm.constructor | client/src/components/features/goals/GoalInput.tsx:14-16 | the form starts with empty texts and the productivity category |
| GoalInput.GoalForm.Edit | client/src/components/features/goals/GoalInput.tsx:48 | the form holds what the user typed and picked |
| GoalInput.GoalForm.HandleSubmit | client/src/components/features/goals/GoalInput.tsx:26-33 | a submission happens exactly when both texts are non-blank; it carries the trimmed texts and the category and clears the texts; otherwise nothing changes |
| GoalInput.SubmittedTextsAreTrimmed | client/src/components/features/goals/GoalInput.tsx:28-29 | submitted texts are already trimmed and are never blank |
| GoalsFlow.WithValue | client/src/pages/Goals.tsx:249 | typing into one input changes that input and leaves the other seventeen unchanged |
| GoalsFlow.CompleteIffNoEmptyInput | client/src/pages/Goals.tsx:44-65 | the form counts as complete exactly when none of the eighteen inputs is empty |
| GoalsFlow.DefaultFormComplete | client/src/pages/Goals.tsx:19-42 | the initial values ('THB', '0', 'None') already fill every input |
| GoalsFlow.PayloadCopiesInputs | client/src/pages/Goals.tsx:73-85 | the payload carries every input unchanged and a personal section of five empty strings |
| GoalsFlow.Step | client/src/pages/Goals.tsx:67-145 | one event keeps the flow or follows one edge (form to saving, saving to saved or back to form, saved to generating, generating to generated or back to saved), and changes the inputs only while in 'form' |
| GoalsFlow.Run | client/src/pages/Goals.tsx:67-145 | once the profile is saved the page never returns to the form or to saving and its inputs never change again, and a generated plan stays generated |
| GoalsFlow.StepConsistent | client/src/pages/Goals.tsx:67-145 | each event keeps the page consistent: outside 'form' the inputs make a complete profile, and while a request is in flight the dialog is shown |
| GoalsFlow.RunConsistent | client/src/pages/Goals.tsx:67-145 | any sequence of events keeps the page consistent |
| GoalsFlow.EnterGeneratingOnlyFromSaved | client/src/pages/Goals.tsx:508-510 | 'generating' is reached only by clicking Generate in 'saved' |
| GoalsFlow.EnterSavingOnlyFromCompleteForm | client/src/pages/Goals.tsx:500-503 | 'saving' is reached only by clicking Save in 'form' with a complete form |
| GoalsFlow.FormFrozenOutsideForm | client/src/pages/Goals.tsx:249-251 | outside 'form' no event changes the inputs |
| GoalsFlow.IncompleteFormNeverSaves | client/src/pages/Goals.tsx:67-71 | while one input stays empty the page never leaves 'form' |
| GoalsFlow.GoalsPage.constructor | client/src/pages/Goals.tsx:15-42 | the page starts in 'form', with no dialog and the initial values |
| GoalsFlow.GoalsPage.Type | client/src/pages/Goals.tsx:249-251 | typing changes the input only in 'form', and never the flow or the dialog |
| GoalsFlow.GoalsPage.HandleSaveProfile | client/src/pages/Goals.tsx:67-89 | an incomplete form sends nothing and changes nothing; a complete one sends the payload, enters 'saving' and opens the dialog |
| GoalsFlow.GoalsPage.SaveResolved | client/src/pages/Goals.tsx:91-106 | a successful save reaches 'saved', a failed one goes back to 'form'; either way the dialog closes |
| GoalsFlow.GoalsPage.HandleGeneratePlan | client/src/pages/Goals.tsx:109-126 | the payload is sent and the page enters 'generating' with the dialog open |
| GoalsFlow.GoalsPage.GenerateResolved | client/src/pages/Goals.tsx:127-139 | success reaches 'generated' and keeps the dialog; failure goes back to 'saved' and closes it |
| GoalsFlow.GoalsPage.HandleContinue | client/src/pages/Goals.tsx:142-147 | the dialog closes and the app goes to the goals overview |
| GoalsFlow.GoalsPage.Dispatch | client/src/pages/Goals.tsx:499-514 | the page reacts to each event as the state machine says, and sends a request only for an enabled Save or Generate click |
| GoalsOverview.OverviewPage.constructor | client/src/pages/GoalsOverview.tsx:236-252 | the page starts loading, with no goals, plan, errors, notification or dialogs |
| GoalsOverview.OverviewPage.TransformToGoalCards | client/src/pages/GoalsOverview.tsx:386-415 | one card per index below the longer term list; card i takes the i-th long-term goal as title and the i-th short-term goal as description (each with its fallback), the timeframe and the plan, is a short-term card exactly when i is below the short-term count, and no two cards share an id |
| GoalsOverview.GoalIdsDistinct | client/src/pages/GoalsOverview.tsx:399 | card ids made from different indices differ |
| GoalsOverview.CardIdsDistinct | client/src/pages/GoalsOverview.tsx:399 | cards built index by index never share an id |
| GoalsOverview.OverviewPage.HandleAddGoal | client/src/pages/GoalsOverview.tsx:263-275 | onAddGoal runs exactly when no goals are loaded; otherwise the goal-exists dialog opens |
| GoalsOverview.OverviewPage.FetchGoals | client/src/pages/GoalsOverview.tsx:277-291 | a loaded record is stored and announced; a failure is recorded as the goals error and keeps the old record; loading ends either way |
| GoalsOverview.OverviewPage.FetchAiPlan | client/src/pages/GoalsOverview.tsx:293-325 | an incomplete plan clears the plan when there are no goals and offers the cleanup dialog when there are; a complete plan records its id and rendered text; a failure is recorded as the plan error |
| GoalsOverview.OverviewPage.HandleDataCleanup | client/src/pages/GoalsOverview.tsx:338-363 | the dialog closes; only a delete answered 'success' reloads the goals, clears the plan and goal id and reports success; anything else reports the failure and changes no plan state |
| GoalsOverview.OverviewPage.HandleDeleteGoal | client/src/pages/GoalsOverview.tsx:365-384 | the stored plan id is deleted whatever card was clicked; success is announced whenever nothing threw, whatever the delete answered |
| GoalsOverview.OverviewPage.HandleDeleteGoalChecked | client/src/pages/GoalsOverview.tsx:365-384 | success is announced exactly when the delete answered 200 and the reload worked; otherwise the failure is reported and the goals are kept |
| GoalsOverview.DeleteFailureAnnouncedAsSuccess | client/src/services/delete_service.ts:5-48 | for a signed-in user a failed DELETE comes back as a 500 result, not as a thrown error |
| GoalsOverview.DeleteFailureScenario | client/src/pages/GoalsOverview.tsx:365-384 | with a failed DELETE the page as written announces 'Goal deleted successfully' while the checked version reports 'Failed to delete goal' |
| GoalsSection.NewGoal | client/src/components/sections/GoalsSection.tsx:15-23 | a new goal keeps the entered title, describes itself as the plan for that title, and starts at progress 0, medium priority, productivity |
| GoalsSection.GoalsBoard.constructor | client/src/components/sections/GoalsSection.tsx:8-10 | the board shows the stored goals with an empty, hidden form |
| GoalsSection.GoalsBoard.Type | client/src/components/sections/GoalsSection.tsx:65 | typing replaces the goal input and leaves the goals and the form's visibility unchanged |
| GoalsSection.GoalsBoard.HandleAddGoal | client/src/components/sections/GoalsSection.tsx:12-28 | a blank entry changes nothing; otherwise exactly one goal is appended after the others and the form is reset |
| HabitsPage.IconFor | client/src/pages/HabitsPage.tsx:9-15 | the flag icon is used exactly for categories outside the four known ones |
| HabitsPage.ToDisplay | client/src/pages/HabitsPage.tsx:30-39 | a card is completed exactly when the streak has reached the target; it carries the habit's name, description, category, streak and target, an id whose digits read back as the habit's id, and its category's icon |
| HabitsPage.ToDisplayAll | client/src/pages/HabitsPage.tsx:28-40 | one card per habit, in order |
| HabitsPage.Filtered | client/src/pages/HabitsPage.tsx:58-60 | 'all' keeps every habit; any other category keeps only habits of that category |
| HabitsPage.FilteredKeepsExactly | client/src/pages/HabitsPage.tsx:58-60 | the filter adds no habit, and any category other than 'all' keeps every habit of that category and no other |
| HabitsPage.FilteredDistributes | client/src/pages/HabitsPage.tsx:58-60 | filtering a joined list is joining the filtered parts, so the filter keeps the habits' order |
| HabitsPage.MilestoneIsMultipleOfThree | client/src/pages/HabitsPage.tsx:177 | the milestone badge shows exactly for streaks that are a positive multiple of three |
| HabitsPage.DaysToGo | client/src/pages/HabitsPage.tsx:173 | the days to go and the streak add up to the target, and the count is at most zero exactly once the target is reached |
| HabitsPage.HabitsView.constructor | client/src/pages/HabitsPage.tsx:19-21 | the view starts loading, with no habits and the 'all' category |
| HabitsPage.HabitsView.FetchHabits | client/src/pages/HabitsPage.tsx:25-45 | the fetched habits are shown as cards, or none when the fetch fails; loading ends either way |
| HabitsPage.HabitsView.SelectCategory | client/src/pages/HabitsPage.tsx:113 | the chosen category is selected and nothing else changes |
| HabitsSection.CompleteOnce | client/src/components/sections/HabitsSection.tsx:36-50 | after a completion the habit is done today; a habit already done today is returned unchanged; otherwise today is recorded once, the streak grows by one and the best streak is the larger of the old best and the new streak |
| HabitsSection.MarkedComplete | client/src/components/sections/HabitsSection.tsx:33-53 | the habits with the given id are completed today and every other habit is unchanged, in place |
| HabitsSection.MarkCompleteIdempotent | client/src/components/sections/HabitsSection.tsx:37-38 | a second completion on the same day changes nothing |
| HabitsSection.MarkCompleteKeepsStreaks | client/src/components/sections/HabitsSection.tsx:41-42 | completion keeps every best streak at or above the current one and leaves the matching habits done today |
| HabitsSection.NewHabit | client/src/components/sections/HabitsSection.tsx:17-26 | a new habit is a daily productivity habit with the entered name, no streak and no completions |
| HabitsSection.HabitsStore.constructor | client/src/components/sections/HabitsSection.tsx:9-11 | the tracker shows the stored habits with an empty, hidden form |
| HabitsSection.HabitsStore.Type | client/src/components/sections/HabitsSection.tsx:89 | typing replaces the habit input and leaves the habits and the form's visibility unchanged |
| HabitsSection.HabitsStore.PickRecommended | client/src/components/sections/HabitsSection.tsx:186-189 | a recommended habit fills the input with its name and opens the form, leaving the habits unchanged |
| HabitsSection.HabitsStore.AddHabit | client/src/components/sections/HabitsSection.tsx:14-31 | a blank name changes nothing; otherwise exactly one new habit is appended and the form is reset; the streak invariant holds |
| HabitsSection.HabitsStore.MarkComplete | client/src/components/sections/HabitsSection.tsx:33-53 | the habits become their completed-today versions and the streak invariant holds |
| Insights.CountCompleted | client/src/components/sections/InsightsSection.tsx:16 | the completed count is at most the subtask count, zero exactly when none is completed and full exactly when all are |
| Insights.GoalProgress | client/src/components/sections/InsightsSection.tsx:15-19 | a goal's progress is a percentage between 0 and 100, and 0 for a goal without subtasks |
| Insights.ProgressSum | client/src/components/sections/InsightsSection.tsx:14-20 | the summed progress lies between 0 and 100 per goal |
| Insights.AverageProgress | client/src/components/sections/InsightsSection.tsx:12-22 | the average progress is a whole percentage between 0 and 100, and 0 without goals |
| Insights.EmptyGoalsAddNothing | client/src/components/sections/InsightsSection.tsx:15-19 | a goal without a plan adds nothing to the sum while still counting in the divisor |
| Insights.StreakField | client/src/components/sections/InsightsSection.tsx:11 | a stored habit has no `streak` field, so reading it gives undefined |
| Insights.CompletedHabits | client/src/components/sections/InsightsSection.tsx:11 | as written: at most the habit count, and always zero, because `undefined > 0` is false for every habit |
| Insights.MaxOfReads | client/src/components/sections/InsightsSection.tsx:23 | Math.max over a non-empty list of reads: NaN exactly when some read is undefined, otherwise a value read that no other exceeds |
| Insights.LongestStreak | client/src/components/sections/InsightsSection.tsx:23 | as written: 0 without habits, NaN for any habit at all |
| Insights.CompletedHabitsChecked | client/src/components/sections/InsightsSection.tsx:11 | corrected: the habits with a positive current streak, at most the habit count, zero exactly when every current streak is zero |
| Insights.LongestStreakChecked | client/src/components/sections/InsightsSection.tsx:23 | corrected: 0 without habits, otherwise a current streak some habit has and none exceeds |
| Insights.HabitFiguresAsWritten | client/src/components/sections/InsightsSection.tsx:9-23 | with one habit on a positive streak, the panel shows 0 completed and a NaN longest streak, where the current streaks give a positive count and a positive longest streak |
| LifeGoalService.EmptyLifeGoals | client/src/services/lifegoal_service.ts:30-39 | the record standing for "no life goals yet" has an empty id, no goals, no priorities and no timeframe |
| LifeGoalService.GetLifeGoals | client/src/services/lifegoal_service.ts:7-73 | a 403 whose message mentions "cannot get life goal data" (in any case) gives the empty record; every other failure status, a network error or a non-JSON reply throws; a JSON success gives its data, or the empty record when there is none |
| LifeGoalService.GetAiPlan | client/src/services/lifegoal_service.ts:75-88 | the plan is asked for with a GET on the user's generation URL, "null" standing in for a missing user |
| LifeGoalService.AiPlanClassification | client/src/services/lifegoal_service.ts:90-126 | the empty plan comes back exactly on a 403; any other plan comes from the first element of a non-empty array in a JSON success, has a non-empty text, and carries an id exactly when it carries a text |
| LifeGoalService.AiPlanFailures | client/src/services/lifegoal_service.ts:99-117 | any other failure status, a non-JSON reply, and missing, non-array or empty data all throw |
| LifeGoalService.NullPlanIsNotRejected | client/src/services/lifegoal_service.ts:120-125 | a null or missing plan text becomes the text "null" or "undefined" and is returned, not rejected |
| LifeGoalService.DeleteGoal | client/src/services/lifegoal_service.ts:133-146 | without a user nothing is sent and the call throws; otherwise a DELETE carrying the goal id and type goes to the user's goal URL, and the call returns exactly on a 2xx reply |
| ScheduleSection.NewTask | client/src/components/sections/ScheduleSection.tsx:24-33 | a new task carries the entered title and starts pending, as 30 minutes of medium-priority work |
| ScheduleSection.Toggled | client/src/components/sections/ScheduleSection.tsx:40-44 | every task with the given id flips its completion and every other one is unchanged, in place |
| ScheduleSection.ToggleInvolution | client/src/components/sections/ScheduleSection.tsx:40-44 | toggling the same id twice restores the list of tasks |
| ScheduleSection.PendingPlusCompleted | client/src/components/sections/ScheduleSection.tsx:185 | the pending and completed counts always add up to the number of tasks |
| ScheduleSection.Schedule.constructor | client/src/components/sections/ScheduleSection.tsx:8-19 | the stored tasks and the stored planner mode (or the default sustainable mode with 50/10 blocks, deep work at 9-11 and at most 6 tasks) are shown with an empty, hidden form |
| ScheduleSection.Schedule.Type | client/src/components/sections/ScheduleSection.tsx:121 | typing replaces the new-task title and leaves its tasks, the planner mode and the form's visibility unchanged |
| ScheduleSection.Schedule.AddTask | client/src/components/sections/ScheduleSection.tsx:21-38 | a blank title changes nothing; otherwise exactly one new task is appended and the form is reset; the mode is kept |
| ScheduleSection.Schedule.ToggleTask | client/src/components/sections/ScheduleSection.tsx:40-44 | the list of tasks becomes its toggled version and nothing else changes |
| ScheduleSection.Schedule.SetModeType | client/src/components/sections/ScheduleSection.tsx:90-101 | only the mode type changes; the preferences and tasks are kept |
| ScheduleSection.Schedule.GenerateTimeBlocks | client/src/components/sections/ScheduleSection.tsx:46-62 | eight hourly blocks from 9:00 to 17:00 in order, each deep work exactly when its starting hour is a preferred deep-work hour |
| UseGoals.Patched | client/src/hooks/useGoals.tsx:30 | each field present in the partial update wins; every absent field keeps the goal's value |
| UseGoals.Updated | client/src/hooks/useGoals.tsx:29-31 | the goals with the given id are patched in place and every other goal is unchanged |
| UseGoals.UpdateAbsentIsIdentity | client/src/hooks/useGoals.tsx:29-31 | updating an id no goal has leaves the list as it is |
| UseGoals.UpdateIdempotent | client/src/hooks/useGoals.tsx:29-31 | repeating an update that keeps the id changes nothing more |
| UseGoals.Removed | client/src/hooks/useGoals.tsx:34-36 | a goal stays exactly when it was there and has another id |
| UseGoals.RemovedDistributes | client/src/hooks/useGoals.tsx:34-36 | deleting from a joined list is joining the deleted parts, so the remaining goals keep their order |
| UseGoals.RemovedIdempotent | client/src/hooks/useGoals.tsx:34-36 | deleting leaves the list unchanged exactly when no goal has the id, and deleting twice is deleting once |
| UseGoals.GoalsHook.constructor | client/src/hooks/useGoals.tsx:6-7 | the hook starts with no goals and not loading |
| UseGoals.GoalsHook.BeginAddGoal | client/src/hooks/useGoals.tsx:10-13 | adding first turns loading on and keeps the goals |
| UseGoals.GoalsHook.FinishAddGoal | client/src/hooks/useGoals.tsx:14-25 | after the delay exactly one new medium-priority goal with its mock plan is appended and returned, and loading ends |
| UseGoals.GoalsHook.UpdateGoal | client/src/hooks/useGoals.tsx:29-31 | the goals become their updated version |
| UseGoals.GoalsHook.DeleteGoal | client/src/hooks/useGoals.tsx:34-36 | the goals become their filtered version |
| UserProfile.TextOr | client/src/pages/UserProfile.tsx:39-41 | a present, non-empty text is shown as it is; a missing or empty one gives the fallback |
| UserProfile.NumberText | client/src/pages/UserProfile.tsx:40-43 | a number is shown as its decimal text, and only a missing number shows as empty |
| UserProfile.FormOf | client/src/pages/UserProfile.tsx:39-43 | the fetched profile fills the five inputs, a missing gender showing as 'None' |
| UserProfile.OrNull | client/src/pages/UserProfile.tsx:61-67 | an empty input is sent as null and any other input is parsed |
| UserProfile.BuildUserModel | client/src/pages/UserProfile.tsx:61-67 | each empty input becomes null; name and gender are sent as typed, age through parseInt, height and weight through parseFloat |
| UserProfile.SaveAfterFetch | client/src/pages/UserProfile.tsx:33-67 | saving the form a profile filled in sends the same numbers back, an empty name as null and a missing gender as 'None', so a saved empty profile is no longer empty |
| UserProfile.ProfilePage.constructor | client/src/pages/UserProfile.tsx:24-31 | without an initial profile the page starts with empty inputs, gender 'None', not editing and not empty |
| UserProfile.ProfilePage.FetchProfile | client/src/pages/UserProfile.tsx:33-58 | a fetched profile fills the form and marks the profile empty exactly when none of its five fields is set; a failed fetch changes nothing |
| UserProfile.ProfilePage.StartEditing | client/src/pages/UserProfile.tsx:213-228 | the Create and Edit buttons enter editing and keep the form |
| UserProfile.ProfilePage.Edit | client/src/pages/UserProfile.tsx:119-204 | typing while editing sets the form |
| UserProfile.ProfilePage.HandleEdit | client/src/pages/UserProfile.tsx:69-88 | the form's model is created while the profile is empty and updated otherwise; only a create answered 'success' marks the profile as existing; any answer ends editing and a thrown error keeps it |
| UserService.ListField | client/src/services/user_service.ts:19-21 | an empty field gives no items; any other field gives one trimmed item per comma-separated part |
| UserService.JoinNonEmpty | client/src/services/user_service.ts:19-21 | joined items other than none or the single empty one give a non-empty field |
| UserService.ListFieldOfJoined | client/src/services/user_service.ts:19-51 | a list typed as its trimmed, comma-free items joined by commas comes back item for item |
| UserService.ListFieldOfTrimmedParts | client/src/services/user_service.ts:19-21 | a field whose comma-separated parts are already trimmed becomes exactly those parts |
| UserService.ToApiData | client/src/services/user_service.ts:16-57 | the eight list fields become comma-split trimmed arrays, the numbers go through parseInt, and every other field is copied under its server name |
| UserService.Write | client/src/services/user_service.ts:9-98 | without a user the call throws before sending anything; without a session token it throws the no-session message; otherwise it sends the body and returns exactly on a 2xx JSON reply, and a failure status throws the reply's message or the default text |
| UserService.SaveUserProfile | client/src/services/user_service.ts:9-98 | without a user it throws before sending; with a user and a token it POSTs the converted profile to the user's add_alldata path; it returns exactly on a 2xx JSON reply |
| UserService.UpdateProfile | client/src/services/user_service.ts:164-218 | without a user it throws before sending; with a user and a token it PATCHes the five fields unchanged to the user's update path; it returns exactly on a 2xx JSON reply |
| UserService.SaveUserData | client/src/services/user_service.ts:219-280 | without a user it throws before sending; with a user and a token it POSTs the five fields unchanged to the user's add path; it returns exactly on a 2xx JSON reply |
| UserService.GetUserProfile | client/src/services/user_service.ts:100-162 | without a user the call throws; a 403 saying "cannot get user data" (in any case) gives the all-null profile; any other profile returned is the data of a 2xx JSON reply; any other JSON failure throws its message or the default text |
| Store.OwnedBy | server/domain/repositories/users.go:55-57 | the rows a `user_id=eq.` query returns are exactly the table's rows owned by that user |
| Store.WithId | server/domain/repositories/schedule.go:61-78 | the rows an `id=eq.` query returns are exactly the table's rows with that id |
| Store.Drop | server/domain/repositories/lifegoal.go:117-125 | a delete by id keeps exactly the rows with another id |
| Store.DropPartitions | server/domain/repositories/lifegoal.go:117-125 | the rows a delete removes and the rows it keeps add up to the table |
| Store.OwnedByDrop | server/domain/repositories/lifegoal.go:117-125 | a user's rows after a delete are the user's rows before it, minus the deleted id |
| Store.OwnedByAppend | server/domain/repositories/lifegoal.go:32-43 | an inserted row comes last among its owner's rows and changes no other user's rows |
| Store.PatchWithId | server/domain/repositories/lifegoal.go:83-92 | a PATCH by id rewrites exactly the rows with that id, in place |
| Store.PatchConcat | server/domain/repositories/lifegoal.go:83-92 | patching a joined table is patching each part |
| Store.OwnedByPatch | server/domain/repositories/lifegoal.go:83-92 | a patch that keeps owners commutes with selecting a user's rows |
| Store.ExactlyOne | server/domain/repositories/users.go:68-75 | a users or life-goal lookup succeeds exactly when the query works and finds one row, which it returns; no row is "not found" and several are an error |
| Store.FirstOf | server/domain/repositories/health_background.go:69-72 | a health, finance, schedule, prompt or plan lookup succeeds exactly when the query works and finds a row, and returns the first |
| Store.Database.constructor | server/domain/datasources/supabase.go:14-28 | the database holds the given tables |
| UsersService.InsertNewUser | server/src/services/users.go:52-63 | a failing insert returns its error and stores nothing; otherwise one profile row is appended under the path's user id with both time stamps set to now |
| UsersService.Merge | server/src/services/users.go:74-105 | every field the patch leaves at its zero value comes from the stored profile, every other field from the patch, and the update time is now |
| UsersService.ZeroPatchKeepsStored | server/src/services/users.go:82-105 | an all-zero patch writes the stored profile back with only the update time changed |
| UsersService.MergeIdempotent | server/src/services/users.go:82-105 | merging the merged profile again against the same stored profile changes nothing |
| UsersService.MergeNeverClears | server/src/services/users.go:82-105 | a field the stored profile has filled in is never cleared by an update |
| UsersService.PatchOwned | server/domain/repositories/users.go:79-89 | a PATCH by user id replaces exactly the user's rows, in place |
| UsersService.UpdateUser | server/src/services/users.go:74-115 | a failing profile lookup returns its error and writes nothing; a failing update writes nothing; otherwise the merged profile replaces the user's row |
| UsersService.DeleteAllData | server/src/services/users.go:117-167 | the life goal, finance record, health background and schedule are deleted in that order until the first failure, which is returned; earlier deletes stay; profile, prompts, plans and chats are never touched |
| UsersService.CleanDeleteRemovesLifeGoal | server/src/services/users.go:117-167 | with nothing failing, a user with one life goal and a row in each other table ends with no life goal |
| ServerLifeGoalService.EmptyListsAreValid | server/src/gateways/lifegoal.go:28-29 | a create body passes with empty lists and a time frame; only a missing list or an empty time frame is refused |
| ServerLifeGoalService.NewLifeGoal | server/src/services/lifegoal.go:35-41 | the stored life goal carries the body's lists and time frame under the given user, with both time stamps now |
| ServerLifeGoalService.InsertLifeGoal | server/src/services/lifegoal.go:30-52 | an empty user id is refused and nothing is stored; a failing insert stores nothing; otherwise exactly one life-goal row is appended |
| ServerLifeGoalService.Rewrite | server/src/services/lifegoal.go:87-89 | an update replaces the lists and time frame and sets the update time, keeping the id, owner and creation time |
| ServerLifeGoalService.UpdateLifeGoal | server/src/services/lifegoal.go:87-96 | a failing update changes nothing; otherwise the rows with the path's id, and only those, are rewritten |
| ServerLifeGoalService.UpdateReadsBack | server/domain/repositories/lifegoal.go:60-92 | after updating a user's only life goal by its id, the next lookup by user id reads the rewritten goal |
| ScheduleService.EmptyListsAreValid | server/src/gateways/schedule.go:86 | a create body passes with empty lists; only a missing list, work hours or available time is refused |
| ScheduleService.NewSchedule | server/src/services/schedule.go:38-53 | the stored schedule carries the body's fields under the path's user id, whatever the body names, with both time stamps now |
| ScheduleService.CreateSchedule | server/src/services/schedule.go:38-53 | an empty user id is refused and nothing is stored; a failing insert stores nothing; otherwise exactly one schedule row is appended |
| ScheduleService.Overwrite | server/src/services/schedule.go:75-91 | an update writes the whole body over the row, its user id and creation time included, sets the update time and keeps only the row's id |
| ScheduleService.UpdateSchedule | server/src/services/schedule.go:75-91 | an empty schedule id or body user id is refused; a failing update changes nothing; otherwise the rows with that id are overwritten |
| ScheduleService.UpdateCanMoveSchedule | server/src/services/schedule.go:75-91 | an update naming another user moves the schedule out of its former owner's rows, and a body without creation time resets it to the zero time |
| HealthService.EmptyListsAreValid | server/src/gateways/health_background.go:67 | an insert body passes with empty lists; a missing list is refused |
| HealthService.GetHealthByUserID | server/src/services/health_backgroung.go:37-48 | an empty user id is an error; the lookup succeeds exactly when the query works and the user has a health row, and returns one of the user's rows |
| HealthService.NewHealth | server/src/services/health_backgroung.go:49-65 | the stored health background carries the body's fields under the given user, with both time stamps now |
| HealthService.InsertHealth | server/src/services/health_backgroung.go:49-65 | an empty user id is refused and nothing is stored; a failing insert stores nothing; otherwise exactly one health row is appended |
| HealthService.InsertThenGet | server/src/services/health_backgroung.go:37-65 | a user's first health background is what the lookup reads back; once the user has one, a later insert does not change what is read |
| FinanceService.AmountsNotChecked | server/src/gateways/finance.go:64 | any amounts, negative ones included, pass the create check; only currency and risk tolerance are checked |
| FinanceService.NewFinance | server/src/services/finance.go:47-57 | the stored finance record carries the body's currency, amounts and risk tolerance under the path's user id, with both time stamps now |
| FinanceService.CreateFinance | server/src/services/finance.go:47-57 | a failing insert stores nothing; otherwise exactly one finance row is appended, with no guard on the id |
| AiPromptService.FindSources | server/src/services/ai_prompt.go:38-67 | the five lookups succeed together or the first failure decides the error; every record found belongs to the user |
| AiPromptService.NewPrompt | server/src/services/ai_prompt.go:69-82 | the stored prompt carries the composed text and the ids of the life goal, health, finance and schedule records it was built from |
| AiPromptService.CreateAIPrompt | server/src/services/ai_prompt.go:37-84 | the first failing lookup, an empty user id or a failing insert returns its error and stores nothing; otherwise exactly one prompt row is appended |
| AiPromptService.PromptNeedsOneLifeGoal | server/domain/repositories/lifegoal.go:60-80 | with a profile and rows in the other tables, a prompt can be built exactly when the user has one life goal; a second life goal makes it fail |
| AiPromptService.DeleteAIPrompt | server/src/services/ai_prompt.go:86-94 | a failing delete changes nothing; otherwise the prompt with that id is deleted |
| AiGenService.Generate | server/domain/repositories/ai_gen.go:44-56 | an empty prompt is refused before the model is asked; otherwise the text is the model's reply, or an error when the model fails |
| AiGenService.NewPlan | server/src/services/ai_gen.go:58-67 | the stored plan carries the generated text and links to the prompt and to the prompt's four records |
| AiGenService.GenerateLifeGoal | server/src/services/ai_gen.go:44-75 | a failing prompt query gives an empty text; a user without prompts panics; otherwise the user's first prompt is sent to the model, an error is returned as is, and a generated text is returned and stored unless the plan insert fails |
| AiGenService.ChatReply | server/domain/repositories/ai_gen.go:156-169 | an empty message is refused before the model is asked; otherwise the reply is the model's, or an error when the model fails |
| AiGenService.GenereateAiAssist | server/src/services/ai_gen.go:97-134 | the message is stored with sender "user", the history read, a reply generated from it and stored with sender "ai"; the first failure ends the request and what was stored before it stays |
| AiGenService.Completed | server/src/services/ai_gen.go:157-201 | the count of deletes that run is the length of the longest fault-free start of the cascade |
| AiGenService.DeleteGenGoalByID | server/src/services/ai_gen.go:157-201 | a failing plan lookup deletes nothing; otherwise the plan, its prompt, life goal, finance record, health background and schedule are deleted in order until the first failure, which is returned |
| LifeGoalGateway.CreateLifeGoal | server/src/gateways/lifegoal.go:18-36 | 422 for an empty user id, then for an unparseable body or a missing list or time frame; 403 when the insert fails; otherwise 200 and the goal is stored under the user |
| LifeGoalGateway.GetLifeGoalByUserID | server/src/gateways/lifegoal.go:63-74 | 422 for an empty id; 200 with the goal exactly when the query works and the user has one life goal; 403 "cannot get life goal data" otherwise |
| LifeGoalGateway.CreateThenRead | server/src/gateways/lifegoal.go:18-74 | a goal created for a user without one reads back; a second goal for the same user makes the read answer 403 |
| LifeGoalGateway.UpdateLifeGoal | server/src/gateways/lifegoal.go:109-123 | 422 for an empty goal id or an unparseable body; 403 when the update fails; otherwise 200 and the goal with that id is rewritten |
| LifeGoalGateway.UpdateOfUnknownIdIsSilent | server/src/gateways/lifegoal.go:109-123 | an update of an id no goal has still answers 200 and changes no goal |
| ScheduleGateway.GetScheduleByID | server/src/gateways/schedule.go:34-45 | 422 for an empty id; 200 exactly when the query works and a schedule has that id, answering one with that id; 403 otherwise |
| ScheduleGateway.GetScheduleByUserID | server/src/gateways/schedule.go:56-67 | 422 for an empty id; 200 with the user's first schedule exactly when the query works and the user has one; 403 otherwise |
| ScheduleGateway.CreateSchedule | server/src/gateways/schedule.go:79-94 | 422 for an unparseable body, another 422 for a missing field; 403 for an empty path id or a failing insert; otherwise 200 and the schedule is stored under the user |
| ScheduleGateway.CreateThenRead | server/src/gateways/schedule.go:56-94 | a user's first schedule reads back after it is created; a user who had one keeps reading the older one |
| HealthGateway.GetHealthByUserID | server/src/gateways/health_background.go:34-45 | 422 for an empty id; 200 with one of the user's rows exactly when the query works and the user has one; 403 otherwise |
| HealthGateway.InsertHealth | server/src/gateways/health_background.go:57-74 | 422 for an empty user id, an unparseable body or a missing field, in that order; 403 when the insert fails; otherwise 200 and the row is stored under the user |
| HealthGateway.InsertThenRead | server/src/gateways/health_background.go:34-74 | after a successful insert the user's health background can be read |
| FinanceGateway.GetAllFinance | server/src/gateways/finance.go:16-22 | 500 when the query fails; otherwise 200 with every finance record |
| FinanceGateway.GetFinanceByUserID | server/src/gateways/finance.go:33-44 | 422 for an empty id; 200 with the user's first record exactly when the query works and the user has one; 500 otherwise |
| FinanceGateway.UserRecordIsListed | server/src/gateways/finance.go:16-44 | a record the per-user read returns is among the records the list endpoint returns |
| FinanceGateway.CreateFinance | server/src/gateways/finance.go:55-71 | 422 for an empty user id, then for an unparseable body or a missing currency or risk tolerance; 403 when the insert fails; otherwise 200 and the record is stored under the user |
| FinanceGateway.CreateThenRead | server/src/gateways/finance.go:33-71 | after a successful create the user's finance record can be read |
| AiGenGateway.CreateAiGen | server/src/gateways/ai_gen.go:17-28 | 403 when the prompt cannot be built or stored; otherwise the plan is generated from the user's first stored prompt (the new one only when the user had none): 200 with the text, 200 with an empty text when the prompt query fails, 403 when generation fails; because a prompt was just stored the request never reaches the panic (status 500); the tables gain the new prompt, and the plan only when the query, generation and insert all work |
| AiGenGateway.RejectsOnlyAi | server/src/gateways/ai_gen.go:72 | the sender check refuses exactly the sender "ai"; every other sender passes |
| AiGenGateway.GenerateAiAssitant | server/src/gateways/ai_gen.go:66-80 | 422 for an unparseable body or the sender "ai"; 200 with the reply when every step works; 403 "cannot get gen chat." otherwise; the chats gain the user's message once it is stored, and the model's reply after it only when generation and its insert work |
| AiGenGateway.DeleteGenGoal | server/src/gateways/ai_gen.go:126-133 | 200 exactly when the plan is found and every delete of the cascade works; 403 otherwise; the tables lose the plan, then the prompt, life goal, finance, health and schedule rows it refers to, each only while the deletes before it worked |
| Responses.AsReceived | server/src/gateways/lifegoal.go:35 | the client receives a JSON reply with the handler's status, counted as ok exactly for 2xx; the message it shows is the handler's, or the client's default when the handler sent none; the data is the handler's |
| UsersGateway.CreateUser | server/src/gateways/users.go:36-51 | an unparseable body or a profile without a name, gender, age, height or weight is 422 and stores nothing; a failing insert is 403; otherwise 200 and the profile is stored under the path's user with both time stamps now |
| UsersGateway.GetUserByID | server/src/gateways/users.go:62-73 | 422 for an empty id; 200 with a stored profile of that user exactly when the lookup works; 403 "cannot get user data" otherwise |
| UsersGateway.NotExactlyOneProfile | server/src/gateways/users.go:62-73 | a user with no profile or with several reads as 403 "cannot get user data" |
| UsersGateway.UpdateUser | server/src/gateways/users.go:85-97 | 422 for an unparseable body; 403 when the lookup or the update fails, changing nothing; otherwise 200 and the path user's profile is merged with the body |
| UsersGateway.UpdateWritesOnlyPathUser | server/src/gateways/users.go:91 | whatever user id the body names, only the path user's rows change and no row changes owner |
| UsersGateway.ScheduleOf | server/src/gateways/users.go:143-148 | the schedule checked and stored carries the path's user id and the body's four schedule fields |
| UsersGateway.PassedFrom | server/src/gateways/users.go:136-181 | counts the sections from a given one on that pass their check and their insert, stopping at the first that does not |
| UsersGateway.Passed | server/src/gateways/users.go:136-181 | every section before the count passes its check and insert; the section at the count, if any, does not |
| UsersGateway.Rejection | server/src/gateways/users.go:136-181 | the section that stops the request answers 422 when its check fails and 403 when its insert does |
| UsersGateway.PostAllInfomation | server/src/gateways/users.go:109-184 | 422 for an unparseable body; otherwise the sections are stored in order up to the first that fails, which decides the answer, and 200 only after all four are stored |
| UsersGateway.EmptyListsGoThrough | server/src/gateways/users.go:136-181 | a setup body whose lists are all present but empty is stored in full when nothing fails |
| UsersGateway.DeleteUserData | server/src/gateways/users.go:195-201 | 200 exactly when every delete of the user's data works, else 403; the profile, prompts, plans and chats stay, and life goals, finance, health and schedules are dropped in that order, each only while the ones before it worked |
| ClientServer.MissingProfileReadsEmpty | client/src/services/user_service.ts:100-162 | a signed-in user the server holds no single profile for gets the empty profile in the client, not an error |
| ClientServer.LifeGoalRefusalReadsEmpty | client/src/services/lifegoal_service.ts:7-73 | the server's refusal of a user without exactly one life goal reaches the client as the empty life-goal record |
| ClientServer.RefusalIsNoUserData | client/src/services/user_service.ts:100-162 | the server's exact profile refusal text is one the user service reads as "no profile yet" |
| ClientServer.RefusalIsNoLifeGoalData | client/src/services/lifegoal_service.ts:7-73 | the server's exact life-goal refusal text is one the life-goal service reads as "no life goal yet" |
| ClientServer.SubmitSetupTwice | server/src/gateways/users.go:109-184 | after one complete setup the life goal reads back; after a second one the server refuses the read and the client shows the empty life goal |
| Common.SplitJoin | client/src/services/user_service.ts:19-21 | splitting at a separator undoes joining with it, for parts that do not contain it |
| Common.BlankIffAllSpace | client/src/components/sections/GoalsSection.tsx:13 | a text trims to nothing exactly when every character of it is white space |
| Common.PadTwo | client/src/components/sections/BonusSection.tsx:184 | the padded text is all digits, has the number's value, and is exactly two long for numbers below 100 |

## Left out

- HTTP, Supabase and authentication I/O: every fetch, query and session lookup is an input (a reply, a set of failing operations, a token or none); JSON encoding and decoding are not modelled, and an unparseable body is `None`.
- Concurrency: each handler and each server request is one atomic step; late responses, races and missing cancellation are not modelled.
- Timers: setTimeout and setInterval delays are collapsed: a tick is one step, and a live focus interval is the length it captured. The order in which two live intervals fire within one second is the caller's choice of interval.
- Dates and clocks: `Date.now()` ids, ISO dates and the server's shifted time stamps are parameters (`now`, `today`, fresh ids).
- Randomness: the random card counters and sample picks are left out; goal cards carry no date or counters.
- Markdown and HTML rendering: the rendered plan and chat HTML are parameters.
- Text: toLowerCase is modelled on ASCII letters only, and trim on ASCII white space and the common Unicode spaces.
- Number parsing: parseInt and parseFloat are parameters that may fail (NaN, sent as null).
- FinancePage.RequiredMonthly: a parsed number is an integer, so parseInt's negative zero is not kept. A timeframe of "-0" is read as 0: a positive goal then asks plus Infinity (an infinite deficit), where the page divides by -0, gets minus Infinity and shows an infinite surplus; a negative goal is mirrored the same way.
- UserProfile.BuildUserModel: parseFloat is taken as integer-valued, so fractional heights and weights are not modelled.
- UserService.ToApiData: the numbers are whatever the parseInt parameter gives; NaN is modelled as a missing number.
- Floating point: toFixed rates and the float32/float64 entity fields are not modelled. Money amounts are integers, and the insight averages use exact reals with Math.round.
- The language model (Gemini) is a parameter function that may fail; the prompt text is the opaque `compose` parameter.
- AiGenService.GenerateLifeGoal: the panic on a user without prompts is the outcome `Panicked`, answered with status 500 and an empty message; the recover middleware's plain-text body is not modelled.
- A failing operation in the fault set fails every call of that kind within the request; a request cannot see a call that fails once and then succeeds.
- Pass-through endpoints and services with no logic of their own are not modelled: the GetAll* listings other than finance, GetGenGoalByUserID, GetAiGenChatByUserID, DeleteGenChat, GetAllGenGoal and GetLifeGoalByID; the ai-prompt, habits and mood gateways; the habits, finance and mood services beyond the finance insert.
- The habits, mood, chat and aigen client services are not modelled; their sign-in precondition and message rule are the ones UserService models.
- BonusSection's weekly reflection text and the clip-path drawing of the focus ring are presentation only.
- Presentational components, the landing, login and signup pages, mockData.ts and the type definitions are not part of this model beyond the datatypes they contribute.

## Findings

| source | as written | input that shows it | evidently intended | confidence | as-written member | corrected member |
|---|---|---|---|---|---|---|
| client/src/pages/GoalsOverview.tsx:365-384 | handleDeleteGoal announces success whenever deleteGoal returns, but deleteGoal reports a refused delete by returning a result, not by throwing | a DELETE the server refuses, for example with status 403, which deleteGoal turns into a returned result with status 500 | announce success only for a successful result and show the error otherwise | not executed | GoalsOverview.DeleteFailureScenario | GoalsOverview.OverviewPage.HandleDeleteGoalChecked |
| client/src/components/sections/BonusSection.tsx:69-73 | stopTimer sets the timer stopped but never clears the interval, which keeps counting the dial down | start, stop, and one second later the stopped dial shows 24:59; start again and every second lowers it by two | clear the interval when the timer stops | not executed | BonusSection.StopKeepsCounting | BonusSection.FocusTimer.StopChecked |
| client/src/components/sections/InsightsSection.tsx:11-23 | the habit figures read `habit.streak`, a field stored habits do not have (they carry currentStreak) | any habit with a current streak of 3: the panel shows 0 completed and a longest streak of NaN | count and maximise currentStreak | not executed | Insights.HabitFiguresAsWritten | Insights.LongestStreakChecked |
| client/src/components/sections/BonusSection.tsx:51-66 | when the countdown reaches 0:00 it stops and resets to the full length with 59 seconds | a tick at 0 minutes 0 seconds with a 25-minute focus length shows 25:59 | reset to the full length with 0 seconds, as stopTimer does | not executed | BonusSection.FinishedCountdown | BonusSection.FocusTimer.TickChecked |

=== FILE: app_shell.dfy ===
// The application shell: login state, the active tab, the copy of the active
// tab kept in browser storage, and which page is rendered for them.

module AppShell {
  import opened Common

  /** The storage key 'activeTab' as read back: `savedTab || 'dashboard'`. */
  function RestoredTab(stored: Option<string>): (tab: string)
    ensures tab != ""
    ensures stored.Some? && stored.value != "" ==> tab == stored.value
  {
    if stored.Some? && stored.value != "" then stored.value else "dashboard"
  }

  /** A signed-in session as the auth client reports it: the user's id, possibly missing. */
  datatype Session = Session(userId: Option<string>)

  class App {
    var activeTab: string
    var loggedIn: bool
    var loading: bool
    var userId: Option<string>
    /** localStorage['activeTab'] */
    var storedTab: Option<string>

    /**
     * The stored tab is never 'login', and while the active tab is not
     * 'login' the storage is either empty or holds the active tab.
     */
    predicate Synced()
      reads this
    {
      storedTab.Some? ==> storedTab.value != "login" && (activeTab != "login" ==> storedTab.value == activeTab)
    }

    /**
     * Mounting: tab 'dashboard', loading, logged out. The persistence effect
     * runs once on mount and overwrites whatever was stored before.
     */
    constructor(previouslyStored: Option<string>)
      ensures Synced()
      ensures activeTab == "dashboard" && !loggedIn && loading && userId.None?
      ensures storedTab == Some("dashboard")
    {
      activeTab := "dashboard";
      loggedIn := false;
      loading := true;
      userId := None;
      storedTab := previouslyStored;
      storedTab := Some("dashboard");
    }

    /** setActiveTab followed by the persistence effect, which runs only when the tab changed and never stores 'login'. */
    method SetTab(tab: string)
      requires Synced()
      modifies this
      ensures Synced()
      ensures activeTab == tab
      ensures tab != old(activeTab) && tab != "login" ==> storedTab == Some(tab)
      ensures tab == old(activeTab) || tab == "login" ==> storedTab == old(storedTab)
      ensures loggedIn == old(loggedIn) && loading == old(loading) && userId == old(userId)
    {
      var changed := tab != activeTab;
      activeTab := tab;
      if changed && tab != "login" {
        storedTab := Some(tab);
      }
    }

    /** handleLogin: logged in, at the stored tab or the dashboard. */
    method HandleLogin()
      requires Synced()
      modifies this
      ensures Synced()
      ensures loggedIn && activeTab == RestoredTab(old(storedTab))
      ensures loading == old(loading) && userId == old(userId)
    {
      loggedIn := true;
      SetTab(RestoredTab(storedTab));
    }

    /** handleLogout (after sign-out): logged out, no user, stored tab removed, tab 'dashboard'. */
    method HandleLogout()
      requires Synced()
      modifies this
      ensures Synced()
      ensures !loggedIn && userId.None? && activeTab == "dashboard"
      ensures storedTab == (if old(activeTab) == "dashboard" then None else Some("dashboard"))
      ensures loading == old(loading)
    {
      loggedIn := false;
      userId := None;
      storedTab := None;
      SetTab("dashboard");
    }

    /**
     * The getSession answer (`first`, which also ends loading) or an auth
     * state change: with a session, logged in as its user at the stored tab
     * or the dashboard; without one, logged out at the dashboard.
     */
    method OnSession(session: Option<Session>, first: bool)
      requires Synced()
      modifies this
      ensures Synced()
      ensures session.Some? ==>
        loggedIn && activeTab == RestoredTab(old(storedTab))
        && userId == (if session.value.userId.Some? && session.value.userId.value != "" then session.value.userId else None)
      ensures session.None? ==> !loggedIn && userId.None? && activeTab == "dashboard"
      ensures loading == (if first then false else old(loading))
    {
      if session.Some? {
        loggedIn := true;
        var id := session.value.userId;
        userId := if id.Some? && id.value != "" then id else None;
        SetTab(RestoredTab(storedTab));
      } else {
        loggedIn := false;
        userId := None;
        SetTab("dashboard");
      }
      if first {
        loading := false;
      }
    }
  }

  /**
   * A reload with a signed-in session always lands on the dashboard,
   * whatever tab was stored before: the mount effect overwrites the storage
   * before the session answer reads it back.
   */
  method ReloadWithSession(previouslyStored: Option<string>, session: Session) returns (tab: string, loggedIn: bool)
    ensures tab == "dashboard" && loggedIn
  {
    var app := new App(previouslyStored);
    app.OnSession(Some(session), true);
    tab := app.activeTab;
    loggedIn := app.loggedIn;
  }

  // ---------------------------------------------------------------------------
  // Rendering
  // ---------------------------------------------------------------------------

  datatype Page =
    | LoadingScreen | LoginPage | LandingPage
    | Dashboard | GoalsOverview | Goals | Profile | Planner | Habits
    | Insights | Assistant | Finance | Bonus | AddHabit

  /** renderContent: the page for a tab id while logged in; unknown ids fall back to the dashboard. */
  function RenderContent(tab: string): Page
  {
    if tab == "dashboard" then Dashboard
    else if tab == "goals-overview" then GoalsOverview
    else if tab == "goals" then Goals
    else if tab == "profile" then Profile
    else if tab == "planner" then Planner
    else if tab == "habits" then Habits
    else if tab == "insights" then Insights
    else if tab == "assistant" then Assistant
    else if tab == "finance" then Finance
    else if tab == "bonus" then Bonus
    else if tab == "login" then LoginPage
    else if tab == "add-habit" then AddHabit
    else Dashboard
  }

  /** What App renders. */
  function Render(loading: bool, loggedIn: bool, tab: string): Page
  {
    if loading then LoadingScreen
    else if !loggedIn then (if tab == "login" then LoginPage else LandingPage)
    else RenderContent(tab)
  }

  /** The tab ids the shell knows. */
  const KnownTabs: seq<string> :=
    ["dashboard", "goals-overview", "goals", "profile", "planner", "habits",
     "insights", "assistant", "finance", "bonus", "login", "add-habit"]

  /** The tab id that names a page, as the navigation uses it. */
  function PageTab(p: Page): Option<string>
  {
    match p
    case Dashboard => Some("dashboard")
    case GoalsOverview => Some("goals-overview")
    case Goals => Some("goals")
    case Profile => Some("profile")
    case Planner => Some("planner")
    case Habits => Some("habits")
    case Insights => Some("insights")
    case Assistant => Some("assistant")
    case Finance => Some("finance")
    case Bonus => Some("bonus")
    case LoginPage => Some("login")
    case AddHabit => Some("add-habit")
    case _ => None
  }

  /** While logged out only the login page or the landing page can appear, the login page exactly for tab 'login'. */
  lemma LoggedOutRouting(tab: string)
    ensures Render(false, false, tab) == LoginPage <==> tab == "login"
    ensures Render(false, false, tab) in {LoginPage, LandingPage}
  {
  }

  /** While logged in, each known tab renders the page named by it, and every other id renders the dashboard. */
  lemma LoggedInRouting(tab: string)
    ensures tab in KnownTabs ==> PageTab(Render(false, true, tab)) == Some(tab)
    ensures tab !in KnownTabs ==> Render(false, true, tab) == Dashboard
    ensures Render(false, true, tab) !in {LoadingScreen, LandingPage}
  {
  }

  /** Loading hides everything else. */
  lemma LoadingScreenOnlyWhileLoading(loading: bool, loggedIn: bool, tab: string)
    ensures Render(loading, loggedIn, tab) == LoadingScreen <==> loading
  {
  }
}

=== FILE: assistant_page.dfy ===
// The assistant page: a chat transcript that opens with a greeting, is
// extended by the stored history and by each exchange with the server, and
// is reset to the greeting when the stored chat is deleted.

module AssistantPage {
  import opened Common
  import opened Http
  import DeleteService

  datatype Message = Message(id: string, content: string, isUser: bool)

  const GreetingText := "Hello! I'm your AI productivity assistant. I can help you plan your goals, create schedules, suggest routines, and optimize your workflow. What would you like to work on today?"
  const ApologyText := "Sorry, I couldn't get a response from the AI."
  const SendErrorText := "There was an error sending your message. Please try again."

  /** The one message a fresh transcript holds. */
  const Greeting := Message("1", GreetingText, false)

  /** One stored chat row, as the history endpoint lists them. */
  datatype ChatRecord = ChatRecord(id: string, message: string, sender: string, createdAt: string)

  /** The history reply: its message and its data, when the data is an array. */
  datatype HistoryResponse = HistoryResponse(message: string, data: Option<seq<ChatRecord>>)

  /** The send reply's data: a string, or anything else. */
  datatype ChatData = TextData(text: string) | OtherData
  datatype ChatResponse = ChatResponse(message: string, data: ChatData)

  /** The body sent for a user message. */
  datatype ChatRequest = ChatRequest(message: string, sender: string)

  /** The history mapping: each record becomes a message, from the user exactly when its sender is 'user'. */
  function HistoryMessages(records: seq<ChatRecord>): (ms: seq<Message>)
    ensures |ms| == |records|
    ensures forall i :: 0 <= i < |records| ==>
      ms[i].id == records[i].id && ms[i].content == records[i].message
      && (ms[i].isUser <==> records[i].sender == "user")
  {
    if records == [] then []
    else [Message(records[0].id, records[0].message, records[0].sender == "user")] + HistoryMessages(records[1..])
  }

  /** The history is used only when the reply says 'success' and its data is an array. */
  function MergedHistory(current: seq<Message>, fetched: Outcome<HistoryResponse>): (ms: seq<Message>)
    ensures |ms| >= |current| && ms[..|current|] == current
    ensures fetched.Returned? && fetched.value.message == "success" && fetched.value.data.Some? ==>
      var records := fetched.value.data.value;
      && |ms| == |current| + |records|
      && forall i :: 0 <= i < |records| ==>
           ms[|current| + i].content == records[i].message
           && (ms[|current| + i].isUser <==> records[i].sender == "user")
    ensures !(fetched.Returned? && fetched.value.message == "success" && fetched.value.data.Some?) ==> ms == current
  {
    if fetched.Returned? && fetched.value.message == "success" && fetched.value.data.Some? then
      current + HistoryMessages(fetched.value.data.value)
    else current
  }

  /** The text of the assistant's reply to one send. */
  function ReplyContent(reply: Outcome<ChatResponse>): (text: string)
    ensures reply.Returned? && reply.value.message == "success" && reply.value.data.TextData? ==>
      text == reply.value.data.text
    ensures reply.Returned? && !(reply.value.message == "success" && reply.value.data.TextData?) ==> text == ApologyText
    ensures reply.Threw? ==> text == SendErrorText
  {
    match reply
    case Threw(_) => SendErrorText
    case Returned(r) => if r.message == "success" && r.data.TextData? then r.data.text else ApologyText
  }

  class ChatPage {
    var messages: seq<Message>
    var input: string
    var loading: bool
    var showDeleteConfirm: bool

    /** The greeting always opens the transcript. */
    predicate Valid()
      reads this
    {
      |messages| >= 1 && messages[0] == Greeting
    }

    constructor()
      ensures Valid()
      ensures messages == [Greeting] && input == "" && !loading && !showDeleteConfirm
    {
      messages := [Greeting];
      input := "";
      loading := false;
      showDeleteConfirm := false;
    }

    /** fetchChatHistory on mount: the history, if usable, goes after what is already there. */
    method FetchHistory(fetched: Outcome<HistoryResponse>)
      requires Valid()
      modifies this
      ensures Valid()
      ensures messages == MergedHistory(old(messages), fetched)
      ensures input == old(input) && loading == old(loading) && showDeleteConfirm == old(showDeleteConfirm)
    {
      messages := MergedHistory(messages, fetched);
    }

    method Type(text: string)
      modifies this
      ensures input == text
      ensures messages == old(messages) && loading == old(loading) && showDeleteConfirm == old(showDeleteConfirm)
    {
      input := text;
    }

    /**
     * The send itself, once the input is known not to be blank: the untrimmed
     * input goes out as the user's message, and the transcript gains exactly
     * that message and then the reply. `now` is the clock's id source.
     */
    method Send(now: nat, reply: Outcome<ChatResponse>) returns (request: ChatRequest)
      requires Valid()
      modifies this
      ensures Valid()
      ensures request == ChatRequest(old(input), "user")
      ensures messages == old(messages) + [Message(NatToString(now), old(input), true)]
                                        + [Message(NatToString(now + 1), ReplyContent(reply), false)]
      ensures input == "" && !loading && showDeleteConfirm == old(showDeleteConfirm)
    {
      var userMessage := Message(NatToString(now), input, true);
      messages := messages + [userMessage];
      input := "";
      loading := true;
      request := ChatRequest(userMessage.content, "user");
      messages := messages + [Message(NatToString(now + 1), ReplyContent(reply), false)];
      loading := false;
    }

    /**
     * handleSend, as one step (Enter also triggers it, so `loading` is not
     * checked): a blank input changes nothing and sends nothing; any other
     * input is sent.
     */
    method HandleSend(now: nat, reply: Outcome<ChatResponse>) returns (request: Option<ChatRequest>)
      requires Valid()
      modifies this
      ensures Valid()
      ensures IsBlank(old(input)) ==>
        request.None? && messages == old(messages) && input == old(input) && loading == old(loading)
      ensures !IsBlank(old(input)) ==>
        && request == Some(ChatRequest(old(input), "user"))
        && messages == old(messages) + [Message(NatToString(now), old(input), true)]
                                     + [Message(NatToString(now + 1), ReplyContent(reply), false)]
        && input == "" && !loading
      ensures showDeleteConfirm == old(showDeleteConfirm)
    {
      if IsBlank(input) {
        return None;
      }
      var sent := Send(now, reply);
      return Some(sent);
    }

    method AskDeleteConfirm(show: bool)
      modifies this
      ensures showDeleteConfirm == show
      ensures messages == old(messages) && input == old(input) && loading == old(loading)
    {
      showDeleteConfirm := show;
    }

    /** handleDeleteChat: a 'success' resets the transcript to the greeting and closes the dialog; anything else changes nothing. */
    method HandleDeleteChat(result: Outcome<DeleteService.MessageResult>)
      requires Valid()
      modifies this
      ensures Valid()
      ensures result == Returned(DeleteService.MessageResult("success")) ==> messages == [Greeting] && !showDeleteConfirm
      ensures result != Returned(DeleteService.MessageResult("success")) ==>
        messages == old(messages) && showDeleteConfirm == old(showDeleteConfirm)
      ensures input == old(input) && loading == old(loading)
    {
      if result.Returned? && result.value.message == "success" {
        messages := [Greeting];
        showDeleteConfirm := false;
      }
    }
  }
}

=== FILE: assistant_section.dfy ===
// The dashboard's assistant section: a canned-answer chat whose reply is
// chosen by case-insensitive keywords in the trimmed question.

module AssistantSection {
  import opened Common

  /** The five canned answers (their multi-line texts are not reproduced). */
  datatype Answer = ThesisPlan | BalancePlan | ProgrammingPlan | HabitsPlan | GeneralTips

  /** generateAIResponse: the first keyword group found in the lower-cased input decides the answer. */
  function Respond(question: string): (a: Answer)
    ensures var q := Lower(question);
      && (a == ThesisPlan <==> Contains(q, "thesis"))
      && (a == BalancePlan <==> !Contains(q, "thesis") && (Contains(q, "balance") || Contains(q, "study")))
      && (a == ProgrammingPlan <==>
            && !Contains(q, "thesis") && !Contains(q, "balance") && !Contains(q, "study")
            && (Contains(q, "programming") || Contains(q, "coding")))
      && (a == HabitsPlan <==>
            && !Contains(q, "thesis") && !Contains(q, "balance") && !Contains(q, "study")
            && !Contains(q, "programming") && !Contains(q, "coding")
            && (Contains(q, "habit") || Contains(q, "consistent")))
      && (a == GeneralTips <==>
            && !Contains(q, "thesis") && !Contains(q, "balance") && !Contains(q, "study")
            && !Contains(q, "programming") && !Contains(q, "coding")
            && !Contains(q, "habit") && !Contains(q, "consistent"))
  {
    var q := Lower(question);
    if Contains(q, "thesis") then ThesisPlan
    else if Contains(q, "balance") || Contains(q, "study") then BalancePlan
    else if Contains(q, "programming") || Contains(q, "coding") then ProgrammingPlan
    else if Contains(q, "habit") || Contains(q, "consistent") then HabitsPlan
    else GeneralTips
  }

  /** The answer depends only on the lower-cased question: re-asking in any other letter case gives the same answer. */
  lemma RespondIgnoresCase(question: string, other: string)
    requires Lower(question) == Lower(other)
    ensures Respond(question) == Respond(other)
    ensures Respond(question) == Respond(Lower(question))
  {
    LowerIdempotent(question);
  }

  /** A question mentioning the thesis gets the thesis plan whatever else it mentions. */
  lemma ThesisWins(question: string, extra: string)
    requires Contains(Lower(question), "thesis")
    ensures Respond(question + extra) == ThesisPlan
    ensures Respond(extra + question) == ThesisPlan
  {
    var q := Lower(question);
    assert Lower(question + extra) == q + Lower(extra);
    assert Lower(extra + question) == Lower(extra) + q;
    ContainsExtend(q, "thesis", [], Lower(extra));
    assert [] + q + Lower(extra) == q + Lower(extra);
    ContainsExtend(q, "thesis", Lower(extra), []);
    assert Lower(extra) + q + [] == Lower(extra) + q;
  }

  datatype Message =
    | Welcome
    | FromUser(id: string, text: string)
    | Reply(id: string, answer: Answer)

  class ChatSection {
    var messages: seq<Message>
    var input: string

    constructor()
      ensures messages == [Welcome] && input == ""
    {
      messages := [Welcome];
      input := "";
    }

    method Type(text: string)
      modifies this
      ensures input == text && messages == old(messages)
    {
      input := text;
    }

    /**
     * handleSend: a blank input changes nothing; otherwise the trimmed input
     * and the answer to it are appended, in that order, and the input is
     * cleared. `now` is the clock's id source.
     */
    method HandleSend(now: nat)
      modifies this
      ensures IsBlank(old(input)) ==> messages == old(messages) && input == old(input)
      ensures !IsBlank(old(input)) ==>
        && messages == old(messages) + [FromUser(NatToString(now), Trim(old(input))),
                                        Reply(NatToString(now + 1), Respond(Trim(old(input))))]
        && input == ""
    {
      var question := Trim(input);
      if question == [] {
        return;
      }
      messages := messages + [FromUser(NatToString(now), question), Reply(NatToString(now + 1), Respond(question))];
      input := "";
    }
  }
}

=== FILE: bonus_page.dfy ===
// The bonus page: a Pomodoro timer cycling work sessions and breaks (a long
// break after every fourth pomodoro), its mm:ss display, and the mood logger.

module BonusPage {
  import opened Common

  // ---------------------------------------------------------------------------
  // Sessions
  // ---------------------------------------------------------------------------

  datatype Session = Work | ShortBreak | LongBreak

  /** sessionTypes[s].duration, in seconds. */
  function Duration(s: Session): (d: nat)
    ensures d > 0
  {
    match s
    case Work => 25 * 60
    case ShortBreak => 5 * 60
    case LongBreak => 15 * 60
  }

  /** sessionTypes[s].label */
  function Label(s: Session): string
  {
    match s
    case Work => "Focus Time"
    case ShortBreak => "Short Break"
    case LongBreak => "Long Break"
  }

  /** getNextSession: after work, a long break when the pomodoro about to be counted is a multiple of four; after a break, work. */
  function NextSession(current: Session, completed: nat): (next: Session)
    ensures next == Work <==> current != Work
  {
    if current == Work then (if (completed + 1) % 4 == 0 then LongBreak else ShortBreak) else Work
  }

  /** Breaks and work sessions alternate, and the break after work is long exactly on every fourth pomodoro. */
  lemma NextSessionCycle(current: Session, completed: nat)
    ensures current == Work ==> NextSession(current, completed) != Work
    ensures current == Work ==> (NextSession(current, completed) == LongBreak <==> (completed + 1) % 4 == 0)
    ensures current != Work ==> NextSession(current, completed) == Work
  {
  }

  // ---------------------------------------------------------------------------
  // mm:ss
  // ---------------------------------------------------------------------------

  /** formatTime: minutes and seconds, each padded to two digits, joined by ':'. */
  function FormatTime(seconds: nat): (t: string)
    ensures |t| >= 5 && t[|t| - 3] == ':'
    ensures forall i :: 0 <= i < |t| && i != |t| - 3 ==> IsDigit(t[i])
    ensures DigitsValue(t[|t| - 2..]) == seconds % 60 < 60
    ensures DigitsValue(t[..|t| - 3]) == seconds / 60
    ensures seconds < 100 * 60 ==> |t| == 5
  {
    var mm := PadTwo(seconds / 60);
    var ss := PadTwo(seconds % 60);
    var t := mm + ":" + ss;
    assert t[..|t| - 3] == mm;
    assert t[|t| - 2..] == ss;
    t
  }

  predicate AllDigits(s: string)
  {
    forall i :: 0 <= i < |s| ==> IsDigit(s[i])
  }

  /** Reading an "m:ss" display back as a number of seconds. */
  function ParseTime(t: string): Option<nat>
  {
    ReadMinutesSeconds(Split(t, ':'))
  }

  /** Minutes and seconds from the pieces of a display: exactly two runs of digits. */
  function ReadMinutesSeconds(parts: seq<string>): Option<nat>
  {
    if |parts| == 2 && AllDigits(parts[0]) && AllDigits(parts[1]) then
      Some(DigitsValue(parts[0]) * 60 + DigitsValue(parts[1]))
    else None
  }

  /** The display is its minutes and its seconds, both all digits, around the one ':'. */
  lemma FormatTimeParts(seconds: nat)
    ensures var t := FormatTime(seconds);
      && t == t[..|t| - 3] + ":" + t[|t| - 2..]
      && AllDigits(t[..|t| - 3]) && AllDigits(t[|t| - 2..])
  {
    var t := FormatTime(seconds);
    var mm, ss := t[..|t| - 3], t[|t| - 2..];
    assert t == mm + ":" + ss;
    forall i | 0 <= i < |mm| ensures IsDigit(mm[i]) { assert mm[i] == t[i]; }
    forall i | 0 <= i < |ss| ensures IsDigit(ss[i]) { assert ss[i] == t[|t| - 2 + i]; }
  }

  lemma DigitsHaveNoColon(s: string)
    requires AllDigits(s)
    ensures ':' !in s
  {
    forall i | 0 <= i < |s| ensures s[i] != ':' { assert IsDigit(s[i]); }
  }

  /** Two runs of digits around a ':' read back as minutes and seconds. */
  lemma ParseJoined(mm: string, ss: string)
    requires AllDigits(mm) && AllDigits(ss)
    ensures ParseTime(mm + ":" + ss) == Some(DigitsValue(mm) * 60 + DigitsValue(ss))
  {
    DigitsHaveNoColon(mm);
    DigitsHaveNoColon(ss);
    SplitAroundColon(mm, ss);
    ReadTwoRuns(mm, ss);
  }

  lemma ReadTwoRuns(mm: string, ss: string)
    requires AllDigits(mm) && AllDigits(ss)
    ensures ReadMinutesSeconds([mm, ss]) == Some(DigitsValue(mm) * 60 + DigitsValue(ss))
  {
  }

  lemma SplitAroundColon(mm: string, ss: string)
    requires ':' !in mm && ':' !in ss
    ensures Split(mm + ":" + ss, ':') == [mm, ss]
  {
    assert mm + ":" + ss == mm + [':'] + ss;
    SplitTwo(mm, ':', ss);
  }

  /** The display loses nothing: reading it back gives the number of seconds shown. */
  lemma FormatTimeRoundTrip(seconds: nat)
    ensures ParseTime(FormatTime(seconds)) == Some(seconds)
  {
    var t := FormatTime(seconds);
    FormatTimeParts(seconds);
    ParseJoined(t[..|t| - 3], t[|t| - 2..]);
  }

  // ---------------------------------------------------------------------------
  // The timer
  // ---------------------------------------------------------------------------

  class PomodoroTimer {
    var session: Session
    var time: nat
    var running: bool
    var completed: nat
    var focusMode: bool

    /** The remaining time is positive and never more than the session's length. */
    predicate Valid()
      reads this
    {
      0 < time <= Duration(session)
    }

    /** Work, 25:00, stopped, nothing completed, focus mode off. */
    constructor()
      ensures Valid()
      ensures session == Work && time == 25 * 60 && !running && completed == 0 && !focusMode
    {
      session := Work;
      time := 25 * 60;
      running := false;
      completed := 0;
      focusMode := false;
    }

    /** startNextSession: count the pomodoro when leaving work, move to the next session at its full length, stopped. */
    method StartNextSession()
      modifies this
      ensures Valid()
      ensures session == NextSession(old(session), old(completed))
      ensures completed == old(completed) + (if old(session) == Work then 1 else 0)
      ensures time == Duration(session) && !running && focusMode == old(focusMode)
    {
      var next := NextSession(session, completed);
      if session == Work {
        completed := completed + 1;
      }
      session := next;
      time := Duration(next);
      running := false;
    }

    /**
     * One second of the running interval (it only exists while running with
     * time left): the last second ends the session and starts the next one;
     * any other second counts down by one.
     */
    method Tick()
      requires Valid() && running
      modifies this
      ensures Valid()
      ensures old(time) <= 1 ==>
        session == NextSession(old(session), old(completed)) && time == Duration(session) && !running
        && completed == old(completed) + (if old(session) == Work then 1 else 0)
      ensures old(time) > 1 ==>
        time == old(time) - 1 && session == old(session) && running && completed == old(completed)
      ensures focusMode == old(focusMode)
    {
      if time <= 1 {
        running := false;
        StartNextSession();
      } else {
        time := time - 1;
      }
    }

    /** handlePlayPause */
    method PlayPause()
      modifies this
      ensures running == !old(running)
      ensures session == old(session) && time == old(time) && completed == old(completed) && focusMode == old(focusMode)
    {
      running := !running;
    }

    /** handleSkipSession: stop, then start the next session. */
    method SkipSession()
      modifies this
      ensures Valid()
      ensures session == NextSession(old(session), old(completed))
      ensures completed == old(completed) + (if old(session) == Work then 1 else 0)
      ensures time == Duration(session) && !running && focusMode == old(focusMode)
    {
      running := false;
      StartNextSession();
    }

    /** handleTimerReset: work, 25:00, stopped, nothing completed. */
    method Reset()
      modifies this
      ensures Valid()
      ensures session == Work && time == 25 * 60 && !running && completed == 0 && focusMode == old(focusMode)
    {
      session := Work;
      time := 25 * 60;
      running := false;
      completed := 0;
    }

    /** The focus-mode toggle; the reset effect runs when the mode changes to off. */
    method SetFocusMode(on: bool)
      requires Valid()
      modifies this
      ensures Valid()
      ensures focusMode == on
      ensures old(focusMode) && !on ==> session == Work && time == 25 * 60 && !running && completed == 0
      ensures !(old(focusMode) && !on) ==>
        session == old(session) && time == old(time) && running == old(running) && completed == old(completed)
    {
      if on != focusMode {
        focusMode := on;
        if !on {
          running := false;
          session := Work;
          time := 25 * 60;
          completed := 0;
        }
      }
    }
  }

  /**
   * Starting from a reset timer and skipping through sessions, the timer
   * alternates work and breaks, and the long break comes after every fourth
   * completed pomodoro.
   */
  method SkipThroughCycle() returns (breaks: seq<Session>)
    ensures breaks == [ShortBreak, ShortBreak, ShortBreak, LongBreak]
  {
    var t := new PomodoroTimer();
    breaks := [];
    var k := 0;
    while k < 4
      invariant 0 <= k <= 4
      invariant t.session == Work && t.completed == k && |breaks| == k
      invariant breaks == [ShortBreak, ShortBreak, ShortBreak, LongBreak][..k]
      invariant t.Valid()
    {
      t.SkipSession();
      breaks := breaks + [t.session];
      t.SkipSession();
      k := k + 1;
    }
  }

  // ---------------------------------------------------------------------------
  // Mood logging
  // ---------------------------------------------------------------------------

  /** The five mood buttons carry the values 1..5. */
  type MoodValue = v: int | 1 <= v <= 5 witness 1

  /** moods[v - 1].label */
  function MoodLabel(v: MoodValue): string
  {
    ["Very Bad", "Bad", "Okay", "Good", "Excellent"][v - 1]
  }

  datatype MoodRequest = MoodRequest(mood: string, note: string, userId: string)
  datatype MoodData = MoodData(id: int, userId: string, mood: string, note: string, createdAt: string)

  /** The mood endpoint's `data`: one entry or a list of them. */
  datatype MoodPayload = OneMood(entry: MoodData) | ManyMoods(entries: seq<MoodData>)

  function Reverse<T>(s: seq<T>): (r: seq<T>)
    ensures |r| == |s|
    ensures forall i :: 0 <= i < |s| ==> r[i] == s[|s| - 1 - i]
  {
    if s == [] then [] else Reverse(s[1..]) + [s[0]]
  }

  /** fetchMood's normalisation: wrap a single entry into a list, then reverse. */
  function NormaliseMoods(p: MoodPayload): (r: seq<MoodData>)
    ensures p.OneMood? ==> |r| == 1
    ensures p.ManyMoods? ==> |r| == |p.entries|
  {
    match p
    case OneMood(e) => Reverse([e])
    case ManyMoods(es) => Reverse(es)
  }

  /** A single entry becomes a one-element list; a list is shown newest-last reversed, with nothing lost or added. */
  lemma NormaliseMoodsShape(p: MoodPayload)
    ensures p.OneMood? ==> NormaliseMoods(p) == [p.entry]
    ensures p.ManyMoods? ==> NormaliseMoods(p) == Reverse(p.entries)
                              && Reverse(NormaliseMoods(p)) == p.entries
                              && multiset(NormaliseMoods(p)) == multiset(p.entries)
  {
    if p.ManyMoods? {
      var es := p.entries;
      var r := Reverse(es);
      assert Reverse(r) == es;
      ReverseMultiset(es);
    }
  }

  lemma {:induction false} ReverseMultiset<T>(s: seq<T>)
    ensures multiset(Reverse(s)) == multiset(s)
  {
    if s != [] {
      ReverseMultiset(s[1..]);
      assert s == [s[0]] + s[1..];
    }
  }

  class MoodTracker {
    var selectedMood: Option<MoodValue>
    var note: string
    var entries: seq<MoodData>

    constructor()
      ensures selectedMood.None? && note == "" && entries == []
    {
      selectedMood := None;
      note := "";
      entries := [];
    }

    /** A click on one of the five mood buttons. */
    method SelectMood(v: MoodValue)
      modifies this
      ensures selectedMood == Some(v) && note == old(note) && entries == old(entries)
    {
      selectedMood := Some(v);
    }

    /** Typing into the note field replaces the note and nothing else. */
    method TypeNote(s: string)
      modifies this
      ensures note == s && selectedMood == old(selectedMood) && entries == old(entries)
    {
      note := s;
    }

    /**
     * handleMoodSubmit: with a mood selected, send its label and the note
     * (user id left to the server) and clear both selection and note,
     * whatever the request's fate; with nothing selected, nothing happens.
     */
    method HandleMoodSubmit() returns (request: Option<MoodRequest>)
      modifies this
      ensures old(selectedMood).None? ==> request.None? && selectedMood.None? && note == old(note)
      ensures old(selectedMood).Some? ==>
        request == Some(MoodRequest(MoodLabel(old(selectedMood).value), old(note), ""))
        && selectedMood.None? && note == ""
      ensures entries == old(entries)
    {
      request := None;
      if selectedMood.Some? {
        request := Some(MoodRequest(MoodLabel(selectedMood.value), note, ""));
        selectedMood := None;
        note := "";
      }
    }

    /** fetchMood: store the normalised entries; a failed fetch keeps the old ones. */
    method FetchMood(response: Option<MoodPayload>)
      modifies this
      ensures response.Some? ==> entries == NormaliseMoods(response.value)
      ensures response.None? ==> entries == old(entries)
      ensures selectedMood == old(selectedMood) && note == old(note)
    {
      if response.Some? {
        entries := NormaliseMoods(response.value);
      }
    }
  }
}

=== FILE: bonus_section.dfy ===
// The dashboard's bonus section: a stored mood journal holding at most one
// entry per day, and a focus countdown in minutes and seconds.

module BonusSection {
  import opened Common

  /** The five mood and energy buttons carry 1..5. */
  type Level = v: int | 1 <= v <= 5 witness 1

  datatype MoodEntry = MoodEntry(id: string, date: string, mood: Level, energy: Level, notes: string)

  /** No two entries share a date. */
  predicate UniqueDates(entries: seq<MoodEntry>)
  {
    forall i, j :: 0 <= i < j < |entries| ==> entries[i].date != entries[j].date
  }

  class MoodJournal {
    var entries: seq<MoodEntry>
    var currentMood: Option<Level>
    var currentEnergy: Option<Level>
    var notes: string

    predicate Valid()
      reads this
    {
      UniqueDates(entries)
    }

    constructor(stored: seq<MoodEntry>)
      requires UniqueDates(stored)
      ensures Valid()
      ensures entries == stored && currentMood.None? && currentEnergy.None? && notes == ""
    {
      entries := stored;
      currentMood := None;
      currentEnergy := None;
      notes := "";
    }

    /** Typing into the notes field replaces the notes and nothing else. */
    method TypeNotes(s: string)
      modifies this
      ensures notes == s && entries == old(entries)
      ensures currentMood == old(currentMood) && currentEnergy == old(currentEnergy)
    {
      notes := s;
    }

    /** The Save button is enabled once both a mood and an energy level are chosen. */
    predicate SaveEnabled()
      reads this
    {
      currentMood.Some? && currentEnergy.Some?
    }

    /**
     * saveMoodEntry on day `today`: without both selections nothing happens;
     * otherwise today's entry replaces the one already stored for today, in
     * its place, or is appended when there is none, and the selections and
     * notes are cleared.
     */
    method SaveMoodEntry(now: nat, today: string)
      requires Valid()
      modifies this
      ensures Valid()
      ensures !old(SaveEnabled()) ==>
        entries == old(entries) && currentMood == old(currentMood) && currentEnergy == old(currentEnergy) && notes == old(notes)
      ensures old(SaveEnabled()) ==>
        var entry := MoodEntry(NatToString(now), today, old(currentMood).value, old(currentEnergy).value, old(notes));
        && (forall k :: 0 <= k < |old(entries)| && old(entries)[k].date == today ==> entries == old(entries)[k := entry])
        && ((forall k :: 0 <= k < |old(entries)| ==> old(entries)[k].date != today) ==> entries == old(entries) + [entry])
        && currentMood.None? && currentEnergy.None? && notes == ""
    {
      if currentMood.None? || currentEnergy.None? {
        return;
      }
      var entry := MoodEntry(NatToString(now), today, currentMood.value, currentEnergy.value, notes);
      var existing := FindIndex(entries, (e: MoodEntry) => e.date == today);
      if existing >= 0 {
        entries := entries[existing := entry];
      } else {
        entries := entries + [entry];
      }
      currentMood := None;
      currentEnergy := None;
      notes := "";
    }
  }

  // ---------------------------------------------------------------------------
  // Focus timer
  // ---------------------------------------------------------------------------

  /**
   * The focus countdown. Every startFocusTimer starts an interval whose
   * callback closes over the length selected when it started; the only
   * clearInterval runs when that callback finds the dial at 0:00, so an
   * interval stays live across stopTimer. `intervals` holds the captured
   * length of each live interval, oldest first.
   */
  class FocusTimer {
    /** The selected length in minutes (25, 15, 45 or 90). */
    var focusMinutes: nat
    var running: bool
    var minutes: nat
    var seconds: nat
    var intervals: seq<nat>

    /** The seconds still shown on the dial. */
    function Remaining(): nat
      reads this
    {
      minutes * 60 + seconds
    }

    predicate Valid()
      reads this
    {
      seconds < 60
    }

    /**
     * The timer as evidently intended: one live interval, counting the
     * selected length, exactly while it runs.
     */
    predicate OneLiveInterval()
      reads this
    {
      && (running ==> intervals == [focusMinutes])
      && (!running ==> intervals == [])
    }

    constructor()
      ensures Valid() && OneLiveInterval()
      ensures focusMinutes == 25 && !running && minutes == 25 && seconds == 0 && intervals == []
    {
      focusMinutes := 25;
      running := false;
      minutes := 25;
      seconds := 0;
      intervals := [];
    }

    /** The length selector, disabled while the timer runs. */
    method SelectLength(m: nat)
      modifies this
      ensures focusMinutes == (if old(running) then old(focusMinutes) else m)
      ensures running == old(running) && minutes == old(minutes) && seconds == old(seconds)
      ensures intervals == old(intervals)
      ensures old(OneLiveInterval()) ==> OneLiveInterval()
    {
      if !running {
        focusMinutes := m;
      }
    }

    /**
     * startFocusTimer: running at the full length, with one more live
     * interval counting the length selected now; intervals still live from
     * earlier starts keep running beside it.
     */
    method Start()
      modifies this
      ensures Valid()
      ensures running && minutes == focusMinutes && seconds == 0 && focusMinutes == old(focusMinutes)
      ensures intervals == old(intervals) + [focusMinutes]
      ensures old(!running && OneLiveInterval()) ==> OneLiveInterval()
    {
      running := true;
      minutes := focusMinutes;
      seconds := 0;
      intervals := intervals + [focusMinutes];
    }

    /** stopTimer as written: the dial goes back to the full length, but no interval is cleared. */
    method Stop()
      modifies this
      ensures Valid()
      ensures !running && minutes == focusMinutes && seconds == 0 && focusMinutes == old(focusMinutes)
      ensures intervals == old(intervals)
      ensures old(running && OneLiveInterval()) ==> !OneLiveInterval()
    {
      running := false;
      minutes := focusMinutes;
      seconds := 0;
    }

    /** stopTimer as evidently intended: the running interval is cleared as well. */
    method StopChecked()
      modifies this
      ensures Valid() && OneLiveInterval()
      ensures !running && minutes == focusMinutes && seconds == 0 && focusMinutes == old(focusMinutes)
      ensures intervals == []
    {
      running := false;
      minutes := focusMinutes;
      seconds := 0;
      intervals := [];
    }

    /**
     * One second of live interval `k`, as written, whether or not the timer
     * shows as running: seconds count down; at zero seconds a minute is
     * borrowed; at 0:00 the timer stops, interval `k` is cleared and the
     * minutes go back to the length `k` captured, with the seconds left at 59.
     */
    method Tick(k: nat)
      requires Valid() && k < |intervals|
      modifies this
      ensures Valid()
      ensures old(seconds) > 0 ==>
        minutes == old(minutes) && seconds == old(seconds) - 1 && running == old(running) && intervals == old(intervals)
      ensures old(seconds) == 0 && old(minutes) > 0 ==>
        minutes == old(minutes) - 1 && seconds == 59 && running == old(running) && intervals == old(intervals)
      ensures old(seconds) == 0 && old(minutes) == 0 ==>
        && !running && minutes == old(intervals)[k] && seconds == 59
        && intervals == old(intervals)[..k] + old(intervals)[k + 1..]
      ensures old(Remaining()) > 0 ==> Remaining() == old(Remaining()) - 1
      ensures focusMinutes == old(focusMinutes)
    {
      if seconds == 0 {
        if minutes == 0 {
          running := false;
          minutes := intervals[k];
          intervals := intervals[..k] + intervals[k + 1..];
        } else {
          minutes := minutes - 1;
        }
        seconds := 59;
      } else {
        seconds := seconds - 1;
      }
    }

    /**
     * The tick as evidently intended: the finished timer shows the full
     * length with zero seconds, as stopTimer leaves it, and with one live
     * interval the timer ends with none.
     */
    method TickChecked(k: nat)
      requires Valid() && k < |intervals|
      modifies this
      ensures Valid()
      ensures old(Remaining()) > 0 ==> Remaining() == old(Remaining()) - 1 && running == old(running) && intervals == old(intervals)
      ensures old(Remaining()) == 0 ==>
        && !running && minutes == old(intervals)[k] && seconds == 0
        && intervals == old(intervals)[..k] + old(intervals)[k + 1..]
      ensures old(OneLiveInterval()) ==> OneLiveInterval()
      ensures old(OneLiveInterval() && running) && old(Remaining()) == 0 ==> Remaining() == focusMinutes * 60
      ensures focusMinutes == old(focusMinutes)
    {
      if seconds == 0 {
        if minutes == 0 {
          running := false;
          minutes := intervals[k];
          seconds := 0;
          intervals := intervals[..k] + intervals[k + 1..];
        } else {
          minutes := minutes - 1;
          seconds := 59;
        }
      } else {
        seconds := seconds - 1;
      }
    }
  }

  /**
   * The last tick of a finished countdown: as written the dial shows the full
   * length plus 59 seconds; the checked tick shows the full length.
   */
  method FinishedCountdown(focus: nat) returns (asWritten: nat, checked: nat)
    ensures asWritten == focus * 60 + 59
    ensures checked == focus * 60
  {
    var t := new FocusTimer();
    t.SelectLength(focus);
    t.Start();
    // a countdown that has reached 0:00
    t.minutes, t.seconds := 0, 0;
    t.Tick(0);
    asWritten := t.Remaining();
    var u := new FocusTimer();
    u.SelectLength(focus);
    u.Start();
    u.minutes, u.seconds := 0, 0;
    u.TickChecked(0);
    checked := u.Remaining();
  }

  /**
   * Start, Stop, and one second later: as written the stopped dial has
   * counted down to 24:59 and its interval is still live; Start again and
   * the two live intervals take two seconds off the dial each second. With
   * the checked stop no interval is left to tick.
   */
  method StopKeepsCounting() returns (stoppedShows: nat, stoppedLive: nat, restartedShows: nat, checkedLive: nat)
    ensures stoppedShows == 24 * 60 + 59 && stoppedLive == 1
    ensures restartedShows == 25 * 60 - 2
    ensures checkedLive == 0
  {
    var t := new FocusTimer();
    t.Start();
    t.Stop();
    t.Tick(0);
    stoppedShows, stoppedLive := t.Remaining(), |t.intervals|;
    t.SelectLength(25);
    t.Start();
    t.Tick(0);
    t.Tick(1);
    restartedShows := t.Remaining();
    var u := new FocusTimer();
    u.Start();
    u.StopChecked();
    checkedLive := |u.intervals|;
  }
}

=== FILE: client_http.dfy ===
// What the client services see of an HTTP exchange: the request they send,
// the reply (status, status text, JSON body or not) and what the awaiting
// caller gets back (a value or a thrown Error).

module Http {
  import opened Common

  /** The settled promise of an async call: its value, or the message of the Error it threw. */
  datatype Outcome<T> = Returned(value: T) | Threw(message: string)

  datatype Verb = GET | POST | PATCH | DELETE

  /** A request as sent by fetch: verb, path below the API root, and JSON body if any. */
  datatype Request<P> = Request(verb: Verb, path: string, body: Option<P>)

  /** A response body: not JSON at all, or a JSON object with an optional string `message` and a `data` part. */
  datatype Body<D> = NotJson | JsonBody(message: Option<string>, data: D)

  /** A reply: status, status text, whether the content-type header names application/json, and the body. */
  datatype Reply<D> = Reply(status: int, statusText: string, jsonContentType: bool, body: Body<D>)

  /** What fetch delivers: a reply, or a rejection (network failure). */
  datatype Transport<D> = NetworkFailure(reason: string) | Received(reply: Reply<D>)

  /** One service call: the request it sent (if any) and what it returned. */
  datatype Call<P, T> = Call(sent: Option<Request<P>>, outcome: Outcome<T>)

  /** response.ok */
  predicate IsOk<D>(r: Reply<D>)
  {
    200 <= r.status <= 299
  }

  /** `if (!userId)`: the current user id is missing or empty. */
  predicate Authenticated(userId: Option<string>)
  {
    userId.Some? && userId.value != ""
  }

  /** The token check `if (!accessToken)`. */
  predicate HasToken(token: Option<string>)
  {
    token.Some? && token.value != ""
  }

  /**
   * The error-message rule of the user service: the body's `message` when the
   * body is JSON and the message is non-empty, else the default text.
   */
  function MessageOr<D>(body: Body<D>, default: string): string
  {
    if body.JsonBody? && body.message.Some? && body.message.value != "" then body.message.value else default
  }

  /** The message JSON.parse / response.json throws on a body that is not JSON. */
  const NotJsonError := "Unexpected token in JSON"
}

=== FILE: client_models.dfy ===
// Shapes the client exchanges with its services: the profile form payload,
// the user profile model and the life-goal record.

module ClientModels {
  import opened Common

  datatype Personal = Personal(fullName: string, age: string, gender: string, height: string, weight: string)

  datatype Health = Health(
    medicalConditions: string, currentMedications: string, allergies: string,
    fitnessLevel: string, sleepPattern: string)

  datatype Schedule = Schedule(workHours: string, availableTime: string, busiestDays: string, preferredTimes: string)

  datatype Financial = Financial(
    currency: string, monthlyIncome: string, monthlyExpenses: string,
    monthlySavingGoal: string, riskTolerance: string)

  datatype LifeGoalsForm = LifeGoalsForm(
    shortTermGoals: string, longTermGoals: string, lifePriorities: string, preferredTimeframe: string)

  /** What the profile form sends to the user service. */
  datatype ClientProfileData = ClientProfileData(
    personal: Personal, health: Health, schedule: Schedule,
    financial: Financial, lifeGoals: LifeGoalsForm)

  /**
   * The user profile as the server returns it; `None` stands for both null and
   * a missing property. Numbers are kept as integers.
   */
  datatype UserModel = UserModel(
    fullName: Option<string>, age: Option<int>, gender: Option<string>,
    height: Option<int>, weight: Option<int>)

  /** The life-goal record of a user. */
  datatype LifeGoalsData = LifeGoalsData(
    id: string, userId: string, shortTerm: seq<string>, longTerm: seq<string>,
    priorities: seq<string>, timeframe: string, createdAt: string, updatedAt: string)
}

=== FILE: common.dfy ===
// Shared vocabulary of the model: an optional value, the few JavaScript string
// operations the client relies on (trim, toLowerCase, includes, split, join,
// number-to-string, padStart) and a findIndex loop.

module Common {

  datatype Option<T> = None | Some(value: T)

  function Max(a: int, b: int): int
  {
    if a < b then b else a
  }

  // ---------------------------------------------------------------------------
  // Whitespace and trim
  // ---------------------------------------------------------------------------

  /** The characters String.prototype.trim removes that the model knows about. */
  predicate IsSpace(c: char)
  {
    c == ' ' || c == '\t' || c == '\n' || c == '\r' || c == '\U{0B}' || c == '\U{0C}'
    || c == '\U{A0}' || c == '\U{2028}' || c == '\U{2029}' || c == '\U{FEFF}'
  }

  /** Drops the leading white space: the result is a suffix of `s`. */
  function TrimStart(s: string): (r: string)
    ensures |r| <= |s| && r == s[|s| - |r|..]
    ensures r == [] || !IsSpace(r[0])
    ensures forall i :: 0 <= i < |s| - |r| ==> IsSpace(s[i])
  {
    if s != [] && IsSpace(s[0]) then TrimStart(s[1..]) else s
  }

  /** Drops the trailing white space: the result is a prefix of `s`. */
  function TrimEnd(s: string): (r: string)
    ensures |r| <= |s| && r == s[..|r|]
    ensures r == [] || !IsSpace(r[|r| - 1])
    ensures forall i :: |r| <= i < |s| ==> IsSpace(s[i])
  {
    if s != [] && IsSpace(s[|s| - 1]) then TrimEnd(s[..|s| - 1]) else s
  }

  /** String.prototype.trim. */
  function Trim(s: string): (r: string)
  {
    TrimEnd(TrimStart(s))
  }

  /** `!s.trim()`: the string is empty once trimmed. */
  predicate IsBlank(s: string)
  {
    Trim(s) == []
  }

  /** White space alone trims away from the front. */
  lemma {:induction false} AllSpaceTrimsAway(s: string)
    requires forall i :: 0 <= i < |s| ==> IsSpace(s[i])
    ensures TrimStart(s) == []
  {
    if s != [] {
      AllSpaceTrimsAway(s[1..]);
    }
  }

  /** A string is blank exactly when each of its characters is white space. */
  lemma BlankIffAllSpace(s: string)
    ensures IsBlank(s) <==> forall i :: 0 <= i < |s| ==> IsSpace(s[i])
  {
    var t := TrimStart(s);
    if IsBlank(s) {
      assert TrimEnd(t) == [];
      assert t == [];
    }
    if forall i :: 0 <= i < |s| ==> IsSpace(s[i]) {
      AllSpaceTrimsAway(s);
    }
  }

  /** A trimmed string is non-blank exactly when it is non-empty, and trimming is idempotent. */
  lemma TrimIdempotent(s: string)
    ensures Trim(Trim(s)) == Trim(s)
    ensures IsBlank(Trim(s)) <==> Trim(s) == []
  {
    var r := Trim(s);
    if r != [] {
      assert !IsSpace(r[0]) by {
        var t := TrimStart(s);
        assert r == t[..|r|];
      }
    }
  }

  // ---------------------------------------------------------------------------
  // toLowerCase and includes
  // ---------------------------------------------------------------------------

  function LowerChar(c: char): (d: char)
  {
    if 'A' <= c <= 'Z' then (c as int + 32) as char else c
  }

  /** String.prototype.toLowerCase on the ASCII letters. */
  function Lower(s: string): (r: string)
    ensures |r| == |s|
    ensures forall i :: 0 <= i < |s| ==> r[i] == LowerChar(s[i])
    ensures forall i :: 0 <= i < |r| ==> !('A' <= r[i] <= 'Z')
  {
    seq(|s|, i requires 0 <= i < |s| => LowerChar(s[i]))
  }

  lemma LowerIdempotent(s: string)
    ensures Lower(Lower(s)) == Lower(s)
  {
  }

  /** String.prototype.includes: `p` occurs in `s` starting at some offset. */
  predicate Contains(s: string, p: string)
  {
    exists i :: 0 <= i <= |s| && p <= s[i..]
  }

  /** An occurrence in a longer text survives appending on either side. */
  lemma ContainsExtend(s: string, p: string, left: string, right: string)
    requires Contains(s, p)
    ensures Contains(left + s + right, p)
  {
    var i :| 0 <= i <= |s| && p <= s[i..];
    var t := left + s + right;
    assert t[|left| + i..] == s[i..] + right;
  }

  // ---------------------------------------------------------------------------
  // split and join on one separator character
  // ---------------------------------------------------------------------------

  /** Position of the first `sep` in `s`. */
  function IndexOf(s: string, sep: char): (i: nat)
    requires sep in s
    ensures i < |s| && s[i] == sep && sep !in s[..i]
  {
    if s[0] == sep then 0 else 1 + IndexOf(s[1..], sep)
  }

  /** Array.prototype.join with a one-character separator. */
  function Join(parts: seq<string>, sep: char): string
  {
    if |parts| == 0 then ""
    else if |parts| == 1 then parts[0]
    else parts[0] + [sep] + Join(parts[1..], sep)
  }

  /** Number of occurrences of `c` in `s`. */
  function Count(s: string, c: char): nat
  {
    if s == [] then 0 else (if s[0] == c then 1 else 0) + Count(s[1..], c)
  }

  lemma {:induction false} CountAppend(a: string, b: string, c: char)
    ensures Count(a + b, c) == Count(a, c) + Count(b, c)
  {
    if a == [] {
      assert a + b == b;
    } else {
      assert (a + b)[0] == a[0];
      assert (a + b)[1..] == a[1..] + b;
      CountAppend(a[1..], b, c);
    }
  }

  lemma CountAbsent(s: string, c: char)
    requires c !in s
    ensures Count(s, c) == 0
  {
  }

  /**
   * String.prototype.split with a one-character separator: the pieces contain
   * no separator, there is one more piece than separators, and joining them
   * back gives the original string.
   */
  function Split(s: string, sep: char): (parts: seq<string>)
    ensures |parts| == Count(s, sep) + 1
    ensures forall k :: 0 <= k < |parts| ==> sep !in parts[k]
    ensures Join(parts, sep) == s
    decreases |s|
  {
    if sep !in s then
      CountAbsent(s, sep);
      [s]
    else
      var i := IndexOf(s, sep);
      var rest := Split(s[i + 1..], sep);
      assert s == s[..i] + [sep] + s[i + 1..];
      CountAbsent(s[..i], sep);
      CountAppend(s[..i] + [sep], s[i + 1..], sep);
      CountAppend(s[..i], [sep], sep);
      [s[..i]] + rest
  }

  /** The first separator of `a + [sep] + rest` is the one after `a` when `a` has none. */
  lemma {:induction false} IndexOfAfterPiece(a: string, sep: char, rest: string)
    requires sep !in a
    ensures sep in a + [sep] + rest
    ensures IndexOf(a + [sep] + rest, sep) == |a|
  {
    var s := a + [sep] + rest;
    assert s[|a|] == sep;
    if a != [] {
      assert s[1..] == a[1..] + [sep] + rest;
      IndexOfAfterPiece(a[1..], sep, rest);
    }
  }

  /** A string with a separator splits into the piece before its first separator and the split of the rest. */
  lemma SplitAtFirst(s: string, sep: char)
    requires sep in s
    ensures IndexOf(s, sep) < |s|
    ensures Split(s, sep) == [s[..IndexOf(s, sep)]] + Split(s[IndexOf(s, sep) + 1..], sep)
  {
  }

  /** Two separator-free pieces around one separator split back into those two pieces. */
  lemma SplitTwo(a: string, sep: char, b: string)
    requires sep !in a && sep !in b
    ensures Split(a + [sep] + b, sep) == [a, b]
  {
    var s := a + [sep] + b;
    IndexOfAfterPiece(a, sep, b);
    SplitAtFirst(s, sep);
    assert s[..|a|] == a;
    assert s[|a| + 1..] == b;
    assert Split(b, sep) == [b];
  }

  /** Splitting the join of separator-free pieces gives the pieces back. */
  lemma {:induction false} SplitJoin(parts: seq<string>, sep: char)
    requires |parts| >= 1
    requires forall k :: 0 <= k < |parts| ==> sep !in parts[k]
    ensures Split(Join(parts, sep), sep) == parts
  {
    if |parts| > 1 {
      var rest := Join(parts[1..], sep);
      var s := parts[0] + [sep] + rest;
      assert Join(parts, sep) == s;
      IndexOfAfterPiece(parts[0], sep, rest);
      SplitAtFirst(s, sep);
      assert s[..|parts[0]|] == parts[0];
      assert s[|parts[0]| + 1..] == rest;
      SplitJoin(parts[1..], sep);
      assert parts == [parts[0]] + parts[1..];
    }
  }

  // ---------------------------------------------------------------------------
  // Decimal digits
  // ---------------------------------------------------------------------------

  predicate IsDigit(c: char)
  {
    '0' <= c <= '9'
  }

  function DigitChar(d: nat): (c: char)
    requires d < 10
    ensures IsDigit(c)
  {
    ('0' as int + d) as char
  }

  /** Value of a string of decimal digits (the reading direction of parseInt). */
  function DigitsValue(s: string): nat
    requires forall i :: 0 <= i < |s| ==> IsDigit(s[i])
  {
    if s == [] then 0
    else
      var d := s[|s| - 1];
      assert IsDigit(d);
      10 * DigitsValue(s[..|s| - 1]) + (d as int - '0' as int)
  }

  /** String(n) for a natural number: decimal digits, no leading zero, read back as `n`. */
  function NatToString(n: nat): (r: string)
    ensures 1 <= |r|
    ensures forall i :: 0 <= i < |r| ==> IsDigit(r[i])
    ensures DigitsValue(r) == n
    ensures r[0] == '0' ==> n == 0
    ensures n < 10 <==> |r| == 1
  {
    if n < 10 then [DigitChar(n)]
    else
      var r := NatToString(n / 10) + [DigitChar(n % 10)];
      assert r[..|r| - 1] == NatToString(n / 10);
      r
  }

  /** `String(n).padStart(2, '0')`: at least two digits, still read back as `n`. */
  function PadTwo(n: nat): (r: string)
    ensures |r| >= 2
    ensures forall i :: 0 <= i < |r| ==> IsDigit(r[i])
    ensures DigitsValue(r) == n
    ensures n < 100 <==> |r| == 2
  {
    if n < 10 then
      var r := "0" + NatToString(n);
      assert r[..1] == "0";
      r
    else NatToString(n)
  }

  /** String(n) for any integer: a minus sign before the digits of a negative number. */
  function IntToString(n: int): (r: string)
    ensures |r| >= 1
    ensures n >= 0 ==> r == NatToString(n)
    ensures n < 0 ==> |r| >= 2 && r[0] == '-' && r[1..] == NatToString(-n)
  {
    if n >= 0 then NatToString(n) else "-" + NatToString(-n)
  }

  // ---------------------------------------------------------------------------
  // findIndex
  // ---------------------------------------------------------------------------

  /** Array.prototype.findIndex: the first position whose element satisfies `p`, or -1. */
  method FindIndex<T>(s: seq<T>, p: T -> bool) returns (index: int)
    ensures -1 <= index < |s|
    ensures index == -1 <==> forall j :: 0 <= j < |s| ==> !p(s[j])
    ensures 0 <= index ==> p(s[index]) && forall j :: 0 <= j < index ==> !p(s[j])
  {
    index := 0;
    while index < |s|
      invariant 0 <= index <= |s|
      invariant forall j :: 0 <= j < index ==> !p(s[j])
    {
      if p(s[index]) {
        return;
      }
      index := index + 1;
    }
    index := -1;
  }
}

=== FILE: dashboard.dfy ===
// The dashboard: the same profile fetch as the profile page, a setup dialog
// that opens once the profile turns out to be empty, and quick actions that
// navigate to other tabs.

module Dashboard {
  import opened Common
  import opened Http
  import opened ClientModels
  import UserProfile
  import AppShell

  /** The quick actions and the assistant button, each with the tab it navigates to. */
  datatype Action = SetNewGoal | PlanYourDay | TrackHabits | ViewInsights | OpenAssistant

  function ActionTarget(a: Action): (tab: string)
    ensures tab in AppShell.KnownTabs && tab != "login" && tab != "dashboard"
  {
    match a
    case SetNewGoal => "goals-overview"
    case PlanYourDay => "planner"
    case TrackHabits => "habits"
    case ViewInsights => "insights"
    case OpenAssistant => "assistant"
  }

  /** Every dashboard action leads a signed-in user to the page of its tab, and different actions to different pages. */
  lemma ActionsReachTheirPages(a: Action, b: Action)
    ensures AppShell.PageTab(AppShell.Render(false, true, ActionTarget(a))) == Some(ActionTarget(a))
    ensures a != b ==> AppShell.Render(false, true, ActionTarget(a)) != AppShell.Render(false, true, ActionTarget(b))
  {
    AppShell.LoggedInRouting(ActionTarget(a));
    AppShell.LoggedInRouting(ActionTarget(b));
  }

  class DashboardPage {
    var form: UserProfile.ProfileForm
    var isEmptyProfile: bool
    var showSetupDialog: bool

    constructor()
      ensures form == UserProfile.ProfileForm("", "", "None", "", "") && !isEmptyProfile && !showSetupDialog
    {
      form := UserProfile.ProfileForm("", "", "None", "", "");
      isEmptyProfile := false;
      showSetupDialog := false;
    }

    /**
     * fetchUserProfile followed by the effect on isEmptyProfile: the effect
     * runs only when the flag changes, and opens the dialog only when it
     * changes to true; it never closes the dialog.
     */
    method FetchUserProfile(fetched: Outcome<UserModel>)
      modifies this
      ensures fetched.Returned? ==>
        form == UserProfile.FormOf(fetched.value) && isEmptyProfile == UserProfile.IsEmptyProfile(fetched.value)
      ensures fetched.Threw? ==> form == old(form) && isEmptyProfile == old(isEmptyProfile)
      ensures showSetupDialog <==> old(showSetupDialog) || (isEmptyProfile && !old(isEmptyProfile))
    {
      if fetched.Returned? {
        var wasEmpty := isEmptyProfile;
        form := UserProfile.FormOf(fetched.value);
        isEmptyProfile := UserProfile.IsEmptyProfile(fetched.value);
        if isEmptyProfile != wasEmpty && isEmptyProfile {
          showSetupDialog := true;
        }
      }
    }

    /** handleSetupProfile: closes the dialog and navigates to the profile tab. */
    method HandleSetupProfile() returns (tab: string)
      modifies this
      ensures tab == "profile" && AppShell.Render(false, true, tab) == AppShell.Profile
      ensures !showSetupDialog && form == old(form) && isEmptyProfile == old(isEmptyProfile)
    {
      showSetupDialog := false;
      tab := "profile";
    }
  }

  /**
   * On a fresh dashboard the dialog opens exactly when the fetched profile is
   * the empty one; a failed fetch never opens it.
   */
  method MountDashboard(fetched: Outcome<UserModel>) returns (dialog: bool)
    ensures dialog <==> fetched.Returned? && UserProfile.IsEmptyProfile(fetched.value)
  {
    var page := new DashboardPage();
    page.FetchUserProfile(fetched);
    dialog := page.showSetupDialog;
  }
}

=== FILE: delete_service.dfy ===
// DeleteService: three DELETE calls that refuse to run without a signed-in
// user and, once the user is known, turn every failure into a result value
// instead of an exception.

module DeleteService {
  import opened Common
  import opened Http

  /** The ResponseModel deleteGoal resolves to. */
  datatype ResponseModel = ResponseModel(message: string, data: string, status: int)

  /** The `{message}` deleteChat and deleteUserData resolve to. */
  datatype MessageResult = MessageResult(message: string)

  const GoalDeleted := ResponseModel("Account deleted successfully", "", 200)
  const GoalNotDeleted := ResponseModel("Failed to delete account", "", 500)

  /** True when the DELETE went out and came back with a 2xx status. */
  predicate Succeeded(token: Option<string>, transport: Transport<()>)
  {
    HasToken(token) && transport.Received? && IsOk(transport.reply)
  }

  /**
   * The shared shape of the three methods: no user means an Error before any
   * request; otherwise the DELETE is sent when there is a token, and the 2xx
   * check decides which of the two results is returned.
   */
  function DeleteCall<T>(userId: Option<string>, token: Option<string>, path: string,
                         transport: Transport<()>, notAuthenticated: string, success: T, failure: T): (c: Call<(), T>)
    ensures !Authenticated(userId) ==> c == Call(None, Threw(notAuthenticated))
    ensures Authenticated(userId) ==> c.outcome.Returned?
    ensures Authenticated(userId) ==>
      (c.outcome.value == if Succeeded(token, transport) then success else failure)
    ensures c.sent.Some? <==> Authenticated(userId) && HasToken(token)
    ensures c.sent.Some? ==> c.sent.value == Request(DELETE, path, None)
  {
    if !Authenticated(userId) then Call(None, Threw(notAuthenticated))
    else if !HasToken(token) then Call(None, Returned(failure))
    else Call(Some(Request(DELETE, path, None)), Returned(if transport.Received? && IsOk(transport.reply) then success else failure))
  }

  /** deleteGoal(goalId): DELETE ai_gen/goal/{goalId}. */
  function DeleteGoal(userId: Option<string>, token: Option<string>, goalId: string, transport: Transport<()>): (c: Call<(), ResponseModel>)
    ensures !Authenticated(userId) ==> c.sent.None? && c.outcome.Threw?
    ensures c.sent.Some? <==> Authenticated(userId) && HasToken(token)
    ensures c.sent.Some? ==> c.sent.value == Request(DELETE, "/api/v1/ai_gen/goal/" + goalId, None)
    ensures Authenticated(userId) ==>
      c.outcome == Returned(if Succeeded(token, transport) then GoalDeleted else GoalNotDeleted)
  {
    DeleteCall(userId, token, "/api/v1/ai_gen/goal/" + goalId, transport,
               "User not authenticated. Cannot delete account.", GoalDeleted, GoalNotDeleted)
  }

  /** deleteChat(): DELETE ai_gen/chat/{userId}. */
  function DeleteChat(userId: Option<string>, token: Option<string>, transport: Transport<()>): (c: Call<(), MessageResult>)
    ensures !Authenticated(userId) ==> c.sent.None? && c.outcome.Threw?
    ensures c.sent.Some? <==> Authenticated(userId) && HasToken(token)
    ensures c.sent.Some? ==> c.sent.value == Request(DELETE, "/api/v1/ai_gen/chat/" + userId.value, None)
    ensures Authenticated(userId) ==>
      c.outcome == Returned(MessageResult(if Succeeded(token, transport) then "success" else "failed"))
  {
    DeleteCall(userId, token, "/api/v1/ai_gen/chat/" + (if userId.Some? then userId.value else ""), transport,
               "User not authenticated. Cannot delete chat.", MessageResult("success"), MessageResult("failed"))
  }

  /** deleteUserData(): DELETE users/user/{userId}. */
  function DeleteUserData(userId: Option<string>, token: Option<string>, transport: Transport<()>): (c: Call<(), MessageResult>)
    ensures !Authenticated(userId) ==> c.sent.None? && c.outcome.Threw?
    ensures c.sent.Some? <==> Authenticated(userId) && HasToken(token)
    ensures c.sent.Some? ==> c.sent.value == Request(DELETE, "/api/v1/users/user/" + userId.value, None)
    ensures Authenticated(userId) ==>
      c.outcome == Returned(MessageResult(if Succeeded(token, transport) then "success" else "failed"))
  {
    DeleteCall(userId, token, "/api/v1/users/user/" + (if userId.Some? then userId.value else ""), transport,
               "User not authenticated. Cannot delete user data.", MessageResult("success"), MessageResult("failed"))
  }

  /**
   * deleteGoal: no user means an Error and no request; with a user it never
   * throws, it reports 'Account deleted successfully'/200 exactly when the
   * DELETE of that goal id succeeded and 'Failed to delete account'/500
   * otherwise, and it never answers 'success'.
   */
  lemma DeleteGoalOutcomes(userId: Option<string>, token: Option<string>, goalId: string, transport: Transport<()>)
    ensures var c := DeleteGoal(userId, token, goalId, transport);
      && (!Authenticated(userId) ==> c.sent.None? && c.outcome.Threw?)
      && (Authenticated(userId) ==>
            && c.outcome.Returned?
            && (c.outcome.value.status == 200 <==> Succeeded(token, transport))
            && (c.outcome.value.status == 500 <==> !Succeeded(token, transport))
            && c.outcome.value.message != "success")
      && (c.sent.Some? ==> c.sent.value.path == "/api/v1/ai_gen/goal/" + goalId && c.sent.value.verb == DELETE)
  {
  }

  /** deleteChat and deleteUserData answer 'success' exactly on a 2xx, 'failed' otherwise, and target the current user. */
  lemma UserScopedDeleteOutcomes(userId: Option<string>, token: Option<string>, transport: Transport<()>)
    requires Authenticated(userId)
    ensures DeleteChat(userId, token, transport).outcome
            == Returned(MessageResult(if Succeeded(token, transport) then "success" else "failed"))
    ensures DeleteUserData(userId, token, transport).outcome
            == Returned(MessageResult(if Succeeded(token, transport) then "success" else "failed"))
    ensures DeleteChat(userId, token, transport).sent.Some? ==>
            DeleteChat(userId, token, transport).sent.value.path == "/api/v1/ai_gen/chat/" + userId.value
    ensures DeleteUserData(userId, token, transport).sent.Some? ==>
            DeleteUserData(userId, token, transport).sent.value.path == "/api/v1/users/user/" + userId.value
  {
  }
}

=== FILE: finance_page.dfy ===
// The finance page: the overview figures, which come from the fixed sample
// data, and the savings-goal calculator.

module FinancePage {
  import opened Common

  /** The sample figures the overview is built from. */
  const Income: int := 50000
  const FixedExpenses: int := 25000
  const VariableExpenses: int := 15000

  /** availableForSavings: income minus fixed and variable expenses of the sample data. */
  function AvailableForSavings(): (a: int)
    ensures a == 10000
  {
    Income - (FixedExpenses + VariableExpenses)
  }

  /** Math.ceil(goal / months) for a positive number of months. */
  function CeilDiv(goal: int, months: int): (r: int)
    requires months > 0
    ensures r * months >= goal
    ensures (r - 1) * months < goal
  {
    -((-goal) / months)
  }

  /** The ceiling is the only whole number with those two bounds. */
  lemma CeilDivUnique(goal: int, months: int, r: int)
    requires months > 0
    requires r * months >= goal && (r - 1) * months < goal
    ensures r == CeilDiv(goal, months)
  {
  }

  /**
   * A JavaScript number as the calculator can produce it: a whole number,
   * an infinity, or NaN.
   */
  datatype Amount = Whole(n: int) | PlusInfinity | MinusInfinity | NaN

  /**
   * Math.ceil(parseInt(savingsGoal) / parseInt(timeframe)). Each input is
   * its parseInt value, None for NaN (an empty or non-numeric field). A zero
   * timeframe divides to an infinity of the goal's sign, or NaN for a zero
   * goal; a negative timeframe gives a negative requirement for a positive
   * goal.
   */
  function RequiredMonthly(goal: Option<int>, months: Option<int>): (r: Amount)
    ensures r.NaN? <==> goal.None? || months.None? || (goal == Some(0) && months == Some(0))
    ensures r.PlusInfinity? <==> goal.Some? && goal.value > 0 && months == Some(0)
    ensures r.MinusInfinity? <==> goal.Some? && goal.value < 0 && months == Some(0)
    ensures r.Whole? <==> goal.Some? && months.Some? && months.value != 0
    ensures r.Whole? && months.value > 0 ==> r.n * months.value >= goal.value > (r.n - 1) * months.value
    ensures r.Whole? && months.value < 0 ==> r.n * months.value <= goal.value < (r.n - 1) * months.value
  {
    if goal.None? || months.None? then NaN
    else if months.value == 0 then
      (if goal.value > 0 then PlusInfinity else if goal.value < 0 then MinusInfinity else NaN)
    else if months.value > 0 then Whole(CeilDiv(goal.value, months.value))
    else Whole(NegativeCeil(goal.value, months.value))
  }

  /** Math.ceil(goal / months) for a negative number of months: the sign moves to the goal. */
  function NegativeCeil(goal: int, months: int): (r: int)
    requires months < 0
    ensures r * months <= goal < (r - 1) * months
  {
    var r := CeilDiv(-goal, -months);
    assert r * (-months) >= -goal && (r - 1) * (-months) < -goal;
    r
  }

  datatype GapKind = Surplus | Deficit

  /** The gap the page shows: Math.abs of capacity minus requirement. */
  datatype Gap = Exact(n: nat) | Infinite | NotANumber

  /** The calculator's verdict: the gap between capacity and requirement, and which way it goes. */
  datatype Verdict = Verdict(gap: Gap, kind: GapKind)

  /**
   * The gap line: a surplus exactly when the capacity is at least the
   * requirement (never for NaN, always for minus infinity), and the
   * absolute difference, which is infinite for an infinite requirement and
   * NaN for NaN.
   */
  function Calculate(available: int, required: Amount): (v: Verdict)
    ensures v.kind == Surplus <==> required.MinusInfinity? || (required.Whole? && available >= required.n)
    ensures v.gap.NotANumber? <==> required.NaN?
    ensures v.gap.Infinite? <==> required.PlusInfinity? || required.MinusInfinity?
    ensures required.Whole? && v.kind == Surplus ==> v.gap.Exact? && available == required.n + v.gap.n
    ensures required.Whole? && v.kind == Deficit ==> v.gap.Exact? && required.n == available + v.gap.n && v.gap.n > 0
  {
    match required
    case Whole(r) => if available >= r then Verdict(Exact(available - r), Surplus) else Verdict(Exact(r - available), Deficit)
    case PlusInfinity => Verdict(Infinite, Deficit)
    case MinusInfinity => Verdict(Infinite, Surplus)
    case NaN => Verdict(NotANumber, Deficit)
  }

  /**
   * What the page shows for a goal and timeframe: the budget input fields
   * play no part. An unreadable field shows a NaN deficit, a zero timeframe
   * an infinite deficit (or surplus for a negative goal), and a negative
   * timeframe with a positive goal a surplus larger than the capacity.
   */
  function PageVerdict(goal: Option<int>, months: Option<int>): (v: Verdict)
    ensures goal.None? || months.None? ==> v == Verdict(NotANumber, Deficit)
    ensures goal.Some? && goal.value > 0 && months == Some(0) ==> v == Verdict(Infinite, Deficit)
    ensures goal.Some? && goal.value < 0 && months == Some(0) ==> v == Verdict(Infinite, Surplus)
    ensures goal.Some? && goal.value > 0 && months.Some? && months.value < 0 ==>
      v.kind == Surplus && v.gap.Exact? && v.gap.n >= AvailableForSavings()
    ensures goal.Some? && months.Some? && months.value > 0 ==>
      (v.kind == Surplus <==> AvailableForSavings() * months.value >= goal.value)
  {
    var required := RequiredMonthly(goal, months);
    if goal.Some? && months.Some? && months.value > 0 then
      SurplusIffCapacityCovers(AvailableForSavings(), goal.value, months.value);
      Calculate(AvailableForSavings(), required)
    else if goal.Some? && goal.value > 0 && months.Some? && months.value < 0 then
      NegativeTimeframeAsksNothing(goal.value, months.value);
      Calculate(AvailableForSavings(), required)
    else
      Calculate(AvailableForSavings(), required)
  }

  /** With a positive timeframe, the capacity covers the rounded-up requirement exactly when it covers the goal over the timeframe. */
  lemma SurplusIffCapacityCovers(available: int, goal: int, months: int)
    requires months > 0
    ensures available >= CeilDiv(goal, months) <==> available * months >= goal
  {
    var r := CeilDiv(goal, months);
    if available >= r {
      assert available * months >= r * months;
    } else {
      assert available <= r - 1;
      assert available * months <= (r - 1) * months;
    }
  }

  /** A positive goal over a negative timeframe asks for no saving at all. */
  lemma NegativeTimeframeAsksNothing(goal: int, months: int)
    requires goal > 0 && months < 0
    ensures NegativeCeil(goal, months) <= 0
  {
    var r := NegativeCeil(goal, months);
    assert goal < (r - 1) * months;
  }

  /** The default inputs (10000 over 3 months) ask for 3334 a month, leaving a surplus of 6666. */
  lemma DefaultVerdict()
    ensures RequiredMonthly(Some(10000), Some(3)) == Whole(3334)
    ensures PageVerdict(Some(10000), Some(3)) == Verdict(Exact(6666), Surplus)
  {
    CeilDivUnique(10000, 3, 3334);
  }
}

=== FILE: finance_section.dfy ===
// The dashboard's finance section: a stored list of monthly records holding
// at most one record per month, built from the income and savings-goal
// fields and a fixed sample expense list.

module FinanceSection {
  import opened Common

  datatype ExpenseKind = Fixed | Flexible
  datatype Expense = Expense(category: string, amount: nat, kind: ExpenseKind)

  datatype SavingsGoal = SavingsGoal(name: string, target: real, current: real, deadline: nat)

  datatype FinancialRecord = FinancialRecord(
    id: string, month: string, income: real, expenses: seq<Expense>, savings: real, goals: seq<SavingsGoal>)

  const SampleExpenses: seq<Expense> := [
    Expense("Rent", 15000, Fixed),
    Expense("Food", 8000, Flexible),
    Expense("Transportation", 3000, Fixed),
    Expense("Entertainment", 2000, Flexible),
    Expense("Utilities", 2500, Fixed)
  ]

  function Total(expenses: seq<Expense>): nat
  {
    if expenses == [] then 0 else expenses[0].amount + Total(expenses[1..])
  }

  /** totalExpenses */
  function TotalExpenses(): (t: nat)
    ensures t == 30500
  {
    assert SampleExpenses[1..][1..][1..][1..][1..] == [];
    Total(SampleExpenses)
  }

  /** No two records share a month. */
  predicate UniqueMonths(records: seq<FinancialRecord>)
  {
    forall i, j :: 0 <= i < j < |records| ==> records[i].month != records[j].month
  }

  /** Ninety days, in milliseconds. */
  const NinetyDays: nat := 90 * 24 * 60 * 60 * 1000

  /**
   * The record addFinancialData builds for `month` from the parsed income and
   * savings goal: the sample expenses, savings = income - total, and one
   * savings goal exactly when the goal field was filled in.
   */
  function NewRecord(now: nat, month: string, income: real, goalText: string, goalTarget: real): (r: FinancialRecord)
    ensures r.month == month && r.income == income && r.expenses == SampleExpenses
    ensures r.savings == income - 30500 as real
    ensures |r.goals| == (if goalText == "" then 0 else 1)
    ensures goalText != "" ==> r.goals[0].target == goalTarget && r.goals[0].current == r.savings
  {
    var savings := income - TotalExpenses() as real;
    FinancialRecord(NatToString(now), month, income, SampleExpenses, savings,
      if goalText == "" then [] else [SavingsGoal("Monthly Savings Target", goalTarget, savings, now + NinetyDays)])
  }

  /** No record before position k is for `month`, so find stops at k when it matches. */
  predicate FirstOfMonth(records: seq<FinancialRecord>, month: string, k: nat)
  {
    forall j :: 0 <= j < k && j < |records| ==> records[j].month != month
  }

  /** `currentData?.income || 45000`: the month's income, unless absent or zero. */
  function MonthlyIncome(records: seq<FinancialRecord>, month: string): (income: real)
    ensures income != 0.0
    ensures (forall i :: 0 <= i < |records| ==> records[i].month != month) ==> income == 45000.0
    ensures forall k :: 0 <= k < |records| && records[k].month == month && FirstOfMonth(records, month, k) ==>
      income == (if records[k].income != 0.0 then records[k].income else 45000.0)
  {
    if records == [] then 45000.0
    else if records[0].month == month then (if records[0].income != 0.0 then records[0].income else 45000.0)
    else MonthlyIncome(records[1..], month)
  }

  class FinanceStore {
    var records: seq<FinancialRecord>
    var income: string
    var savingsGoal: string
    var showForm: bool

    predicate Valid()
      reads this
    {
      UniqueMonths(records)
    }

    constructor(stored: seq<FinancialRecord>)
      requires UniqueMonths(stored)
      ensures Valid()
      ensures records == stored && income == "" && savingsGoal == "" && !showForm
    {
      records := stored;
      income := "";
      savingsGoal := "";
      showForm := false;
    }

    /** Typing into the income input replaces its text and nothing else. */
    method TypeIncome(s: string)
      modifies this
      ensures income == s && savingsGoal == old(savingsGoal) && records == old(records) && showForm == old(showForm)
    {
      income := s;
    }

    /** Typing into the savings-goal input replaces its text and nothing else. */
    method TypeSavingsGoal(s: string)
      modifies this
      ensures savingsGoal == s && income == old(income) && records == old(records) && showForm == old(showForm)
    {
      savingsGoal := s;
    }

    /**
     * addFinancialData for `month`; `parse` stands for parseFloat. An empty
     * income field does nothing. Otherwise the month's record is replaced in
     * its place, or appended when there is none, and the form is cleared and
     * hidden.
     */
    method AddFinancialData(now: nat, month: string, parse: string -> real)
      requires Valid()
      modifies this
      ensures Valid()
      ensures old(income) == "" ==>
        records == old(records) && income == old(income) && savingsGoal == old(savingsGoal) && showForm == old(showForm)
      ensures old(income) != "" ==>
        var r := NewRecord(now, month, parse(old(income)), old(savingsGoal), parse(old(savingsGoal)));
        && (forall k :: 0 <= k < |old(records)| && old(records)[k].month == month ==> records == old(records)[k := r])
        && ((forall k :: 0 <= k < |old(records)| ==> old(records)[k].month != month) ==> records == old(records) + [r])
        && income == "" && savingsGoal == "" && !showForm
    {
      if income == "" {
        return;
      }
      var r := NewRecord(now, month, parse(income), savingsGoal, parse(savingsGoal));
      var existing := FindIndex(records, (d: FinancialRecord) => d.month == month);
      if existing >= 0 {
        records := records[existing := r];
      } else {
        records := records + [r];
      }
      income := "";
      savingsGoal := "";
      showForm := false;
    }
  }
}

=== FILE: goal_input.dfy ===
// The goal input form: title, description and category, submitted trimmed
// when both texts are non-blank.

module GoalInput {
  import opened Common
  import opened UseGoals

  /** What the form hands to its onGoalSubmit callback. */
  datatype Submission = Submission(title: string, description: string, category: GoalCategory)

  class GoalForm {
    var title: string
    var description: string
    var category: GoalCategory

    constructor()
      ensures title == "" && description == "" && category == ProductivityGoal
    {
      title := "";
      description := "";
      category := ProductivityGoal;
    }

    method Edit(t: string, d: string, c: GoalCategory)
      modifies this
      ensures title == t && description == d && category == c
    {
      title, description, category := t, d, c;
    }

    /**
     * handleSubmit: with both texts non-blank the trimmed texts and the
     * category are submitted and the texts cleared, the category kept;
     * otherwise nothing is submitted and nothing changes.
     */
    method HandleSubmit() returns (submitted: Option<Submission>)
      modifies this
      ensures submitted.Some? <==> !IsBlank(old(title)) && !IsBlank(old(description))
      ensures submitted.Some? ==>
        && submitted.value == Submission(Trim(old(title)), Trim(old(description)), old(category))
        && title == "" && description == ""
      ensures submitted.None? ==> title == old(title) && description == old(description)
      ensures category == old(category)
    {
      var t := Trim(title);
      var d := Trim(description);
      if t != [] && d != [] {
        submitted := Some(Submission(t, d, category));
        title := "";
        description := "";
      } else {
        submitted := None;
      }
    }
  }

  /** A submission never carries surrounding blanks, and is never blank itself. */
  lemma SubmittedTextsAreTrimmed(title: string, description: string)
    requires !IsBlank(title) && !IsBlank(description)
    ensures Trim(Trim(title)) == Trim(title) && Trim(Trim(description)) == Trim(description)
    ensures !IsBlank(Trim(title)) && !IsBlank(Trim(description))
  {
    TrimIdempotent(title);
    TrimIdempotent(description);
  }
}

=== FILE: goals_flow.dfy ===
// The "Profile & Planning" page: eighteen profile inputs, a Save button and a
// Generate button, and a flow that walks form -> saving -> saved ->
// generating -> generated with a fallback on each failure.

module GoalsFlow {
  import opened Common
  import opened ClientModels

  datatype FlowState = Form | Saving | Saved | Generating | Generated

  /** The eighteen inputs of the page. */
  datatype Field =
    | MedicalConditions | CurrentMedications | Allergies | FitnessLevel | SleepPattern
    | WorkHours | AvailableTime | BusiestDays | PreferredTimes
    | Currency | MonthlyIncome | MonthlyExpenses | MonthlySavingGoal | RiskTolerance
    | ShortTermGoals | LongTermGoals | LifePriorities | PreferredTimeframe

  /** The input values, grouped the way the payload groups them. */
  datatype ProfileForm = ProfileForm(health: Health, schedule: Schedule, financial: Financial, lifeGoals: LifeGoalsForm)

  /** Initial values: currency 'THB', the three amounts '0', everything else 'None'. */
  function DefaultForm(): ProfileForm
  {
    ProfileForm(
      Health("None", "None", "None", "None", "None"),
      Schedule("None", "None", "None", "None"),
      Financial("THB", "0", "0", "0", "None"),
      LifeGoalsForm("None", "None", "None", "None"))
  }

  /** The value shown in input `k`. */
  function Value(f: ProfileForm, k: Field): string
  {
    match k
    case MedicalConditions => f.health.medicalConditions
    case CurrentMedications => f.health.currentMedications
    case Allergies => f.health.allergies
    case FitnessLevel => f.health.fitnessLevel
    case SleepPattern => f.health.sleepPattern
    case WorkHours => f.schedule.workHours
    case AvailableTime => f.schedule.availableTime
    case BusiestDays => f.schedule.busiestDays
    case PreferredTimes => f.schedule.preferredTimes
    case Currency => f.financial.currency
    case MonthlyIncome => f.financial.monthlyIncome
    case MonthlyExpenses => f.financial.monthlyExpenses
    case MonthlySavingGoal => f.financial.monthlySavingGoal
    case RiskTolerance => f.financial.riskTolerance
    case ShortTermGoals => f.lifeGoals.shortTermGoals
    case LongTermGoals => f.lifeGoals.longTermGoals
    case LifePriorities => f.lifeGoals.lifePriorities
    case PreferredTimeframe => f.lifeGoals.preferredTimeframe
  }

  /** The form after typing `v` into input `k`: that input reads `v`, every other input is unchanged. */
  function WithValue(f: ProfileForm, k: Field, v: string): (g: ProfileForm)
    ensures Value(g, k) == v
    ensures forall j :: j != k ==> Value(g, j) == Value(f, j)
  {
    match k
    case MedicalConditions => f.(health := f.health.(medicalConditions := v))
    case CurrentMedications => f.(health := f.health.(currentMedications := v))
    case Allergies => f.(health := f.health.(allergies := v))
    case FitnessLevel => f.(health := f.health.(fitnessLevel := v))
    case SleepPattern => f.(health := f.health.(sleepPattern := v))
    case WorkHours => f.(schedule := f.schedule.(workHours := v))
    case AvailableTime => f.(schedule := f.schedule.(availableTime := v))
    case BusiestDays => f.(schedule := f.schedule.(busiestDays := v))
    case PreferredTimes => f.(schedule := f.schedule.(preferredTimes := v))
    case Currency => f.(financial := f.financial.(currency := v))
    case MonthlyIncome => f.(financial := f.financial.(monthlyIncome := v))
    case MonthlyExpenses => f.(financial := f.financial.(monthlyExpenses := v))
    case MonthlySavingGoal => f.(financial := f.financial.(monthlySavingGoal := v))
    case RiskTolerance => f.(financial := f.financial.(riskTolerance := v))
    case ShortTermGoals => f.(lifeGoals := f.lifeGoals.(shortTermGoals := v))
    case LongTermGoals => f.(lifeGoals := f.lifeGoals.(longTermGoals := v))
    case LifePriorities => f.(lifeGoals := f.lifeGoals.(lifePriorities := v))
    case PreferredTimeframe => f.(lifeGoals := f.lifeGoals.(preferredTimeframe := v))
  }

  /** isFormComplete: the conjunction of the eighteen values, each truthy (non-empty). */
  predicate IsFormComplete(f: ProfileForm)
  {
    f.health.medicalConditions != "" && f.health.currentMedications != "" && f.health.allergies != ""
    && f.health.fitnessLevel != "" && f.health.sleepPattern != ""
    && f.schedule.workHours != "" && f.schedule.availableTime != ""
    && f.schedule.busiestDays != "" && f.schedule.preferredTimes != ""
    && f.financial.currency != "" && f.financial.monthlyIncome != "" && f.financial.monthlyExpenses != ""
    && f.financial.monthlySavingGoal != "" && f.financial.riskTolerance != ""
    && f.lifeGoals.shortTermGoals != "" && f.lifeGoals.longTermGoals != ""
    && f.lifeGoals.lifePriorities != "" && f.lifeGoals.preferredTimeframe != ""
  }

  /** The form is complete exactly when no input is empty. */
  lemma CompleteIffNoEmptyInput(f: ProfileForm)
    ensures IsFormComplete(f) <==> forall k :: Value(f, k) != ""
  {
    if !IsFormComplete(f) {
      if f.health.medicalConditions == "" { assert Value(f, MedicalConditions) == ""; }
      else if f.health.currentMedications == "" { assert Value(f, CurrentMedications) == ""; }
      else if f.health.allergies == "" { assert Value(f, Allergies) == ""; }
      else if f.health.fitnessLevel == "" { assert Value(f, FitnessLevel) == ""; }
      else if f.health.sleepPattern == "" { assert Value(f, SleepPattern) == ""; }
      else if f.schedule.workHours == "" { assert Value(f, WorkHours) == ""; }
      else if f.schedule.availableTime == "" { assert Value(f, AvailableTime) == ""; }
      else if f.schedule.busiestDays == "" { assert Value(f, BusiestDays) == ""; }
      else if f.schedule.preferredTimes == "" { assert Value(f, PreferredTimes) == ""; }
      else if f.financial.currency == "" { assert Value(f, Currency) == ""; }
      else if f.financial.monthlyIncome == "" { assert Value(f, MonthlyIncome) == ""; }
      else if f.financial.monthlyExpenses == "" { assert Value(f, MonthlyExpenses) == ""; }
      else if f.financial.monthlySavingGoal == "" { assert Value(f, MonthlySavingGoal) == ""; }
      else if f.financial.riskTolerance == "" { assert Value(f, RiskTolerance) == ""; }
      else if f.lifeGoals.shortTermGoals == "" { assert Value(f, ShortTermGoals) == ""; }
      else if f.lifeGoals.longTermGoals == "" { assert Value(f, LongTermGoals) == ""; }
      else if f.lifeGoals.lifePriorities == "" { assert Value(f, LifePriorities) == ""; }
      else { assert Value(f, PreferredTimeframe) == ""; }
    }
  }

  /** The initial values already make the form complete. */
  lemma DefaultFormComplete()
    ensures forall k :: Value(DefaultForm(), k) != ""
  {
    CompleteIffNoEmptyInput(DefaultForm());
  }

  /** The payload both handlers send: a blank personal section and the four groups as typed. */
  function BuildPayload(f: ProfileForm): ClientProfileData
  {
    ClientProfileData(Personal("", "", "", "", ""), f.health, f.schedule, f.financial, f.lifeGoals)
  }

  /** Where input `k` ends up in the payload. */
  function PayloadValue(p: ClientProfileData, k: Field): string
  {
    match k
    case MedicalConditions => p.health.medicalConditions
    case CurrentMedications => p.health.currentMedications
    case Allergies => p.health.allergies
    case FitnessLevel => p.health.fitnessLevel
    case SleepPattern => p.health.sleepPattern
    case WorkHours => p.schedule.workHours
    case AvailableTime => p.schedule.availableTime
    case BusiestDays => p.schedule.busiestDays
    case PreferredTimes => p.schedule.preferredTimes
    case Currency => p.financial.currency
    case MonthlyIncome => p.financial.monthlyIncome
    case MonthlyExpenses => p.financial.monthlyExpenses
    case MonthlySavingGoal => p.financial.monthlySavingGoal
    case RiskTolerance => p.financial.riskTolerance
    case ShortTermGoals => p.lifeGoals.shortTermGoals
    case LongTermGoals => p.lifeGoals.longTermGoals
    case LifePriorities => p.lifeGoals.lifePriorities
    case PreferredTimeframe => p.lifeGoals.preferredTimeframe
  }

  /** Every input reaches the payload verbatim and the personal section is five empty strings. */
  lemma PayloadCopiesInputs(f: ProfileForm)
    ensures BuildPayload(f).personal == Personal("", "", "", "", "")
    ensures forall k :: PayloadValue(BuildPayload(f), k) == Value(f, k)
  {
  }

  // ---------------------------------------------------------------------------
  // The page as a state machine
  // ---------------------------------------------------------------------------

  datatype PageState = PageState(flow: FlowState, showDialog: bool, form: ProfileForm)

  function InitialState(): PageState
  {
    PageState(Form, false, DefaultForm())
  }

  /** Save is enabled only in 'form' with a complete form. */
  predicate SaveEnabled(st: PageState)
  {
    IsFormComplete(st.form) && st.flow == Form
  }

  /** Generate is enabled only in 'saved'. */
  predicate GenerateEnabled(st: PageState)
  {
    st.flow == Saved
  }

  /** Every input is disabled unless the flow is in 'form'. */
  predicate InputsEnabled(st: PageState)
  {
    st.flow == Form
  }

  /**
   * What can happen on the page. A click on a disabled control does nothing;
   * a request settles only while it is in flight; the Continue button exists
   * only in the dialog shown after a plan is generated.
   */
  datatype Event =
    | Typed(k: Field, v: string)
    | SaveClicked
    | SaveSettled(saveOk: bool)
    | GenerateClicked
    | GenerateSettled(generateOk: bool)
    | ContinueClicked

  /**
   * The page's flow: form, saving, saved, generating, generated, where a
   * failed save returns to the form and a failed generation to 'saved'.
   */
  predicate FlowEdge(a: FlowState, b: FlowState)
  {
    || (a == Form && b == Saving)
    || (a == Saving && (b == Saved || b == Form))
    || (a == Saved && b == Generating)
    || (a == Generating && (b == Generated || b == Saved))
  }

  /** Past saving: the profile has been stored and the form is no longer shown. */
  predicate PastSaving(f: FlowState)
  {
    f == Saved || f == Generating || f == Generated
  }

  /** One event: the flow stays or follows one edge, and the inputs change only in 'form'. */
  function Step(st: PageState, e: Event): (r: PageState)
    ensures r.flow == st.flow || FlowEdge(st.flow, r.flow)
    ensures r.form != st.form ==> st.flow == Form && r.flow == Form
  {
    match e
    case Typed(k, v) =>
      if InputsEnabled(st) then st.(form := WithValue(st.form, k, v)) else st
    case SaveClicked =>
      if SaveEnabled(st) then st.(flow := Saving, showDialog := true) else st
    case SaveSettled(ok) =>
      if st.flow != Saving then st
      else if ok then st.(flow := Saved, showDialog := false)
      else st.(flow := Form, showDialog := false)
    case GenerateClicked =>
      if GenerateEnabled(st) then st.(flow := Generating, showDialog := true) else st
    case GenerateSettled(ok) =>
      if st.flow != Generating then st
      else if ok then st.(flow := Generated)
      else st.(flow := Saved, showDialog := false)
    case ContinueClicked =>
      if st.flow == Generated && st.showDialog then st.(showDialog := false) else st
  }

  /**
   * A sequence of events. Once the profile is saved the page never returns
   * to the form and its inputs never change again, and a generated plan
   * stays generated.
   */
  function Run(st: PageState, events: seq<Event>): (r: PageState)
    ensures PastSaving(st.flow) ==> PastSaving(r.flow) && r.form == st.form
    ensures st.flow == Generated ==> r.flow == Generated
    decreases |events|
  {
    if events == [] then st else Run(Step(st, events[0]), events[1..])
  }

  /**
   * What holds on the page at any time: outside 'form' the inputs that were
   * saved form a complete profile, and while a request is in flight its dialog
   * is shown.
   */
  predicate Consistent(st: PageState)
  {
    (st.flow != Form ==> IsFormComplete(st.form))
    && (st.flow == Saving || st.flow == Generating ==> st.showDialog)
  }

  lemma StepConsistent(st: PageState, e: Event)
    requires Consistent(st)
    ensures Consistent(Step(st, e))
  {
  }

  /** Every sequence of events from the initial page keeps it consistent. */
  lemma {:induction false} RunConsistent(st: PageState, events: seq<Event>)
    requires Consistent(st)
    ensures Consistent(Run(st, events))
    decreases |events|
  {
    if events != [] {
      StepConsistent(st, events[0]);
      RunConsistent(Step(st, events[0]), events[1..]);
    }
  }

  /** 'generating' is entered only by the Generate click from 'saved'. */
  lemma EnterGeneratingOnlyFromSaved(st: PageState, e: Event)
    requires st.flow != Generating && Step(st, e).flow == Generating
    ensures st.flow == Saved && e == GenerateClicked
  {
  }

  /** 'saving' is entered only by the Save click from 'form' with a complete form. */
  lemma EnterSavingOnlyFromCompleteForm(st: PageState, e: Event)
    requires st.flow != Saving && Step(st, e).flow == Saving
    ensures st.flow == Form && IsFormComplete(st.form) && e == SaveClicked
  {
  }

  /** The inputs change only in 'form'. */
  lemma FormFrozenOutsideForm(st: PageState, e: Event)
    requires st.flow != Form
    ensures Step(st, e).form == st.form
  {
  }

  /**
   * A session that never completes the form never leaves 'form'. The lemma
   * takes a form whose input `k` stays empty: no typing into `k` happens.
   */
  lemma {:induction false} IncompleteFormNeverSaves(st: PageState, k: Field, events: seq<Event>)
    requires st.flow == Form && Value(st.form, k) == ""
    requires forall i :: 0 <= i < |events| ==> !events[i].Typed? || events[i].k != k
    ensures Run(st, events).flow == Form
    decreases |events|
  {
    if events != [] {
      CompleteIffNoEmptyInput(st.form);
      var next := Step(st, events[0]);
      assert next.flow == Form && Value(next.form, k) == "";
      IncompleteFormNeverSaves(next, k, events[1..]);
    }
  }

  // ---------------------------------------------------------------------------
  // The page component
  // ---------------------------------------------------------------------------

  class GoalsPage {
    var flow: FlowState
    var showDialog: bool
    var form: ProfileForm

    function State(): PageState
      reads this
    {
      PageState(flow, showDialog, form)
    }

    constructor()
      ensures State() == InitialState()
    {
      flow := Form;
      showDialog := false;
      form := DefaultForm();
    }

    /** onChange of input `k`; a disabled input delivers no change. */
    method Type(k: Field, v: string)
      modifies this
      ensures InputsEnabled(old(State())) ==> form == WithValue(old(form), k, v)
      ensures !InputsEnabled(old(State())) ==> form == old(form)
      ensures flow == old(flow) && showDialog == old(showDialog)
    {
      if flow == Form {
        form := WithValue(form, k, v);
      }
    }

    /**
     * handleSaveProfile up to its request: an incomplete form changes nothing
     * and sends nothing; otherwise the flow enters 'saving', the dialog opens
     * and the payload is returned for the user service.
     */
    method HandleSaveProfile() returns (request: Option<ClientProfileData>)
      modifies this
      ensures !IsFormComplete(old(form)) ==> request == None && State() == old(State())
      ensures IsFormComplete(old(form)) ==>
        request == Some(BuildPayload(old(form))) && flow == Saving && showDialog && form == old(form)
    {
      if !IsFormComplete(form) {
        return None;
      }
      request := Some(BuildPayload(form));
      flow := Saving;
      showDialog := true;
    }

    /** The rest of handleSaveProfile once the service settles: 'saved' on success, back to 'form' on failure; the dialog closes. */
    method SaveResolved(ok: bool)
      modifies this
      ensures flow == (if ok then Saved else Form)
      ensures !showDialog && form == old(form)
    {
      if ok {
        flow := Saved;
      } else {
        flow := Form;
      }
      showDialog := false;
    }

    /** handleGeneratePlan up to its request: 'generating' with the dialog open. */
    method HandleGeneratePlan() returns (request: ClientProfileData)
      modifies this
      ensures request == BuildPayload(old(form))
      ensures flow == Generating && showDialog && form == old(form)
    {
      request := BuildPayload(form);
      flow := Generating;
      showDialog := true;
    }

    /** The rest of handleGeneratePlan: 'generated' on success (dialog kept), back to 'saved' with the dialog closed on failure. */
    method GenerateResolved(ok: bool)
      modifies this
      ensures ok ==> flow == Generated && showDialog == old(showDialog)
      ensures !ok ==> flow == Saved && !showDialog
      ensures form == old(form)
    {
      if ok {
        flow := Generated;
      } else {
        flow := Saved;
        showDialog := false;
      }
    }

    /** handleContinue: close the dialog and navigate to the goals overview. */
    method HandleContinue() returns (navigateTo: string)
      modifies this
      ensures navigateTo == "goals-overview"
      ensures !showDialog && flow == old(flow) && form == old(form)
    {
      showDialog := false;
      navigateTo := "goals-overview";
    }

    /** The page's reaction to one event, through its enabled controls and handlers. */
    method Dispatch(e: Event) returns (request: Option<ClientProfileData>)
      modifies this
      ensures State() == Step(old(State()), e)
      ensures request.Some? ==> request.value == BuildPayload(old(form))
      ensures request.Some? <==>
                (e == SaveClicked && SaveEnabled(old(State())))
                || (e == GenerateClicked && GenerateEnabled(old(State())))
    {
      request := None;
      match e {
        case Typed(k, v) =>
          Type(k, v);
        case SaveClicked =>
          if SaveEnabled(State()) {
            request := HandleSaveProfile();
          }
        case SaveSettled(ok) =>
          if flow == Saving {
            SaveResolved(ok);
          }
        case GenerateClicked =>
          if GenerateEnabled(State()) {
            var payload := HandleGeneratePlan();
            request := Some(payload);
          }
        case GenerateSettled(ok) =>
          if flow == Generating {
            GenerateResolved(ok);
          }
        case ContinueClicked =>
          if flow == Generated && showDialog {
            var _ := HandleContinue();
          }
      }
    }
  }
}

=== FILE: goals_overview.dfy ===
// The goals overview page: goal cards interleaved from the long-term and
// short-term lists, the "AI plan missing" reconciliation, goal deletion and
// the data-cleanup dialog.

module GoalsOverview {
  import opened Common
  import opened Http
  import opened ClientModels
  import LifeGoalService
  import DeleteService

  datatype CardType = ShortTermCard | LongTermCard

  /** GoalCardData without its date and its random counters. */
  datatype GoalCard = GoalCard(id: string, title: string, description: string, category: string, aiPlan: string, cardType: CardType)

  datatype NoticeKind = Success | Error | Warning
  datatype Notification = Notification(message: string, kind: NoticeKind)

  /** hasExistingGoals: a record is loaded and one of its term lists is non-empty. */
  predicate HasExistingGoals(lifeGoals: Option<LifeGoalsData>)
  {
    lifeGoals.Some? && (|lifeGoals.value.longTerm| > 0 || |lifeGoals.value.shortTerm| > 0)
  }

  /** The effect that loads the plan runs whenever the record is not the empty one (including before any record). */
  predicate ShouldFetchPlan(lifeGoals: Option<LifeGoalsData>)
  {
    lifeGoals.None? || lifeGoals.value.id != ""
  }

  /** `list[i] || fallback`: the entry when it exists and is non-empty. */
  function EntryOr(list: seq<string>, i: nat, fallback: string): string
  {
    if i < |list| && list[i] != "" then list[i] else fallback
  }

  /**
   * Card i of a record: id "goal-i", the i-th long-term goal as title and the
   * i-th short-term goal as description (with fallbacks), the timeframe as
   * category, the plan HTML, and a short-term card exactly when i is below
   * the short-term list's length.
   */
  predicate IsCard(c: GoalCard, g: LifeGoalsData, i: nat, plan: string)
  {
    && c.id == "goal-" + NatToString(i)
    && c.title == EntryOr(g.longTerm, i, "Long-term Goal")
    && c.description == EntryOr(g.shortTerm, i, "Short-term Goal")
    && c.category == g.timeframe
    && c.aiPlan == plan
    && (c.cardType == ShortTermCard <==> i < |g.shortTerm|)
  }

  /** Appending card i to the first i cards keeps every card at its own index. */
  lemma AppendCard(cards: seq<GoalCard>, card: GoalCard, g: LifeGoalsData, plan: string)
    requires forall j :: 0 <= j < |cards| ==> IsCard(cards[j], g, j, plan)
    requires IsCard(card, g, |cards|, plan)
    ensures forall j :: 0 <= j < |cards| + 1 ==> IsCard((cards + [card])[j], g, j, plan)
  {
    forall j | 0 <= j < |cards| + 1
      ensures IsCard((cards + [card])[j], g, j, plan)
    {
      if j < |cards| {
        assert (cards + [card])[j] == cards[j];
      }
    }
  }

  /** Cards built by index carry pairwise different ids. */
  lemma CardIdsDistinct(cards: seq<GoalCard>, g: LifeGoalsData, plan: string)
    requires forall i :: 0 <= i < |cards| ==> IsCard(cards[i], g, i, plan)
    ensures forall i, j :: 0 <= i < j < |cards| ==> cards[i].id != cards[j].id
  {
    forall i, j | 0 <= i < j < |cards|
      ensures cards[i].id != cards[j].id
    {
      assert IsCard(cards[i], g, i, plan) && IsCard(cards[j], g, j, plan);
      GoalIdsDistinct(i, j);
    }
  }

  class OverviewPage {
    var lifeGoals: Option<LifeGoalsData>
    var loading: bool
    var goalsError: Option<string>
    var aiPlanError: Option<string>
    var deletionError: Option<string>
    var aiPlanHtml: Option<string>
    var deleting: bool
    var goalId: string
    var notification: Option<Notification>
    var showDataCleanupDialog: bool
    var pendingCleanup: Option<LifeGoalService.AiPlan>
    var showGoalExistsDialog: bool

    constructor()
      ensures lifeGoals.None? && loading && aiPlanHtml.None? && goalId == "" && !deleting
      ensures notification.None? && !showDataCleanupDialog && !showGoalExistsDialog && pendingCleanup.None?
      ensures goalsError.None? && aiPlanError.None? && deletionError.None?
    {
      lifeGoals := None;
      loading := true;
      goalsError := None;
      aiPlanError := None;
      deletionError := None;
      aiPlanHtml := None;
      deleting := false;
      goalId := "";
      notification := None;
      showDataCleanupDialog := false;
      pendingCleanup := None;
      showGoalExistsDialog := false;
    }

    /**
     * transformToGoalCards: one card per index below the longer list's
     * length; card i takes the i-th long-term goal as title and the i-th
     * short-term goal as description (with fallbacks), the timeframe as
     * category, the same plan HTML for every card, and is a short-term card
     * exactly when i is below the short-term list's length.
     */
    method TransformToGoalCards() returns (cards: seq<GoalCard>)
      ensures lifeGoals.None? ==> cards == []
      ensures lifeGoals.Some? ==>
        |cards| == Max(|lifeGoals.value.longTerm|, |lifeGoals.value.shortTerm|)
      ensures lifeGoals.Some? ==> forall i :: 0 <= i < |cards| ==>
        IsCard(cards[i], lifeGoals.value, i, if aiPlanHtml.Some? then aiPlanHtml.value else "")
      ensures forall i, j :: 0 <= i < j < |cards| ==> cards[i].id != cards[j].id
    {
      if lifeGoals.None? {
        return [];
      }
      var g := lifeGoals.value;
      var maxLength := Max(|g.longTerm|, |g.shortTerm|);
      var plan := if aiPlanHtml.Some? then aiPlanHtml.value else "";
      cards := [];
      var i := 0;
      while i < maxLength
        invariant 0 <= i <= maxLength
        invariant |cards| == i
        invariant forall j :: 0 <= j < i ==> IsCard(cards[j], g, j, plan)
      {
        var longTerm := if i < |g.longTerm| && g.longTerm[i] != "" then g.longTerm[i] else "Long-term Goal";
        var shortTerm := if i < |g.shortTerm| && g.shortTerm[i] != "" then g.shortTerm[i] else "Short-term Goal";
        var cardType := if i < |g.shortTerm| then ShortTermCard else LongTermCard;
        var card := GoalCard("goal-" + NatToString(i), longTerm, shortTerm, g.timeframe, plan, cardType);
        assert IsCard(card, g, i, plan);
        AppendCard(cards, card, g, plan);
        cards := cards + [card];
        i := i + 1;
      }
      CardIdsDistinct(cards, g, plan);
    }

    /** handleAddGoal: with goals present the exists-dialog opens instead of calling onAddGoal. */
    method HandleAddGoal() returns (callsOnAddGoal: bool)
      modifies this
      ensures callsOnAddGoal <==> !HasExistingGoals(lifeGoals)
      ensures showGoalExistsDialog == (old(showGoalExistsDialog) || HasExistingGoals(lifeGoals))
      ensures lifeGoals == old(lifeGoals) && aiPlanHtml == old(aiPlanHtml) && goalId == old(goalId)
    {
      if HasExistingGoals(lifeGoals) {
        showGoalExistsDialog := true;
        return false;
      }
      return true;
    }

    /** fetchGoals: store the loaded record (and say so), or record the error; loading ends either way. */
    method FetchGoals(outcome: Outcome<LifeGoalsData>)
      modifies this
      ensures outcome.Returned? ==>
        lifeGoals == Some(outcome.value) && goalsError.None?
        && notification == Some(Notification("Goals loaded successfully", Success))
      ensures outcome.Threw? ==>
        lifeGoals == old(lifeGoals) && goalsError == Some(outcome.message) && notification == old(notification)
      ensures !loading
      ensures aiPlanHtml == old(aiPlanHtml) && goalId == old(goalId) && showDataCleanupDialog == old(showDataCleanupDialog)
    {
      loading := true;
      goalsError := None;
      match outcome {
        case Returned(data) =>
          lifeGoals := Some(data);
          notification := Some(Notification("Goals loaded successfully", Success));
        case Threw(message) =>
          goalsError := Some(message);
      }
      loading := false;
    }

    /**
     * fetchAiPlan. A plan with a null id or null text means: nothing to show
     * when there are no goals, and a suspected leftover that the cleanup
     * dialog offers to delete when there are goals. A complete plan records
     * its id and its rendered HTML (`renderedHtml`, the markdown rendering of
     * the plan text, which is not modelled).
     */
    method FetchAiPlan(outcome: Outcome<LifeGoalService.AiPlan>, renderedHtml: string)
      modifies this
      ensures outcome.Threw? ==>
        aiPlanError == Some(outcome.message) && aiPlanHtml == old(aiPlanHtml) && goalId == old(goalId)
        && showDataCleanupDialog == old(showDataCleanupDialog)
      ensures outcome.Returned? && (outcome.value.id.None? || outcome.value.generatedPlan.None?)
              && !HasExistingGoals(lifeGoals) ==>
        aiPlanHtml.None? && goalId == "" && showDataCleanupDialog == old(showDataCleanupDialog)
      ensures outcome.Returned? && (outcome.value.id.None? || outcome.value.generatedPlan.None?)
              && HasExistingGoals(lifeGoals) ==>
        showDataCleanupDialog && pendingCleanup == Some(outcome.value)
        && aiPlanHtml == old(aiPlanHtml) && goalId == old(goalId)
      ensures outcome.Returned? && outcome.value.id.Some? && outcome.value.generatedPlan.Some? ==>
        goalId == outcome.value.id.value && aiPlanHtml == Some(renderedHtml)
        && showDataCleanupDialog == old(showDataCleanupDialog)
      ensures outcome.Returned? ==> aiPlanError.None?
      ensures lifeGoals == old(lifeGoals)
    {
      aiPlanError := None;
      match outcome {
        case Threw(message) =>
          aiPlanError := Some(message);
        case Returned(response) =>
          if response.id.None? || response.generatedPlan.None? {
            if lifeGoals.None? || (|lifeGoals.value.longTerm| == 0 && |lifeGoals.value.shortTerm| == 0) {
              aiPlanHtml := None;
              goalId := "";
              return;
            } else {
              pendingCleanup := Some(response);
              showDataCleanupDialog := true;
              return;
            }
          }
          goalId := response.id.value;
          aiPlanHtml := Some(renderedHtml);
      }
    }

    /**
     * handleDataCleanup with handleDeleteUserData: the dialog closes first;
     * only a delete answered 'success' reloads the goals and clears the plan
     * and goal id, anything else (a 'failed' answer or a thrown Error) shows
     * the error notification and leaves the plan state alone.
     */
    method HandleDataCleanup(deleteOutcome: Outcome<DeleteService.MessageResult>, reload: Outcome<LifeGoalsData>)
      modifies this
      ensures !showDataCleanupDialog
      ensures deleteOutcome == Returned(DeleteService.MessageResult("success")) ==>
        aiPlanHtml.None? && goalId == ""
        && notification == Some(Notification("Data cleaned up successfully", Success))
        && lifeGoals == (if reload.Returned? then Some(reload.value) else old(lifeGoals))
      ensures deleteOutcome != Returned(DeleteService.MessageResult("success")) ==>
        aiPlanHtml == old(aiPlanHtml) && goalId == old(goalId) && lifeGoals == old(lifeGoals)
        && notification == Some(Notification("Failed to clean up data", Error))
    {
      showDataCleanupDialog := false;
      if deleteOutcome != Returned(DeleteService.MessageResult("success")) {
        notification := Some(Notification("Failed to clean up data", Error));
        return;
      }
      FetchGoals(reload);
      aiPlanHtml := None;
      goalId := "";
      notification := Some(Notification("Data cleaned up successfully", Success));
    }

    /**
     * handleDeleteGoal as written: it deletes the stored plan id, whichever
     * card was clicked, and it judges success only by whether an Error was
     * thrown. DeleteService.deleteGoal does not throw once the user is known,
     * so a delete answered 'Failed to delete account' is still announced as a
     * success when the reload works.
     */
    method HandleDeleteGoal(card: GoalCard, deleteOutcome: Outcome<DeleteService.ResponseModel>,
                            reload: Outcome<LifeGoalsData>) returns (deletedId: string)
      modifies this
      ensures deletedId == old(goalId)
      ensures !deleting
      ensures deleteOutcome.Returned? && reload.Returned? ==>
        lifeGoals == Some(reload.value) && deletionError.None?
        && notification == Some(Notification("Goal deleted successfully", Success))
      ensures deleteOutcome.Threw? || reload.Threw? ==>
        lifeGoals == old(lifeGoals) && deletionError.Some?
        && notification == Some(Notification("Failed to delete goal", Error))
      ensures aiPlanHtml == old(aiPlanHtml) && goalId == old(goalId)
    {
      deleting := true;
      deletionError := None;
      deletedId := goalId;
      if deleteOutcome.Threw? {
        deletionError := Some(deleteOutcome.message);
        notification := Some(Notification("Failed to delete goal", Error));
      } else if reload.Threw? {
        deletionError := Some(reload.message);
        notification := Some(Notification("Failed to delete goal", Error));
      } else {
        lifeGoals := Some(reload.value);
        notification := Some(Notification("Goal deleted successfully", Success));
      }
      deleting := false;
    }

    /**
     * handleDeleteGoal as evidently intended: a delete whose result is not the
     * 200 answer counts as a failure and is reported as one.
     */
    method HandleDeleteGoalChecked(card: GoalCard, deleteOutcome: Outcome<DeleteService.ResponseModel>,
                                   reload: Outcome<LifeGoalsData>) returns (deletedId: string)
      modifies this
      ensures deletedId == old(goalId)
      ensures !deleting
      ensures notification == Some(Notification("Goal deleted successfully", Success)) <==>
        deleteOutcome.Returned? && deleteOutcome.value.status == 200 && reload.Returned?
      ensures notification != Some(Notification("Goal deleted successfully", Success)) ==>
        lifeGoals == old(lifeGoals) && notification == Some(Notification("Failed to delete goal", Error))
      ensures aiPlanHtml == old(aiPlanHtml) && goalId == old(goalId)
    {
      deleting := true;
      deletionError := None;
      deletedId := goalId;
      if deleteOutcome.Threw? {
        deletionError := Some(deleteOutcome.message);
        notification := Some(Notification("Failed to delete goal", Error));
      } else if deleteOutcome.value.status != 200 {
        deletionError := Some(deleteOutcome.value.message);
        notification := Some(Notification("Failed to delete goal", Error));
      } else if reload.Threw? {
        deletionError := Some(reload.message);
        notification := Some(Notification("Failed to delete goal", Error));
      } else {
        lifeGoals := Some(reload.value);
        notification := Some(Notification("Goal deleted successfully", Success));
      }
      deleting := false;
    }
  }

  /** 'goal-i' and 'goal-j' differ for different indices. */
  lemma GoalIdsDistinct(i: nat, j: nat)
    requires i != j
    ensures "goal-" + NatToString(i) != "goal-" + NatToString(j)
  {
    assert ("goal-" + NatToString(i))[5..] == NatToString(i);
    assert ("goal-" + NatToString(j))[5..] == NatToString(j);
  }

  /**
   * The delete-goal discrepancy: with a signed-in user whose DELETE fails
   * (no token, a network error or a non-2xx reply), the service answers with
   * the 500 result instead of throwing, so the page as written announces
   * 'Goal deleted successfully' once the reload works, while the checked
   * version reports the failure.
   */
  lemma DeleteFailureAnnouncedAsSuccess(userId: Option<string>, token: Option<string>, goalId: string,
                                        transport: Transport<()>)
    requires Authenticated(userId) && !DeleteService.Succeeded(token, transport)
    ensures var c := DeleteService.DeleteGoal(userId, token, goalId, transport);
      c.outcome.Returned? && c.outcome.value.status == 500
  {
  }

  /** The same scenario run through both versions of the handler. */
  method DeleteFailureScenario(userId: Option<string>, token: Option<string>, reloaded: LifeGoalsData,
                               transport: Transport<()>, card: GoalCard)
    returns (asWrittenNotice: Option<Notification>, checkedNotice: Option<Notification>)
    requires Authenticated(userId) && !DeleteService.Succeeded(token, transport)
    ensures asWrittenNotice == Some(Notification("Goal deleted successfully", Success))
    ensures checkedNotice == Some(Notification("Failed to delete goal", Error))
  {
    var asWritten := new OverviewPage();
    var c := DeleteService.DeleteGoal(userId, token, asWritten.goalId, transport);
    DeleteFailureAnnouncedAsSuccess(userId, token, asWritten.goalId, transport);
    var _ := asWritten.HandleDeleteGoal(card, c.outcome, Returned(reloaded));
    asWrittenNotice := asWritten.notification;

    var checked := new OverviewPage();
    var _ := checked.HandleDeleteGoalChecked(card, c.outcome, Returned(reloaded));
    checkedNotice := checked.notification;
  }
}

=== FILE: goals_section.dfy ===
// The dashboard's goal list: a stored list of goals that grows by one
// goal per non-blank entry.

module GoalsSection {
  import opened Common

  datatype Goal = Goal(id: string, title: string, description: string, category: string, priority: string, progress: nat)

  /** The goal handleAddGoal builds for an entered title. */
  function NewGoal(id: string, title: string): (g: Goal)
    ensures g.title == title && g.description == "AI-generated plan for: " + title
    ensures g.progress == 0 && g.priority == "medium" && g.category == "productivity" && g.id == id
  {
    Goal(id, title, "AI-generated plan for: " + title, "productivity", "medium", 0)
  }

  class GoalsBoard {
    var goals: seq<Goal>
    var newGoal: string
    var showForm: bool

    constructor(stored: seq<Goal>)
      ensures goals == stored && newGoal == "" && !showForm
    {
      goals := stored;
      newGoal := "";
      showForm := false;
    }

    /** Typing into the goal input replaces its text and nothing else. */
    method Type(s: string)
      modifies this
      ensures newGoal == s && goals == old(goals) && showForm == old(showForm)
    {
      newGoal := s;
    }

    /** handleAddGoal: a blank entry changes nothing; otherwise one goal is appended and the form is reset. */
    method HandleAddGoal(now: nat)
      modifies this
      ensures IsBlank(old(newGoal)) ==> goals == old(goals) && newGoal == old(newGoal) && showForm == old(showForm)
      ensures !IsBlank(old(newGoal)) ==>
        goals == old(goals) + [NewGoal(NatToString(now), old(newGoal))] && newGoal == "" && !showForm
    {
      if IsBlank(newGoal) {
        return;
      }
      goals := goals + [NewGoal(NatToString(now), newGoal)];
      newGoal := "";
      showForm := false;
    }
  }
}

=== FILE: habits_page.dfy ===
// The habits page: stored habits mapped to display cards, filtered by
// category, with the milestone badge and the days-to-go counter.

module HabitsPage {
  import opened Common
  import opened Http

  /** A habit as the habit service returns it. */
  datatype HabitData = HabitData(
    id: nat, userId: string, name: string, description: string,
    targetCount: int, currentStreak: int, category: string, createdAt: string)

  /** The entries of iconMap: one per known category and the flag for anything else. */
  datatype Icon = Muscle | Lightning | Meditation | Books | Flag

  function IconFor(category: string): (icon: Icon)
    ensures icon == Flag <==> category !in {"health", "productivity", "mindfulness", "learning"}
  {
    if category == "health" then Muscle
    else if category == "productivity" then Lightning
    else if category == "mindfulness" then Meditation
    else if category == "learning" then Books
    else Flag
  }

  datatype DisplayHabit = DisplayHabit(
    id: string, title: string, description: string, category: string,
    streak: int, target: int, completed: bool, icon: Icon)

  /** The display mapping of one habit. */
  function ToDisplay(h: HabitData): (d: DisplayHabit)
    ensures d.completed <==> h.currentStreak >= h.targetCount
    ensures d.title == h.name && d.description == h.description && d.category == h.category
    ensures d.streak == h.currentStreak && d.target == h.targetCount
    ensures d.id == NatToString(h.id) && DigitsValue(d.id) == h.id
    ensures d.icon == IconFor(h.category)
  {
    DisplayHabit(NatToString(h.id), h.name, h.description, h.category,
                 h.currentStreak, h.targetCount, h.currentStreak >= h.targetCount, IconFor(h.category))
  }

  function ToDisplayAll(hs: seq<HabitData>): (ds: seq<DisplayHabit>)
    ensures |ds| == |hs|
    ensures forall i :: 0 <= i < |hs| ==> ds[i] == ToDisplay(hs[i])
  {
    if hs == [] then [] else [ToDisplay(hs[0])] + ToDisplayAll(hs[1..])
  }

  /** filteredHabits: every habit for 'all', otherwise those of the selected category. */
  function Filtered(habits: seq<DisplayHabit>, selected: string): (r: seq<DisplayHabit>)
    ensures selected == "all" ==> r == habits
    ensures selected != "all" ==> forall i :: 0 <= i < |r| ==> r[i].category == selected
  {
    if selected == "all" then habits
    else if habits == [] then []
    else if habits[0].category == selected then [habits[0]] + Filtered(habits[1..], selected)
    else Filtered(habits[1..], selected)
  }

  /** The filter keeps the order of the habits it keeps. */
  lemma {:induction false} FilteredDistributes(a: seq<DisplayHabit>, b: seq<DisplayHabit>, selected: string)
    ensures Filtered(a + b, selected) == Filtered(a, selected) + Filtered(b, selected)
  {
    if selected != "all" && a != [] {
      var ab := a + b;
      assert ab[0] == a[0] && ab[1..] == a[1..] + b;
      FilteredDistributes(a[1..], b, selected);
      var head := if a[0].category == selected then [a[0]] else [];
      assert Filtered(ab, selected) == head + Filtered(a[1..] + b, selected);
      assert Filtered(a, selected) == head + Filtered(a[1..], selected);
      assert head + (Filtered(a[1..], selected) + Filtered(b, selected))
          == (head + Filtered(a[1..], selected)) + Filtered(b, selected);
    } else if selected != "all" {
      assert a + b == b;
    }
  }

  /** Any category other than 'all' keeps exactly the habits of that category, and the filter adds none. */
  lemma {:induction false} FilteredKeepsExactly(habits: seq<DisplayHabit>, selected: string)
    ensures forall h :: h in Filtered(habits, selected) ==> h in habits
    ensures selected != "all" ==>
      forall h :: h in habits ==> (h in Filtered(habits, selected) <==> h.category == selected)
  {
    if selected != "all" && habits != [] {
      FilteredKeepsExactly(habits[1..], selected);
      assert habits == [habits[0]] + habits[1..];
    }
  }

  /** The milestone badge: a streak that is a positive multiple of three. */
  predicate Milestone(streak: int)
  {
    streak >= 3 && streak % 3 == 0
  }

  lemma MilestoneIsMultipleOfThree(streak: int)
    ensures Milestone(streak) <==> exists k: nat :: k >= 1 && streak == 3 * k
  {
    if Milestone(streak) {
      var k: nat := streak / 3;
      assert streak == 3 * k;
    }
  }

  /** "n days to go": the target minus the streak, negative once the target is passed. */
  function DaysToGo(h: DisplayHabit): (n: int)
    ensures n <= 0 <==> h.streak >= h.target
    ensures n + h.streak == h.target
  {
    h.target - h.streak
  }

  class HabitsView {
    var habits: seq<DisplayHabit>
    var loading: bool
    var selectedCategory: string

    constructor()
      ensures habits == [] && loading && selectedCategory == "all"
    {
      habits := [];
      loading := true;
      selectedCategory := "all";
    }

    /** fetchHabits: the mapped habits, or none when the fetch throws; loading ends either way. */
    method FetchHabits(fetched: Outcome<seq<HabitData>>)
      modifies this
      ensures fetched.Returned? ==> habits == ToDisplayAll(fetched.value)
      ensures fetched.Threw? ==> habits == []
      ensures !loading && selectedCategory == old(selectedCategory)
    {
      loading := true;
      if fetched.Returned? {
        habits := ToDisplayAll(fetched.value);
      } else {
        habits := [];
      }
      loading := false;
    }

    method SelectCategory(c: string)
      modifies this
      ensures selectedCategory == c && habits == old(habits) && loading == old(loading)
    {
      selectedCategory := c;
    }
  }
}

=== FILE: habits_section.dfy ===
// The dashboard's habit tracker: a stored list of habits that grows by one
// habit per add and records at most one completion per habit and day.

module HabitsSection {
  import opened Common

  datatype HabitCategory = Health | Productivity | Mindfulness | Learning
  datatype Frequency = Daily | Weekly | Monthly

  datatype Habit = Habit(
    id: string,
    name: string,
    category: HabitCategory,
    frequency: Frequency,
    currentStreak: nat,
    bestStreak: nat,
    completedDates: seq<string>)

  /** isCompletedToday */
  predicate CompletedOn(h: Habit, day: string)
  {
    day in h.completedDates
  }

  /** The habit after one completion today: unchanged if already done today. */
  function CompleteOnce(h: Habit, today: string): (r: Habit)
    ensures CompletedOn(r, today)
    ensures CompletedOn(h, today) ==> r == h
    ensures !CompletedOn(h, today) ==>
      && r.completedDates == h.completedDates + [today]
      && r.currentStreak == h.currentStreak + 1
      && r.bestStreak >= r.currentStreak && r.bestStreak >= h.bestStreak
      && (r.bestStreak == r.currentStreak || r.bestStreak == h.bestStreak)
    ensures r.id == h.id && r.name == h.name && r.category == h.category && r.frequency == h.frequency
  {
    if CompletedOn(h, today) then h
    else
      var streak := h.currentStreak + 1;
      h.(completedDates := h.completedDates + [today], currentStreak := streak, bestStreak := Max(h.bestStreak, streak))
  }

  /** markComplete's map: the habits with that id are completed today, the others are untouched. */
  function MarkedComplete(habits: seq<Habit>, id: string, today: string): (r: seq<Habit>)
    ensures |r| == |habits|
    ensures forall i :: 0 <= i < |habits| && habits[i].id != id ==> r[i] == habits[i]
    ensures forall i :: 0 <= i < |habits| && habits[i].id == id ==> r[i] == CompleteOnce(habits[i], today)
  {
    seq(|habits|, i requires 0 <= i < |habits| => if habits[i].id == id then CompleteOnce(habits[i], today) else habits[i])
  }

  /** Marking a habit complete a second time on the same day changes nothing. */
  lemma MarkCompleteIdempotent(habits: seq<Habit>, id: string, today: string)
    ensures MarkedComplete(MarkedComplete(habits, id, today), id, today) == MarkedComplete(habits, id, today)
  {
    var once := MarkedComplete(habits, id, today);
    var twice := MarkedComplete(once, id, today);
    forall i | 0 <= i < |habits|
      ensures twice[i] == once[i]
    {
      if habits[i].id == id {
        assert CompletedOn(once[i], today);
      }
    }
  }

  /** Every habit's best streak is at least its current streak. */
  predicate StreaksConsistent(habits: seq<Habit>)
  {
    forall i :: 0 <= i < |habits| ==> habits[i].bestStreak >= habits[i].currentStreak
  }

  /** Completion keeps the best streak at or above the current one, and leaves every matching habit completed today. */
  lemma MarkCompleteKeepsStreaks(habits: seq<Habit>, id: string, today: string)
    requires StreaksConsistent(habits)
    ensures StreaksConsistent(MarkedComplete(habits, id, today))
    ensures forall i :: 0 <= i < |habits| && habits[i].id == id ==> CompletedOn(MarkedComplete(habits, id, today)[i], today)
  {
  }

  /** A fresh habit as addHabit builds it. */
  function NewHabit(id: string, name: string): (h: Habit)
    ensures h.currentStreak == 0 && h.bestStreak == 0 && h.completedDates == []
    ensures h.frequency == Daily && h.category == Productivity
    ensures h.id == id && h.name == name
  {
    Habit(id, name, Productivity, Daily, 0, 0, [])
  }

  class HabitsStore {
    var habits: seq<Habit>
    var newHabit: string
    var showForm: bool

    predicate Valid()
      reads this
    {
      StreaksConsistent(habits)
    }

    constructor(stored: seq<Habit>)
      requires StreaksConsistent(stored)
      ensures Valid()
      ensures habits == stored && newHabit == "" && !showForm
    {
      habits := stored;
      newHabit := "";
      showForm := false;
    }

    /** Typing into the habit input replaces its text and nothing else. */
    method Type(s: string)
      modifies this
      ensures newHabit == s && habits == old(habits) && showForm == old(showForm)
    {
      newHabit := s;
    }

    /** A click on a recommended habit puts its name in the input and opens the form. */
    method PickRecommended(name: string)
      modifies this
      ensures newHabit == name && showForm && habits == old(habits)
    {
      newHabit := name;
      showForm := true;
    }

    /** addHabit: a blank name changes nothing; otherwise one fresh habit goes at the end and the form is reset. */
    method AddHabit(now: nat)
      requires Valid()
      modifies this
      ensures Valid()
      ensures IsBlank(old(newHabit)) ==>
        habits == old(habits) && newHabit == old(newHabit) && showForm == old(showForm)
      ensures !IsBlank(old(newHabit)) ==>
        habits == old(habits) + [NewHabit(NatToString(now), old(newHabit))] && newHabit == "" && !showForm
    {
      if IsBlank(newHabit) {
        return;
      }
      habits := habits + [NewHabit(NatToString(now), newHabit)];
      newHabit := "";
      showForm := false;
    }

    /** markComplete(id) on the given day. */
    method MarkComplete(id: string, today: string)
      requires Valid()
      modifies this
      ensures Valid()
      ensures habits == MarkedComplete(old(habits), id, today)
      ensures newHabit == old(newHabit) && showForm == old(showForm)
    {
      MarkCompleteKeepsStreaks(habits, id, today);
      habits := MarkedComplete(habits, id, today);
    }
  }
}

=== FILE: insights.dfy ===
// The insights section: aggregates over the stored goals and habits.

module Insights {
  import opened Common
  import HabitsSection

  datatype SubTask = SubTask(title: string, completed: bool)

  /** A stored goal, as far as progress goes: its plan's subtasks, when it has a plan. */
  datatype PlannedGoal = PlannedGoal(id: string, subtasks: Option<seq<SubTask>>)

  /** The number of completed subtasks: none exactly when no subtask is completed, all exactly when every one is. */
  function CountCompleted(ts: seq<SubTask>): (n: nat)
    ensures n <= |ts|
    ensures n == 0 <==> forall i :: 0 <= i < |ts| ==> !ts[i].completed
    ensures n == |ts| <==> forall i :: 0 <= i < |ts| ==> ts[i].completed
  {
    if ts == [] then 0 else (if ts[0].completed then 1 else 0) + CountCompleted(ts[1..])
  }

  lemma RatioAtMostOne(a: real, b: real)
    requires 0.0 <= a <= b && 0.0 < b
    ensures 0.0 <= a / b <= 1.0
  {
    assert (a / b) * b == a;
  }

  /** A sum of at most `n` percentages, divided by `n`, is a percentage. */
  lemma MeanAtMostHundred(sum: real, n: real)
    requires 0.0 < n && 0.0 <= sum <= 100.0 * n
    ensures 0.0 <= sum / n <= 100.0
  {
    assert (sum / n) * n == sum;
  }

  /** A goal's share of completed subtasks, in percent; 0 without subtasks. */
  function GoalProgress(g: PlannedGoal): (p: real)
    ensures 0.0 <= p <= 100.0
    ensures g.subtasks.None? || g.subtasks.value == [] ==> p == 0.0
  {
    if g.subtasks.Some? && |g.subtasks.value| > 0 then
      var done := CountCompleted(g.subtasks.value) as real;
      var total := |g.subtasks.value| as real;
      RatioAtMostOne(done, total);
      done / total * 100.0
    else 0.0
  }

  function ProgressSum(goals: seq<PlannedGoal>): (s: real)
    ensures 0.0 <= s <= 100.0 * |goals| as real
  {
    if goals == [] then 0.0 else GoalProgress(goals[0]) + ProgressSum(goals[1..])
  }

  /** Math.round: the nearest integer, halves rounding up. */
  function Round(x: real): int
  {
    (x + 0.5).Floor
  }

  /** avgGoalProgress: the rounded mean of the goals' progress, 0 without goals; goals without subtasks still count. */
  function AverageProgress(goals: seq<PlannedGoal>): (avg: int)
    ensures 0 <= avg <= 100
    ensures goals == [] ==> avg == 0
  {
    if goals == [] then 0
    else
      var n := |goals| as real;
      MeanAtMostHundred(ProgressSum(goals), n);
      Round(ProgressSum(goals) / n)
  }

  /** A goal without a plan adds nothing to the sum, while it still counts in the mean's denominator. */
  lemma {:induction false} EmptyGoalsAddNothing(goals: seq<PlannedGoal>, g: PlannedGoal)
    requires g.subtasks.None?
    ensures ProgressSum(goals + [g]) == ProgressSum(goals)
  {
    if goals == [] {
      assert goals + [g] == [g];
    } else {
      assert (goals + [g])[0] == goals[0];
      assert (goals + [g])[1..] == goals[1..] + [g];
      EmptyGoalsAddNothing(goals[1..], g);
    }
  }

  // ---------------------------------------------------------------------------
  // Habit figures
  // ---------------------------------------------------------------------------

  /** The habits the section reads are the ones the habit tracker stores. */
  type Habit = HabitsSection.Habit

  /**
   * `habit.streak`: the stored habit record carries currentStreak and
   * bestStreak but no `streak`, so the read gives undefined (None).
   */
  function StreakField(h: Habit): (r: Option<int>)
    ensures r.None?
  {
    None
  }

  /** A number the page shows: a whole number or NaN. */
  datatype Figure = Number(n: int) | NotANumber

  /** completedHabits as written: the habits whose `streak` read is above 0 (`undefined > 0` is false). */
  function CompletedHabits(habits: seq<Habit>): (n: nat)
    ensures n <= |habits|
    ensures n == 0
  {
    if habits == [] then 0
    else
      var positive := match StreakField(habits[0]) case Some(v) => v > 0 case None => false;
      (if positive then 1 else 0) + CompletedHabits(habits[1..])
  }

  /** Math.max over some field reads: NaN as soon as one read is undefined, otherwise the largest. */
  function MaxOfReads(fields: seq<Option<int>>): (m: Figure)
    requires fields != []
    ensures m.NotANumber? <==> exists i :: 0 <= i < |fields| && fields[i].None?
    ensures m.Number? ==> forall i :: 0 <= i < |fields| ==> fields[i].Some? && fields[i].value <= m.n
    ensures m.Number? ==> exists i :: 0 <= i < |fields| && fields[i] == Some(m.n)
  {
    if fields[0].None? then NotANumber
    else if |fields| == 1 then Number(fields[0].value)
    else
      var rest := MaxOfReads(fields[1..]);
      if rest.NotANumber? then
        assert exists i :: 1 <= i < |fields| && fields[i].None?;
        NotANumber
      else if fields[0].value >= rest.n then
        Number(fields[0].value)
      else
        rest
  }

  /** longestStreak as written: 0 without habits, otherwise Math.max of the `streak` reads, which is NaN. */
  function LongestStreak(habits: seq<Habit>): (m: Figure)
    ensures habits == [] ==> m == Number(0)
    ensures habits != [] ==> m == NotANumber
  {
    if habits == [] then Number(0)
    else
      var fields := seq(|habits|, i requires 0 <= i < |habits| => StreakField(habits[i]));
      assert fields[0].None?;
      MaxOfReads(fields)
  }

  /** completedHabits as evidently intended: the habits whose current streak is positive. */
  function CompletedHabitsChecked(habits: seq<Habit>): (n: nat)
    ensures n <= |habits|
    ensures n == 0 <==> forall i :: 0 <= i < |habits| ==> habits[i].currentStreak == 0
  {
    if habits == [] then 0
    else (if habits[0].currentStreak > 0 then 1 else 0) + CompletedHabitsChecked(habits[1..])
  }

  /** longestStreak as evidently intended: 0 without habits, otherwise the largest current streak. */
  function LongestStreakChecked(habits: seq<Habit>): (m: nat)
    ensures habits == [] ==> m == 0
    ensures forall i :: 0 <= i < |habits| ==> habits[i].currentStreak <= m
    ensures habits != [] ==> exists i :: 0 <= i < |habits| && habits[i].currentStreak == m
  {
    if habits == [] then 0
    else if |habits| == 1 then habits[0].currentStreak
    else
      var rest := LongestStreakChecked(habits[1..]);
      if habits[0].currentStreak >= rest then habits[0].currentStreak else rest
  }

  /**
   * With one habit on a streak, the section as written shows no completed
   * habit and NaN as the longest streak, where the intended figures are a
   * positive count and a positive streak.
   */
  lemma HabitFiguresAsWritten(habits: seq<Habit>, k: nat)
    requires k < |habits| && habits[k].currentStreak > 0
    ensures CompletedHabits(habits) == 0 < CompletedHabitsChecked(habits)
    ensures LongestStreak(habits) == NotANumber
    ensures LongestStreakChecked(habits) >= habits[k].currentStreak > 0
  {
  }
}

=== FILE: lifegoal_service.dfy ===
// LifeGoalService: classification of the life-goal and AI-plan replies, where
// a 403 means "nothing stored yet" rather than an error, and the
// authenticated goal delete.

module LifeGoalService {
  import opened Common
  import opened Http
  import opened ClientModels

  /** `${userId}` in a URL: a missing id prints as "null". */
  function UrlId(userId: Option<string>): string
  {
    if userId.Some? then userId.value else "null"
  }

  /** The record returned when a user has no life goals yet. */
  function EmptyLifeGoals(userId: Option<string>, now: string): (g: LifeGoalsData)
    ensures g.id == "" && g.shortTerm == [] && g.longTerm == [] && g.priorities == [] && g.timeframe == ""
  {
    LifeGoalsData("", if userId.Some? then userId.value else "", [], [], [], "", now, now)
  }

  /** The server's way of saying that no life-goal record exists, matched case-insensitively. */
  predicate SaysNoLifeGoalData(message: Option<string>)
  {
    message.Some? && message.value != "" && Contains(Lower(message.value), "cannot get life goal data")
  }

  /**
   * getLifeGoalsByUserId. The reply's `data` is `None` when it is falsy.
   * `now` is the timestamp the empty record carries.
   */
  function GetLifeGoals(userId: Option<string>, now: string, transport: Transport<Option<LifeGoalsData>>)
    : (c: Call<(), LifeGoalsData>)
    ensures c.sent == Some(Request(GET, "/api/v1/lifegoals/users/" + UrlId(userId), None))
    // a 403 saying "cannot get life goal data" is the empty record
    ensures transport.Received? && !IsOk(transport.reply) && transport.reply.status == 403
            && transport.reply.body.JsonBody? && SaysNoLifeGoalData(transport.reply.body.message)
            ==> c.outcome == Returned(EmptyLifeGoals(userId, now))
    // every other failure status, or an error body that is not JSON, throws
    ensures transport.Received? && !IsOk(transport.reply)
            && !(transport.reply.status == 403 && transport.reply.body.JsonBody?
                 && SaysNoLifeGoalData(transport.reply.body.message))
            ==> c.outcome.Threw?
    // a 2xx that is not JSON throws
    ensures transport.Received? && IsOk(transport.reply) && !transport.reply.jsonContentType ==> c.outcome.Threw?
    // a 2xx JSON reply yields its data, or the empty record when there is none
    ensures transport.Received? && IsOk(transport.reply) && transport.reply.jsonContentType
            && transport.reply.body.JsonBody?
            ==> c.outcome == Returned(if transport.reply.body.data.Some? then transport.reply.body.data.value
                                      else EmptyLifeGoals(userId, now))
    ensures transport.NetworkFailure? ==> c.outcome.Threw?
  {
    var req := Some(Request(GET, "/api/v1/lifegoals/users/" + UrlId(userId), None));
    match transport
    case NetworkFailure(reason) => Call(req, Threw(reason))
    case Received(reply) =>
      if !IsOk(reply) then
        if reply.status == 403 && reply.body.JsonBody? && SaysNoLifeGoalData(reply.body.message) then
          Call(req, Returned(EmptyLifeGoals(userId, now)))
        else
          Call(req, Threw("API Error " + reply.statusText))
      else if !reply.jsonContentType then
        Call(req, Threw("Expected JSON"))
      else
        match reply.body
        case NotJson => Call(req, Threw(NotJsonError))
        case JsonBody(_, data) =>
          if data.None? then Call(req, Returned(EmptyLifeGoals(userId, now)))
          else Call(req, Returned(data.value))
  }

  // ---------------------------------------------------------------------------
  // getAiPlan
  // ---------------------------------------------------------------------------

  /** A JSON value as far as String() is concerned. */
  datatype JsonValue = JNull | JUndefined | JString(s: string) | JOther(text: string)

  /** String(v). */
  function Stringify(v: JsonValue): string
  {
    match v
    case JNull => "null"
    case JUndefined => "undefined"
    case JString(s) => s
    case JOther(text) => text
  }

  datatype AiPlanItem = AiPlanItem(generatedPlan: JsonValue, id: JsonValue)

  /** `result.data` of the plan reply: falsy, present but not an array, or an array. */
  datatype PlanData = NoData | NotAnArray | Items(items: seq<AiPlanItem>)

  /** What getAiPlan resolves to. */
  datatype AiPlan = AiPlan(generatedPlan: Option<string>, id: Option<string>)

  function GetAiPlan(userId: Option<string>, transport: Transport<PlanData>): (c: Call<(), AiPlan>)
    ensures c.sent == Some(Request(GET, "/api/v1/ai_gen/ai_gen/" + UrlId(userId), None))
  {
    var req := Some(Request(GET, "/api/v1/ai_gen/ai_gen/" + UrlId(userId), None));
    match transport
    case NetworkFailure(reason) => Call(req, Threw(reason))
    case Received(reply) =>
      if reply.status == 403 then Call(req, Returned(AiPlan(None, None)))
      else if !IsOk(reply) then Call(req, Threw("API Error " + reply.statusText))
      else if !reply.jsonContentType then Call(req, Threw("Expected JSON"))
      else
        match reply.body
        case NotJson => Call(req, Threw(NotJsonError))
        case JsonBody(_, data) =>
          if !data.Items? || |data.items| == 0 then Call(req, Threw("No AI plan array received from API"))
          else
            var plan := Stringify(data.items[0].generatedPlan);
            if plan == "" then Call(req, Threw("No generated_plan string found in API response"))
            else Call(req, Returned(AiPlan(Some(plan), Some(Stringify(data.items[0].id)))))
  }

  /**
   * getAiPlan resolves to {null, null} exactly on a 403; any other resolved
   * plan is the stringified first element, with a non-empty plan text.
   */
  lemma AiPlanClassification(userId: Option<string>, transport: Transport<PlanData>)
    ensures var c := GetAiPlan(userId, transport);
      && (c.outcome == Returned(AiPlan(None, None)) <==> transport.Received? && transport.reply.status == 403)
      && (c.outcome.Returned? && c.outcome.value.generatedPlan.Some? ==>
            && transport.Received? && IsOk(transport.reply) && transport.reply.jsonContentType
            && transport.reply.body.JsonBody? && transport.reply.body.data.Items?
            && |transport.reply.body.data.items| > 0
            && c.outcome.value.generatedPlan.value == Stringify(transport.reply.body.data.items[0].generatedPlan)
            && c.outcome.value.generatedPlan.value != ""
            && c.outcome.value.id == Some(Stringify(transport.reply.body.data.items[0].id)))
      && (c.outcome.Returned? ==> (c.outcome.value.generatedPlan.None? <==> c.outcome.value.id.None?))
  {
  }

  /** Any other failure status, and missing, non-array or empty data, throw. */
  lemma AiPlanFailures(userId: Option<string>, transport: Transport<PlanData>)
    requires transport.Received?
    requires var r := transport.reply;
      r.status != 403
      && (!IsOk(r) || !r.jsonContentType || r.body.NotJson?
          || (r.body.JsonBody? && (!r.body.data.Items? || |r.body.data.items| == 0)))
    ensures GetAiPlan(userId, transport).outcome.Threw?
  {
  }

  /** Stringifying null or a missing plan gives a non-empty text, so such a plan is returned as "null" / "undefined". */
  lemma NullPlanIsNotRejected(userId: Option<string>, item: AiPlanItem)
    requires item.generatedPlan == JNull || item.generatedPlan == JUndefined
    ensures var c := GetAiPlan(userId, Received(Reply(200, "OK", true, JsonBody(None, Items([item])))));
      c.outcome.Returned? && c.outcome.value.generatedPlan.Some? && c.outcome.value.generatedPlan.value in {"null", "undefined"}
  {
  }

  // ---------------------------------------------------------------------------
  // deleteGoal
  // ---------------------------------------------------------------------------

  datatype GoalType = ShortTermGoal | LongTermGoal
  datatype DeleteGoalBody = DeleteGoalBody(goalId: string, goalType: GoalType)

  /** deleteGoal(goalId, type): refuses without a user; otherwise DELETE lifegoals/users/{userId}/goal and throws unless 2xx. */
  function DeleteGoal(userId: Option<string>, goalId: string, goalType: GoalType, transport: Transport<()>)
    : (c: Call<DeleteGoalBody, ()>)
    ensures !Authenticated(userId) ==> c.sent.None? && c.outcome.Threw?
    ensures Authenticated(userId) ==>
      c.sent == Some(Request(DELETE, "/api/v1/lifegoals/users/" + userId.value + "/goal", Some(DeleteGoalBody(goalId, goalType))))
    ensures c.outcome.Returned? <==> Authenticated(userId) && transport.Received? && IsOk(transport.reply)
  {
    if !Authenticated(userId) then Call(None, Threw("User not authenticated."))
    else
      var req := Some(Request(DELETE, "/api/v1/lifegoals/users/" + userId.value + "/goal", Some(DeleteGoalBody(goalId, goalType))));
      match transport
      case NetworkFailure(reason) => Call(req, Threw(reason))
      case Received(reply) =>
        if IsOk(reply) then Call(req, Returned(())) else Call(req, Threw("Failed to delete goal"))
  }
}

=== FILE: schedule_section.dfy ===
// The dashboard's schedule: a stored task list with add and toggle, the
// planner mode, and the hourly time blocks of a working day.

module ScheduleSection {
  import opened Common

  datatype Priority = Low | Medium | High

  datatype Task = Task(id: string, title: string, completed: bool, estimatedMinutes: nat, category: string, priority: Priority)

  /** A fresh task as addTask builds it. */
  function NewTask(id: string, title: string): (t: Task)
    ensures !t.completed && t.estimatedMinutes == 30 && t.priority == Medium && t.category == "work"
    ensures t.id == id && t.title == title
  {
    Task(id, title, false, 30, "work", Medium)
  }

  /** toggleTask's map: every task with that id flips `completed`, every other task is untouched. */
  function Toggled(tasks: seq<Task>, id: string): (r: seq<Task>)
    ensures |r| == |tasks|
    ensures forall i :: 0 <= i < |tasks| && tasks[i].id != id ==> r[i] == tasks[i]
    ensures forall i :: 0 <= i < |tasks| && tasks[i].id == id ==>
      r[i] == tasks[i].(completed := !tasks[i].completed)
  {
    seq(|tasks|, i requires 0 <= i < |tasks| => if tasks[i].id == id then tasks[i].(completed := !tasks[i].completed) else tasks[i])
  }

  /** Toggling the same id twice restores the list. */
  lemma ToggleInvolution(tasks: seq<Task>, id: string)
    ensures Toggled(Toggled(tasks, id), id) == tasks
  {
    var twice := Toggled(Toggled(tasks, id), id);
    forall i | 0 <= i < |tasks|
      ensures twice[i] == tasks[i]
    {
    }
  }

  /** `tasks.filter(t => t.completed).length` */
  function CompletedCount(tasks: seq<Task>): nat
  {
    if tasks == [] then 0 else (if tasks[0].completed then 1 else 0) + CompletedCount(tasks[1..])
  }

  /** `tasks.filter(t => !t.completed).length` */
  function PendingCount(tasks: seq<Task>): nat
  {
    if tasks == [] then 0 else (if tasks[0].completed then 0 else 1) + PendingCount(tasks[1..])
  }

  /** The "n pending, m completed" line always adds up to the number of tasks. */
  lemma {:induction false} PendingPlusCompleted(tasks: seq<Task>)
    ensures PendingCount(tasks) + CompletedCount(tasks) == |tasks|
  {
    if tasks != [] {
      PendingPlusCompleted(tasks[1..]);
    }
  }

  datatype ModeType = Speed | Sustainable
  datatype Preferences = Preferences(workBlockDuration: nat, breakDuration: nat, deepWorkHours: seq<nat>, maxTasksPerDay: nat)
  datatype PlannerMode = PlannerMode(modeType: ModeType, preferences: Preferences)

  const DefaultPlannerMode := PlannerMode(Sustainable, Preferences(50, 10, [9, 10, 11], 6))

  datatype BlockKind = DeepWork | RegularTasks
  datatype TimeBlock = TimeBlock(time: string, kind: BlockKind)

  /** The label of the block starting at `hour`. */
  function BlockLabel(hour: nat): string
  {
    NatToString(hour) + ":00 - " + NatToString(hour + 1) + ":00"
  }

  /** The block for `hour`: labelled "h:00 - h+1:00", deep work exactly when `hour` is a deep-work hour. */
  predicate IsBlock(b: TimeBlock, hour: nat, deepWorkHours: seq<nat>)
  {
    b.time == BlockLabel(hour) && (b.kind == DeepWork <==> hour in deepWorkHours)
  }

  class Schedule {
    var tasks: seq<Task>
    var mode: PlannerMode
    var newTask: string
    var showTaskForm: bool

    constructor(storedTasks: seq<Task>, storedMode: Option<PlannerMode>)
      ensures tasks == storedTasks && newTask == "" && !showTaskForm
      ensures mode == if storedMode.Some? then storedMode.value else DefaultPlannerMode
    {
      tasks := storedTasks;
      mode := if storedMode.Some? then storedMode.value else DefaultPlannerMode;
      newTask := "";
      showTaskForm := false;
    }

    /** Typing into the new-task title input replaces its text and nothing else. */
    method Type(s: string)
      modifies this
      ensures newTask == s && tasks == old(tasks) && mode == old(mode) && showTaskForm == old(showTaskForm)
    {
      newTask := s;
    }

    /** addTask: a blank title changes nothing; otherwise one fresh task goes at the end and the form is reset. */
    method AddTask(now: nat)
      modifies this
      ensures IsBlank(old(newTask)) ==>
        tasks == old(tasks) && newTask == old(newTask) && showTaskForm == old(showTaskForm)
      ensures !IsBlank(old(newTask)) ==>
        tasks == old(tasks) + [NewTask(NatToString(now), old(newTask))] && newTask == "" && !showTaskForm
      ensures mode == old(mode)
    {
      if IsBlank(newTask) {
        return;
      }
      tasks := tasks + [NewTask(NatToString(now), newTask)];
      newTask := "";
      showTaskForm := false;
    }

    /** toggleTask(id) */
    method ToggleTask(id: string)
      modifies this
      ensures tasks == Toggled(old(tasks), id)
      ensures mode == old(mode) && newTask == old(newTask) && showTaskForm == old(showTaskForm)
    {
      tasks := Toggled(tasks, id);
    }

    /** The Speed / Sustainable buttons: only the mode type changes. */
    method SetModeType(t: ModeType)
      modifies this
      ensures mode == PlannerMode(t, old(mode).preferences)
      ensures tasks == old(tasks) && newTask == old(newTask) && showTaskForm == old(showTaskForm)
    {
      mode := mode.(modeType := t);
    }

    /**
     * generateTimeBlocks: one block per hour from 9 to 16, in order, labelled
     * "h:00 - h+1:00", deep work exactly for the preferred deep-work hours.
     */
    method GenerateTimeBlocks() returns (blocks: seq<TimeBlock>)
      ensures |blocks| == 8
      ensures forall i :: 0 <= i < 8 ==> IsBlock(blocks[i], 9 + i, mode.preferences.deepWorkHours)
    {
      blocks := [];
      var hour := 9;
      while hour < 17
        invariant 9 <= hour <= 17
        invariant |blocks| == hour - 9
        invariant forall i :: 0 <= i < |blocks| ==> IsBlock(blocks[i], 9 + i, mode.preferences.deepWorkHours)
      {
        var deep := hour in mode.preferences.deepWorkHours;
        var block := TimeBlock(BlockLabel(hour), if deep then DeepWork else RegularTasks);
        assert IsBlock(block, hour, mode.preferences.deepWorkHours);
        blocks := blocks + [block];
        hour := hour + 1;
      }
    }
  }
}

=== FILE: server_ai_gen.dfy ===
// The generation service: a plan generated from the user's stored prompt,
// the assistant chat (store the user's message, read the history, generate
// a reply, store it), and the delete of a generated plan together with the
// prompt and the four records it was built from. The language model is a
// parameter that may fail.

module AiGenService {
  import opened Common
  import opened Store

  /**
   * What GenerateLifeGoal ends in: a text and no error, an error, or a
   * panic (indexing the first prompt of a user who has none), which the
   * server's recover middleware turns into status 500.
   */
  datatype Generated = Generated(text: string) | Failed(error: Error) | Panicked

  /** The language model: the reply to a prompt, or None when the call fails. */
  type Model = string -> Option<string>

  /** The repository's generation: an empty prompt is refused before the model is asked. */
  function Generate(model: Model, prompt: string): (r: Result<string>)
    ensures prompt == "" ==> r == Err(EmptyPrompt)
    ensures prompt != "" && model(prompt).None? ==> r == Err(QueryFailed(Op.Generate))
    ensures r.Ok? <==> prompt != "" && model(prompt).Some?
    ensures r.Ok? ==> r.value == model(prompt).value
  {
    if prompt == "" then Err(EmptyPrompt)
    else if model(prompt).None? then Err(QueryFailed(Op.Generate))
    else Ok(model(prompt).value)
  }

  /** The plan row stored for a generated text: linked to the prompt and to the prompt's four records. */
  function NewPlan(newId: string, id: string, prompt: Row<Prompt>, text: string, now: Instant): (r: Row<Plan>)
    ensures r.id == newId && r.userId == id && r.data.generatedPlan == text && r.data.createdAt == now
    ensures r.data.promptId == prompt.id && r.data.lifeGoalId == prompt.data.lifeGoalId
    ensures r.data.financeId == prompt.data.financeId && r.data.healthId == prompt.data.healthId
    ensures r.data.scheduleId == prompt.data.scheduleId
  {
    Row(newId, id, Plan(text, prompt.id, prompt.data.lifeGoalId, prompt.data.financeId,
                        prompt.data.healthId, prompt.data.scheduleId, now))
  }

  /**
   * GenerateLifeGoal. A failing prompt query gives an empty text and no
   * error; a user without prompts panics; the first of the user's prompts
   * is sent to the model; a generation error is returned; a failing plan
   * insert is ignored and the text still returned.
   */
  method GenerateLifeGoal(db: Database, faults: set<Op>, now: Instant, newId: string, id: string, model: Model)
    returns (g: Generated)
    modifies db
    ensures FindPrompt in faults ==> g == Generated("") && db.tables == old(db.tables)
    ensures FindPrompt !in faults && OwnedBy(old(db.tables).prompts, id) == [] ==>
      g == Panicked && db.tables == old(db.tables)
    ensures FindPrompt !in faults && OwnedBy(old(db.tables).prompts, id) != [] ==>
      var prompt := OwnedBy(old(db.tables).prompts, id)[0];
      var reply := Generate(model, prompt.data.text);
      && (reply.Err? ==> g == Failed(reply.error) && db.tables == old(db.tables))
      && (reply.Ok? ==> g == Generated(reply.value))
      && (reply.Ok? && InsertPlan in faults ==> db.tables == old(db.tables))
      && (reply.Ok? && InsertPlan !in faults ==>
            db.tables == old(db.tables).(plans := old(db.tables).plans + [NewPlan(newId, id, prompt, reply.value, now)]))
  {
    if FindPrompt in faults {
      return Generated("");
    }
    var owned := OwnedBy(db.tables.prompts, id);
    if owned == [] {
      return Panicked;
    }
    var prompt := owned[0];
    var reply := Generate(model, prompt.data.text);
    if reply.Err? {
      return Failed(reply.error);
    }
    var plan := NewPlan(newId, id, prompt, reply.value, now);
    if InsertPlan !in faults {
      db.tables := db.tables.(plans := db.tables.plans + [plan]);
    }
    return Generated(reply.value);
  }

  /** A chat message body; its user id, sender and time are replaced by the service. */
  datatype ChatBody = ChatBody(userId: string, sender: string, message: string, createdAt: Instant)

  /** The chat model: a reply to a message given the history, or None when the call fails. */
  type ChatModel = (seq<Row<Chat>>, string) -> Option<string>

  /** The repository's chat generation: an empty message is refused before the model is asked. */
  function ChatReply(model: ChatModel, history: seq<Row<Chat>>, message: string): (r: Result<string>)
    ensures r.Ok? <==> message != "" && model(history, message).Some?
    ensures message == "" ==> r == Err(EmptyPrompt)
    ensures r.Ok? ==> r.value == model(history, message).value
  {
    if message == "" then Err(EmptyPrompt)
    else if model(history, message).None? then Err(QueryFailed(Op.Generate))
    else Ok(model(history, message).value)
  }

  /** The history the reply is generated from: the user's earlier messages and the one just stored. */
  function HistoryWith(chats: seq<Row<Chat>>, id: string, sent: Row<Chat>): seq<Row<Chat>>
  {
    OwnedBy(chats, id) + [sent]
  }

  /**
   * GenereateAiAssist: the message is stored as the user's with sender
   * "user" whatever the body says, then the user's history is read, a reply
   * generated from it and stored with sender "ai". The first failure ends
   * the request; what was stored before it stays.
   */
  method GenereateAiAssist(db: Database, faults: set<Op>, now: Instant, sentId: string, replyId: string,
                           id: string, body: ChatBody, model: ChatModel)
    returns (r: Result<string>)
    modifies db
    ensures var sent := Row(sentId, id, Chat(body.message, "user", now));
      var reply := ChatReply(model, HistoryWith(old(db.tables).chats, id, sent), body.message);
      && (InsertChat("user") in faults ==> r == Err(QueryFailed(InsertChat("user"))) && db.tables == old(db.tables))
      && (r.Ok? <==> InsertChat("user") !in faults && FindChats !in faults && reply.Ok? && InsertChat("ai") !in faults)
      && (r.Ok? ==>
            && r.value == reply.value
            && db.tables == old(db.tables).(chats := old(db.tables).chats + [sent, Row(replyId, id, Chat(reply.value, "ai", now))]))
      && (InsertChat("user") !in faults && r.Err? ==> db.tables == old(db.tables).(chats := old(db.tables).chats + [sent]))
  {
    var sent := Row(sentId, id, Chat(body.message, "user", now));
    if InsertChat("user") in faults {
      return Err(QueryFailed(InsertChat("user")));
    }
    ghost var before := db.tables.chats;
    db.tables := db.tables.(chats := db.tables.chats + [sent]);
    if FindChats in faults {
      return Err(QueryFailed(FindChats));
    }
    var history := OwnedBy(db.tables.chats, id);
    OwnedByAppend(before, sent, id);
    if history == [] {
      return Err(NotFound);
    }
    var reply := ChatReply(model, history, sent.data.message);
    if reply.Err? {
      return Err(reply.error);
    }
    if InsertChat("ai") in faults {
      return Err(QueryFailed(InsertChat("ai")));
    }
    db.tables := db.tables.(chats := db.tables.chats + [Row(replyId, id, Chat(reply.value, "ai", now))]);
    return Ok(reply.value);
  }

  /** The deletes that follow a generated plan's own, in order. */
  const Cascade: seq<Op> := [DeletePlan, DeletePrompt, DeleteLifeGoal, DeleteFinance, DeleteHealth, DeleteSchedule]

  /** How many of `ops`, from the start, run before the first one that fails. */
  function Completed(ops: seq<Op>, faults: set<Op>): (n: nat)
    ensures n <= |ops|
    ensures forall i :: 0 <= i < n ==> ops[i] !in faults
    ensures n < |ops| ==> ops[n] in faults
  {
    if ops == [] || ops[0] in faults then 0 else 1 + Completed(ops[1..], faults)
  }

  /** `rows` with id `id` deleted when the cascade got as far as step `k`. */
  function DroppedBy<D>(rows: seq<Row<D>>, id: string, k: nat, faults: set<Op>): seq<Row<D>>
  {
    if Completed(Cascade, faults) > k then Drop(rows, id) else rows
  }

  /**
   * DeleteGenGoalByID: a failing plan lookup deletes nothing. Otherwise the
   * plan is deleted, then its prompt, life goal, finance record, health
   * background and schedule by the ids stored on the plan; the first failing
   * delete stops the rest and earlier deletes stay done.
   */
  method DeleteGenGoalByID(db: Database, faults: set<Op>, id: string) returns (err: Option<Error>)
    modifies db
    ensures FindPlanByID(old(db.tables), id, faults).Err? ==>
      err == Some(FindPlanByID(old(db.tables), id, faults).error) && db.tables == old(db.tables)
    ensures FindPlanByID(old(db.tables), id, faults).Ok? ==>
      var plan := FindPlanByID(old(db.tables), id, faults).value.data;
      var n := Completed(Cascade, faults);
      && (err.None? <==> n == |Cascade|)
      && (n < |Cascade| ==> err == Some(QueryFailed(Cascade[n])))
      && db.tables == old(db.tables).(
           plans := DroppedBy(old(db.tables).plans, id, 0, faults),
           prompts := DroppedBy(old(db.tables).prompts, plan.promptId, 1, faults),
           lifeGoals := DroppedBy(old(db.tables).lifeGoals, plan.lifeGoalId, 2, faults),
           finance := DroppedBy(old(db.tables).finance, plan.financeId, 3, faults),
           health := DroppedBy(old(db.tables).health, plan.healthId, 4, faults),
           schedules := DroppedBy(old(db.tables).schedules, plan.scheduleId, 5, faults))
  {
    var found := FindPlanByID(db.tables, id, faults);
    if found.Err? {
      return Some(found.error);
    }
    var plan := found.value.data;
    assert Cascade[2] == DeleteLifeGoal && Cascade[3] == DeleteFinance && Cascade[4] == DeleteHealth && Cascade[5] == DeleteSchedule;
    if DeletePlan in faults {
      return Some(QueryFailed(DeletePlan));
    }
    db.tables := db.tables.(plans := Drop(db.tables.plans, id));
    if DeletePrompt in faults {
      return Some(QueryFailed(DeletePrompt));
    }
    db.tables := db.tables.(prompts := Drop(db.tables.prompts, plan.promptId));
    if DeleteLifeGoal in faults {
      return Some(QueryFailed(DeleteLifeGoal));
    }
    db.tables := db.tables.(lifeGoals := Drop(db.tables.lifeGoals, plan.lifeGoalId));
    if DeleteFinance in faults {
      return Some(QueryFailed(DeleteFinance));
    }
    db.tables := db.tables.(finance := Drop(db.tables.finance, plan.financeId));
    if DeleteHealth in faults {
      return Some(QueryFailed(DeleteHealth));
    }
    db.tables := db.tables.(health := Drop(db.tables.health, plan.healthId));
    if DeleteSchedule in faults {
      return Some(QueryFailed(DeleteSchedule));
    }
    db.tables := db.tables.(schedules := Drop(db.tables.schedules, plan.scheduleId));
    return None;
  }
}

=== FILE: server_ai_prompt.dfy ===
// The prompt service: a prompt is built from the user's profile, life goal,
// health background, finance record and schedule, looked up in that order,
// and stored with the ids of the four records it was built from. The
// prompt's wording is not modelled: `compose` stands for it.

module AiPromptService {
  import opened Common
  import opened Store

  /** The five records a prompt is built from. */
  datatype Sources = Sources(
    user: Row<Profile>, lifeGoal: Row<LifeGoal>, health: Row<Health>, finance: Row<Finance>, schedule: Row<Schedule>)

  /** How the prompt text is written from the five records. */
  type Compose = Sources -> string

  /**
   * The five lookups in order; the first that fails decides the error.
   * Profile and life goal need exactly one row, the others take the first.
   */
  function FindSources(t: Tables, id: string, faults: set<Op>): (r: Result<Sources>)
    ensures r.Ok? <==>
      && FindUserByID(t, id, faults).Ok? && FindLifeGoalByUserID(t, id, faults).Ok?
      && FindHealthByUserID(t, id, faults).Ok? && FindFinanceByUserID(t, id, faults).Ok?
      && FindScheduleByUserID(t, id, faults).Ok?
    ensures FindUserByID(t, id, faults).Err? ==> r == Err(FindUserByID(t, id, faults).error)
    ensures FindUserByID(t, id, faults).Ok? && FindLifeGoalByUserID(t, id, faults).Err? ==>
      r == Err(FindLifeGoalByUserID(t, id, faults).error)
    ensures r.Ok? ==>
      && r.value.user.userId == id && r.value.lifeGoal.userId == id && r.value.health.userId == id
      && r.value.finance.userId == id && r.value.schedule.userId == id
  {
    var user := FindUserByID(t, id, faults);
    var lifeGoal := FindLifeGoalByUserID(t, id, faults);
    var health := FindHealthByUserID(t, id, faults);
    var finance := FindFinanceByUserID(t, id, faults);
    var schedule := FindScheduleByUserID(t, id, faults);
    if user.Err? then Err(user.error)
    else if lifeGoal.Err? then Err(lifeGoal.error)
    else if health.Err? then Err(health.error)
    else if finance.Err? then Err(finance.error)
    else if schedule.Err? then Err(schedule.error)
    else Ok(Sources(user.value, lifeGoal.value, health.value, finance.value, schedule.value))
  }

  /** The prompt row CreateAIPrompt stores. */
  function NewPrompt(newId: string, id: string, s: Sources, compose: Compose, now: Instant): (r: Row<Prompt>)
    ensures r.id == newId && r.userId == id && r.data.text == compose(s) && r.data.createdAt == now
    ensures r.data.lifeGoalId == s.lifeGoal.id && r.data.healthId == s.health.id
    ensures r.data.financeId == s.finance.id && r.data.scheduleId == s.schedule.id
  {
    Row(newId, id, Prompt(compose(s), s.lifeGoal.id, s.finance.id, s.health.id, s.schedule.id, now))
  }

  /**
   * CreateAIPrompt: the first failing lookup returns its error and nothing
   * is stored; otherwise the prompt is stored under `id`, linked to the ids
   * of the records it was built from. An empty user id is refused by the
   * insert.
   */
  method CreateAIPrompt(db: Database, faults: set<Op>, now: Instant, newId: string, id: string, compose: Compose)
    returns (err: Option<Error>)
    modifies db
    ensures FindSources(old(db.tables), id, faults).Err? ==>
      err == Some(FindSources(old(db.tables), id, faults).error) && db.tables == old(db.tables)
    ensures FindSources(old(db.tables), id, faults).Ok? && id == "" ==>
      err == Some(EmptyId) && db.tables == old(db.tables)
    ensures FindSources(old(db.tables), id, faults).Ok? && id != "" && InsertPrompt in faults ==>
      err == Some(QueryFailed(InsertPrompt)) && db.tables == old(db.tables)
    ensures err.None? <==> FindSources(old(db.tables), id, faults).Ok? && id != "" && InsertPrompt !in faults
    ensures err.None? ==>
      db.tables == old(db.tables).(prompts := old(db.tables).prompts +
        [NewPrompt(newId, id, FindSources(old(db.tables), id, faults).value, compose, now)])
  {
    var user := FindUserByID(db.tables, id, faults);
    if user.Err? {
      return Some(user.error);
    }
    var lifeGoal := FindLifeGoalByUserID(db.tables, id, faults);
    if lifeGoal.Err? {
      return Some(lifeGoal.error);
    }
    var health := FindHealthByUserID(db.tables, id, faults);
    if health.Err? {
      return Some(health.error);
    }
    var finance := FindFinanceByUserID(db.tables, id, faults);
    if finance.Err? {
      return Some(finance.error);
    }
    var schedule := FindScheduleByUserID(db.tables, id, faults);
    if schedule.Err? {
      return Some(schedule.error);
    }
    var sources := Sources(user.value, lifeGoal.value, health.value, finance.value, schedule.value);
    var row := NewPrompt(newId, id, sources, compose, now);
    if row.userId == "" {
      return Some(EmptyId);
    }
    if InsertPrompt in faults {
      return Some(QueryFailed(InsertPrompt));
    }
    db.tables := db.tables.(prompts := db.tables.prompts + [row]);
    return None;
  }

  /**
   * A user whose profile and life goal are each stored once and who has at
   * least one health, finance and schedule row gets a prompt when nothing
   * fails; a second life goal makes the lookup, and so the prompt, fail.
   */
  lemma PromptNeedsOneLifeGoal(t: Tables, id: string)
    requires |OwnedBy(t.users, id)| == 1
    requires OwnedBy(t.health, id) != [] && OwnedBy(t.finance, id) != [] && OwnedBy(t.schedules, id) != []
    ensures FindSources(t, id, {}).Ok? <==> |OwnedBy(t.lifeGoals, id)| == 1
    ensures |OwnedBy(t.lifeGoals, id)| > 1 ==> FindSources(t, id, {}) == Err(MultipleRows)
  {
  }

  /** DeleteAIPrompt: the prompt with id `id` is deleted, or the repository's error returned. */
  method DeleteAIPrompt(db: Database, faults: set<Op>, id: string) returns (err: Option<Error>)
    modifies db
    ensures DeletePrompt in faults ==> err == Some(QueryFailed(DeletePrompt)) && db.tables == old(db.tables)
    ensures DeletePrompt !in faults ==>
      err == None && db.tables == old(db.tables).(prompts := Drop(old(db.tables).prompts, id))
  {
    if DeletePrompt in faults {
      return Some(QueryFailed(DeletePrompt));
    }
    db.tables := db.tables.(prompts := Drop(db.tables.prompts, id));
    return None;
  }
}

=== FILE: server_client.dfy ===
// How the client reads two of the server's refusals. The server answers a
// missing profile with 403 "cannot get user data" and a user with no life
// goal, or more than one, with 403 "cannot get life goal data"; the client
// services recognise exactly these messages and show an empty record
// instead of an error.

module ClientServer {
  import opened Common
  import opened Store
  import opened Responses
  import Http
  import ClientModels
  import UserService
  import LifeGoalService
  import UsersGateway
  import LifeGoalGateway
  import ServerLifeGoalService

  /** A text without upper-case ASCII letters is its own lower-case form. */
  lemma LowercaseIsItsOwnLower(s: string)
    requires forall i :: 0 <= i < |s| ==> !('A' <= s[i] <= 'Z')
    ensures Lower(s) == s
  {
  }

  lemma ContainsItself(s: string)
    ensures Contains(s, s)
  {
    assert s <= s[0..];
  }

  /**
   * A signed-in user the server holds no single profile for gets, in the
   * client, the empty profile rather than an error.
   */
  lemma MissingProfileReadsEmpty(t: Tables, uid: string, token: Option<string>, statusText: string,
                                 data: ClientModels.UserModel)
    requires uid != "" && |OwnedBy(t.users, uid)| != 1 && Http.HasToken(token)
    ensures var answer := UsersGateway.GetUserByID(t, {}, uid);
      && answer == Reply(403, "cannot get user data")
      && UserService.GetUserProfile(Some(uid), token, AsReceived(answer, statusText, data)).outcome
         == Http.Returned(UserService.EmptyUserModel)
  {
    UsersGateway.NotExactlyOneProfile(t, uid);
    RefusalIsNoUserData();
  }

  /** The server's profile refusal is a message the user service reads as "no profile yet". */
  lemma RefusalIsNoUserData()
    ensures UserService.SaysNoUserData(Some("cannot get user data"))
  {
    var m := "cannot get user data";
    LowercaseIsItsOwnLower(m);
    ContainsItself(m);
  }

  /** The server's life-goal refusal reaches the client as the empty life-goal record. */
  lemma LifeGoalRefusalReadsEmpty(t: Tables, uid: string, today: string, statusText: string)
    requires uid != "" && |OwnedBy(t.lifeGoals, uid)| != 1
    ensures var answer := LifeGoalGateway.GetLifeGoalByUserID(t, {}, uid);
      && answer == Reply(403, "cannot get life goal data")
      && LifeGoalService.GetLifeGoals(Some(uid), today, AsReceived(answer, statusText, None)).outcome
         == Http.Returned(LifeGoalService.EmptyLifeGoals(Some(uid), today))
  {
    RefusalIsNoLifeGoalData();
  }

  /** The server's life-goal refusal is a message the life-goal service reads as "no life goal yet". */
  lemma RefusalIsNoLifeGoalData()
    ensures LifeGoalService.SaysNoLifeGoalData(Some("cannot get life goal data"))
  {
    var m := "cannot get life goal data";
    LowercaseIsItsOwnLower(m);
    ContainsItself(m);
  }

  /**
   * The setup form submitted twice for a new user: after the first complete
   * submission the life goal reads back; after the second there are two
   * goals, the server refuses the read and the client shows an empty goal.
   */
  method SubmitSetupTwice(initial: Tables, now: Instant, first: UsersGateway.NewIds, second: UsersGateway.NewIds,
                          uid: string, b1: UsersGateway.BodyData, b2: UsersGateway.BodyData,
                          today: string, statusText: string)
    returns (r1: Response<()>, between: Response<Row<LifeGoal>>, r2: Response<()>,
             after: Response<Row<LifeGoal>>, seen: Http.Outcome<ClientModels.LifeGoalsData>)
    requires uid != "" && OwnedBy(initial.lifeGoals, uid) == []
    ensures r1.status == 200 ==> between.status == 200 && between.data.Some? && between.data.value.id == first.lifeGoal
    ensures r1.status == 200 && r2.status == 200 ==>
      && after == Reply(403, "cannot get life goal data")
      && seen == Http.Returned(LifeGoalService.EmptyLifeGoals(Some(uid), today))
  {
    var db := new Database(initial);
    r1 := UsersGateway.PostAllInfomation(db, {}, now, first, uid, Some(b1));
    ghost var once := db.tables.lifeGoals;
    between := LifeGoalGateway.GetLifeGoalByUserID(db.tables, {}, uid);
    if r1.status == 200 {
      var row := ServerLifeGoalService.NewLifeGoal(first.lifeGoal, uid, b1.lifeGoal, now);
      OwnedByAppend(initial.lifeGoals, row, uid);
      assert OwnedBy(once, uid) == [row];
    }
    r2 := UsersGateway.PostAllInfomation(db, {}, now, second, uid, Some(b2));
    after := LifeGoalGateway.GetLifeGoalByUserID(db.tables, {}, uid);
    if r1.status == 200 && r2.status == 200 {
      var row := ServerLifeGoalService.NewLifeGoal(second.lifeGoal, uid, b2.lifeGoal, now);
      OwnedByAppend(once, row, uid);
      LifeGoalRefusalReadsEmpty(db.tables, uid, today, statusText);
    }
    seen := LifeGoalService.GetLifeGoals(Some(uid), today, AsReceived(after, statusText, None)).outcome;
  }
}

=== FILE: server_finance.dfy ===
// The finance service's insert: the record is stored under the path's user
// id with both time stamps set; the amounts are stored as given.

module FinanceService {
  import opened Common
  import opened Store

  /** A finance body as a request carries it. */
  datatype FinanceBody = FinanceBody(currency: string, income: real, expenses: real, savingsGoal: real, riskTolerance: string)

  /** What a create request must carry: a currency and a risk tolerance; the amounts are not checked. */
  predicate ValidFinance(b: FinanceBody)
  {
    b.currency != "" && b.riskTolerance != ""
  }

  /** Any amounts, negative ones included, pass the check. */
  lemma AmountsNotChecked(b: FinanceBody, income: real, expenses: real, savingsGoal: real)
    ensures ValidFinance(b.(income := income, expenses := expenses, savingsGoal := savingsGoal)) <==> ValidFinance(b)
  {
  }

  function NewFinance(newId: string, id: string, b: FinanceBody, now: Instant): (r: Row<Finance>)
    ensures r.id == newId && r.userId == id && r.data.createdAt == now && r.data.updatedAt == now
    ensures r.data.currency == b.currency && r.data.riskTolerance == b.riskTolerance
    ensures r.data.income == b.income && r.data.expenses == b.expenses && r.data.savingsGoal == b.savingsGoal
  {
    Row(newId, id, Finance(b.currency, b.income, b.expenses, b.savingsGoal, b.riskTolerance, now, now))
  }

  /** CreateFinance: no guard on the id; the row is inserted or the repository's error returned. */
  method CreateFinance(db: Database, faults: set<Op>, now: Instant, newId: string, id: string, b: FinanceBody)
    returns (err: Option<Error>)
    modifies db
    ensures InsertFinance in faults ==> err == Some(QueryFailed(InsertFinance)) && db.tables == old(db.tables)
    ensures InsertFinance !in faults ==>
      && err == None
      && db.tables == old(db.tables).(finance := old(db.tables).finance + [NewFinance(newId, id, b, now)])
  {
    if InsertFinance in faults {
      return Some(QueryFailed(InsertFinance));
    }
    db.tables := db.tables.(finance := db.tables.finance + [NewFinance(newId, id, b, now)]);
    return None;
  }
}

=== FILE: server_gw_ai_gen.dfy ===
// The generation endpoints: build a prompt and generate a plan from it,
// send a chat message to the assistant, and delete a generated plan.

module AiGenGateway {
  import opened Common
  import opened Store
  import opened Responses
  import AiPromptService
  import AiGenService

  /**
   * CreateAiGen: a prompt is built and stored (403 "cannot create new AI
   * prompt." when that fails), then a plan is generated from the user's
   * first stored prompt (403 "cannot create new AI gen." when that fails):
   * the one just stored only when the user had none, an older one otherwise.
   * A panic in the generation is answered 500 by the server's recover
   * middleware; its plain-text body is not modelled, so the message is "".
   */
  method CreateAiGen(db: Database, faults: set<Op>, now: Instant, promptId: string, planId: string, id: string,
                     compose: AiPromptService.Compose, model: AiGenService.Model)
    returns (res: Response<string>)
    modifies db
    ensures var sources := AiPromptService.FindSources(old(db.tables), id, faults);
      && (sources.Err? || id == "" || InsertPrompt in faults ==>
            res == Reply(403, "cannot create new AI prompt.") && db.tables == old(db.tables))
      && (sources.Ok? && id != "" && InsertPrompt !in faults ==>
            var earlier := OwnedBy(old(db.tables).prompts, id);
            var first := if earlier == [] then AiPromptService.NewPrompt(promptId, id, sources.value, compose, now)
                         else earlier[0];
            var reply := AiGenService.Generate(model, first.data.text);
            var prompted := old(db.tables).(prompts := old(db.tables).prompts +
                              [AiPromptService.NewPrompt(promptId, id, sources.value, compose, now)]);
            && res.status != 500
            && (FindPrompt in faults ==> res == Response(200, "successfully created new AI gen", Some("")))
            && (FindPrompt !in faults && reply.Err? ==> res == Reply(403, "cannot create new AI gen."))
            && (FindPrompt !in faults && reply.Ok? ==>
                  res == Response(200, "successfully created new AI gen", Some(reply.value)))
            && (FindPrompt in faults || reply.Err? || InsertPlan in faults ==> db.tables == prompted)
            && (FindPrompt !in faults && reply.Ok? && InsertPlan !in faults ==>
                  db.tables == prompted.(plans := prompted.plans + [AiGenService.NewPlan(planId, id, first, reply.value, now)])))
  {
    var err := AiPromptService.CreateAIPrompt(db, faults, now, promptId, id, compose);
    if err.Some? {
      return Reply(403, "cannot create new AI prompt.");
    }
    ghost var sources := AiPromptService.FindSources(old(db.tables), id, faults);
    OwnedByAppend(old(db.tables).prompts, AiPromptService.NewPrompt(promptId, id, sources.value, compose, now), id);
    var g := AiGenService.GenerateLifeGoal(db, faults, now, planId, id, model);
    match g {
      case Panicked =>
        return Reply(500, "");
      case Failed(_) =>
        return Reply(403, "cannot create new AI gen.");
      case Generated(text) =>
        return Response(200, "successfully created new AI gen", Some(text));
    }
  }

  /** The chat body as parsed; None when the body is not valid JSON. */
  type ChatRequest = Option<AiGenService.ChatBody>

  /** The handler's sender check: a sender that is not "user" and is "ai". */
  predicate RejectsSender(sender: string)
  {
    sender != "user" && sender == "ai"
  }

  /** The check refuses exactly the sender "ai": every other sender, "" included, passes. */
  lemma RejectsOnlyAi(sender: string)
    ensures RejectsSender(sender) <==> sender == "ai"
  {
  }

  /**
   * GenerateAiAssitant: 422 for an unparseable body or the sender "ai";
   * 403 "cannot get gen chat." when the service fails; else the reply.
   */
  method GenerateAiAssitant(db: Database, faults: set<Op>, now: Instant, sentId: string, replyId: string,
                            id: string, body: ChatRequest, model: AiGenService.ChatModel)
    returns (res: Response<string>)
    modifies db
    ensures body.None? ==> res == Reply(422, "invalid json body") && db.tables == old(db.tables)
    ensures body.Some? && body.value.sender == "ai" ==>
      res == Reply(422, "invalid sender") && db.tables == old(db.tables)
    ensures body.Some? && body.value.sender != "ai" ==>
      var sent := Row(sentId, id, Chat(body.value.message, "user", now));
      var reply := AiGenService.ChatReply(model, AiGenService.HistoryWith(old(db.tables).chats, id, sent), body.value.message);
      var ok := InsertChat("user") !in faults && FindChats !in faults && reply.Ok? && InsertChat("ai") !in faults;
      && (ok ==> res == Response(200, "success", Some(reply.value)))
      && (!ok ==> res == Reply(403, "cannot get gen chat."))
      && (InsertChat("user") in faults ==> db.tables == old(db.tables))
      && (InsertChat("user") !in faults && !ok ==> db.tables == old(db.tables).(chats := old(db.tables).chats + [sent]))
      && (ok ==> db.tables == old(db.tables).(chats := old(db.tables).chats + [sent, Row(replyId, id, Chat(reply.value, "ai", now))]))
  {
    if body.None? {
      return Reply(422, "invalid json body");
    }
    if RejectsSender(body.value.sender) {
      return Reply(422, "invalid sender");
    }
    var r := AiGenService.GenereateAiAssist(db, faults, now, sentId, replyId, id, body.value, model);
    if r.Err? {
      return Reply(403, "cannot get gen chat.");
    }
    return Response(200, "success", Some(r.value));
  }

  /**
   * DeleteGenGoal: 403 "cannot get all gen goal." when the delete fails at
   * any step, else 200 "success"; the plan and the records it links are
   * deleted up to the first failing step.
   */
  method DeleteGenGoal(db: Database, faults: set<Op>, id: string) returns (res: Response<()>)
    modifies db
    ensures FindPlanByID(old(db.tables), id, faults).Err? ==>
      res == Reply(403, "cannot get all gen goal.") && db.tables == old(db.tables)
    ensures FindPlanByID(old(db.tables), id, faults).Ok? ==>
      res == if AiGenService.Completed(AiGenService.Cascade, faults) == |AiGenService.Cascade| then Reply(200, "success")
             else Reply(403, "cannot get all gen goal.")
    ensures FindPlanByID(old(db.tables), id, faults).Ok? ==>
      var plan := FindPlanByID(old(db.tables), id, faults).value.data;
      db.tables == old(db.tables).(
        plans := AiGenService.DroppedBy(old(db.tables).plans, id, 0, faults),
        prompts := AiGenService.DroppedBy(old(db.tables).prompts, plan.promptId, 1, faults),
        lifeGoals := AiGenService.DroppedBy(old(db.tables).lifeGoals, plan.lifeGoalId, 2, faults),
        finance := AiGenService.DroppedBy(old(db.tables).finance, plan.financeId, 3, faults),
        health := AiGenService.DroppedBy(old(db.tables).health, plan.healthId, 4, faults),
        schedules := AiGenService.DroppedBy(old(db.tables).schedules, plan.scheduleId, 5, faults))
  {
    var err := AiGenService.DeleteGenGoalByID(db, faults, id);
    if err.Some? {
      return Reply(403, "cannot get all gen goal.");
    }
    return Reply(200, "success");
  }
}

=== FILE: server_gw_finance.dfy ===
// The finance endpoints: list every finance record, read a user's, and
// create one. The two reads answer a failure with 500, not 403.

module FinanceGateway {
  import opened Common
  import opened Store
  import opened Responses
  import FinanceService

  /** GetAllFinance: every user's records, or 500 when the query fails. */
  function GetAllFinance(t: Tables, faults: set<Op>): (res: Response<seq<Row<Finance>>>)
    ensures FindFinance in faults ==> res == Reply(500, "failed to fetch finance records")
    ensures FindFinance !in faults ==> res == Response(200, "successfully fetched finance records", Some(t.finance))
  {
    if FindFinance in faults then Reply(500, "failed to fetch finance records")
    else Response(200, "successfully fetched finance records", Some(t.finance))
  }

  /** GetFinanceByUserID: 422 for an empty id; 500 when the user has no record; else the user's first. */
  function GetFinanceByUserID(t: Tables, faults: set<Op>, id: string): (res: Response<Row<Finance>>)
    ensures id == "" ==> res == Reply(422, "invalid user id")
    ensures id != "" && (FindFinance in faults || OwnedBy(t.finance, id) == []) ==>
      res == Reply(500, "failed to fetch finance records for user")
    ensures res.status == 200 <==> id != "" && FindFinance !in faults && OwnedBy(t.finance, id) != []
    ensures res.status == 200 ==>
      && res.message == "successfully fetched finance records for user"
      && res.data == Some(OwnedBy(t.finance, id)[0]) && res.data.value.userId == id
  {
    if id == "" then Reply(422, "invalid user id")
    else
      var found := FindFinanceByUserID(t, id, faults);
      if found.Err? then Reply(500, "failed to fetch finance records for user")
      else Response(200, "successfully fetched finance records for user", Some(found.value))
  }

  /** The user's record is one of the records the full list returns. */
  lemma UserRecordIsListed(t: Tables, id: string)
    requires GetFinanceByUserID(t, {}, id).status == 200
    ensures GetAllFinance(t, {}).status == 200
    ensures GetFinanceByUserID(t, {}, id).data.value in GetAllFinance(t, {}).data.value
  {
  }

  /**
   * CreateFinance: 422 for an empty user id, an unparseable body or a
   * missing currency or risk tolerance; 403 when the insert fails.
   */
  method CreateFinance(db: Database, faults: set<Op>, now: Instant, newId: string, id: string,
                       body: Option<FinanceService.FinanceBody>)
    returns (res: Response<()>)
    modifies db
    ensures id == "" ==> res == Reply(422, "invalid user id") && db.tables == old(db.tables)
    ensures id != "" && (body.None? || !FinanceService.ValidFinance(body.value)) ==>
      res == Reply(422, "invalid json body") && db.tables == old(db.tables)
    ensures id != "" && body.Some? && FinanceService.ValidFinance(body.value) && InsertFinance in faults ==>
      res == Reply(403, "cannot create new finance.") && db.tables == old(db.tables)
    ensures id != "" && body.Some? && FinanceService.ValidFinance(body.value) && InsertFinance !in faults ==>
      && res == Reply(200, "successfully created new finance")
      && db.tables == old(db.tables).(finance := old(db.tables).finance + [FinanceService.NewFinance(newId, id, body.value, now)])
  {
    if id == "" {
      return Reply(422, "invalid user id");
    }
    if body.None? || !FinanceService.ValidFinance(body.value) {
      return Reply(422, "invalid json body");
    }
    var err := FinanceService.CreateFinance(db, faults, now, newId, id, body.value);
    if err.Some? {
      return Reply(403, "cannot create new finance.");
    }
    return Reply(200, "successfully created new finance");
  }

  /** After a successful create the user's finance record can be read. */
  lemma {:induction false} CreateThenRead(t: Tables, newId: string, id: string, b: FinanceService.FinanceBody, now: Instant)
    requires id != ""
    ensures var after := t.(finance := t.finance + [FinanceService.NewFinance(newId, id, b, now)]);
      GetFinanceByUserID(after, {}, id).status == 200
  {
    OwnedByAppend(t.finance, FinanceService.NewFinance(newId, id, b, now), id);
  }
}

=== FILE: server_gw_health.dfy ===
// The health-background endpoints: read a user's health background and
// create one.

module HealthGateway {
  import opened Common
  import opened Store
  import opened Responses
  import HealthService

  /** GetHealthByUserID: 422 for an empty id, 403 when the user has no health background, else the user's first. */
  function GetHealthByUserID(t: Tables, faults: set<Op>, id: string): (res: Response<Row<Health>>)
    ensures id == "" ==> res == Reply(422, "invalid user id")
    ensures id != "" && FindHealth in faults ==> res == Reply(403, "cannot get health data by user ID")
    ensures res.status == 200 <==> id != "" && FindHealth !in faults && OwnedBy(t.health, id) != []
    ensures res.status == 200 ==>
      res.message == "success" && res.data == Some(OwnedBy(t.health, id)[0]) && res.data.value.userId == id
  {
    if id == "" then Reply(422, "invalid user id")
    else
      var found := HealthService.GetHealthByUserID(t, faults, id);
      if found.Err? then Reply(403, "cannot get health data by user ID")
      else Response(200, "success", Some(found.value))
  }

  /**
   * InsertHealth: 422 for an empty user id, an unparseable body or a missing
   * field (the id is checked first); 403 when the insert fails.
   */
  method InsertHealth(db: Database, faults: set<Op>, now: Instant, newId: string, id: string,
                      body: Option<HealthService.HealthBody>)
    returns (res: Response<()>)
    modifies db
    ensures id == "" ==> res == Reply(422, "invalid user id") && db.tables == old(db.tables)
    ensures id != "" && body.None? ==> res == Reply(422, "invalid json body") && db.tables == old(db.tables)
    ensures id != "" && body.Some? && !HealthService.ValidHealth(body.value) ==>
      res == Reply(422, "invalid json body please fill all") && db.tables == old(db.tables)
    ensures id != "" && body.Some? && HealthService.ValidHealth(body.value) && Op.InsertHealth in faults ==>
      res == Reply(403, "cannot insert new health background") && db.tables == old(db.tables)
    ensures id != "" && body.Some? && HealthService.ValidHealth(body.value) && Op.InsertHealth !in faults ==>
      && res == Reply(200, "successfully created new health background")
      && db.tables == old(db.tables).(health := old(db.tables).health + [HealthService.NewHealth(newId, id, body.value, now)])
  {
    if id == "" {
      return Reply(422, "invalid user id");
    }
    if body.None? {
      return Reply(422, "invalid json body");
    }
    if !HealthService.ValidHealth(body.value) {
      return Reply(422, "invalid json body please fill all");
    }
    var err := HealthService.InsertHealth(db, faults, now, newId, body.value, id);
    if err.Some? {
      return Reply(403, "cannot insert new health background");
    }
    return Reply(200, "successfully created new health background");
  }

  /** After a successful insert the user's health background can be read, whatever was there before. */
  lemma {:induction false} InsertThenRead(t: Tables, newId: string, id: string, b: HealthService.HealthBody, now: Instant)
    requires id != ""
    ensures var after := t.(health := t.health + [HealthService.NewHealth(newId, id, b, now)]);
      GetHealthByUserID(after, {}, id).status == 200
  {
    OwnedByAppend(t.health, HealthService.NewHealth(newId, id, b, now), id);
  }
}

=== FILE: server_gw_lifegoal.dfy ===
// The life-goal endpoints: create a user's life goal, read it by user id,
// and update it by its own id.

module LifeGoalGateway {
  import opened Common
  import opened Store
  import opened Responses
  import LifeGoals = ServerLifeGoalService

  /**
   * CreateLifeGoal: 422 for an empty user id, an unparseable body or a body
   * with a missing list or timeframe; 403 when the insert fails; otherwise
   * the goal is stored under the user.
   */
  method CreateLifeGoal(db: Database, faults: set<Op>, now: Instant, newId: string, id: string,
                        body: Option<LifeGoals.LifeGoalBody>)
    returns (res: Response<()>)
    modifies db
    ensures id == "" ==> res == Reply(422, "invalid user id") && db.tables == old(db.tables)
    ensures id != "" && (body.None? || !LifeGoals.ValidLifeGoal(body.value)) ==>
      res == Reply(422, "invalid json body") && db.tables == old(db.tables)
    ensures id != "" && body.Some? && LifeGoals.ValidLifeGoal(body.value) && Op.InsertLifeGoal in faults ==>
      res == Reply(403, "cannot insert new life goal.") && db.tables == old(db.tables)
    ensures id != "" && body.Some? && LifeGoals.ValidLifeGoal(body.value) && Op.InsertLifeGoal !in faults ==>
      && res == Reply(200, "successfully created new life goal")
      && db.tables == old(db.tables).(lifeGoals := old(db.tables).lifeGoals +
           [LifeGoals.NewLifeGoal(newId, id, body.value, now)])
  {
    if id == "" {
      return Reply(422, "invalid user id");
    }
    if body.None? || !LifeGoals.ValidLifeGoal(body.value) {
      return Reply(422, "invalid json body");
    }
    var err := LifeGoals.InsertLifeGoal(db, faults, now, newId, body.value, id);
    if err.Some? {
      return Reply(403, "cannot insert new life goal.");
    }
    return Reply(200, "successfully created new life goal");
  }

  /** GetLifeGoalByUserID: 422 for an empty id, 403 "cannot get life goal data" unless the user has exactly one goal. */
  function GetLifeGoalByUserID(t: Tables, faults: set<Op>, id: string): (res: Response<Row<LifeGoal>>)
    ensures id == "" ==> res == Reply(422, "invalid life goal id")
    ensures id != "" ==>
      res == if FindLifeGoal !in faults && |OwnedBy(t.lifeGoals, id)| == 1
             then Response(200, "success", Some(OwnedBy(t.lifeGoals, id)[0]))
             else Reply(403, "cannot get life goal data")
  {
    if id == "" then Reply(422, "invalid life goal id")
    else
      var found := FindLifeGoalByUserID(t, id, faults);
      if found.Err? then Reply(403, "cannot get life goal data")
      else Response(200, "success", Some(found.value))
  }

  /**
   * A goal created for a user who had none reads back; a goal created for a
   * user who already had one makes both unreadable.
   */
  lemma {:induction false} CreateThenRead(t: Tables, newId: string, id: string, b: LifeGoals.LifeGoalBody, now: Instant)
    requires id != ""
    ensures var row := LifeGoals.NewLifeGoal(newId, id, b, now);
      var after := t.(lifeGoals := t.lifeGoals + [row]);
      && (OwnedBy(t.lifeGoals, id) == [] ==> GetLifeGoalByUserID(after, {}, id) == Response(200, "success", Some(row)))
      && (OwnedBy(t.lifeGoals, id) != [] ==> GetLifeGoalByUserID(after, {}, id) == Reply(403, "cannot get life goal data"))
  {
    var row := LifeGoals.NewLifeGoal(newId, id, b, now);
    OwnedByAppend(t.lifeGoals, row, id);
  }

  /**
   * UpdateLifeGoal: 422 for an empty goal id or an unparseable body; 403
   * "cannot update life goal" when the update fails. An id that matches no
   * goal updates nothing and still answers 200.
   */
  method UpdateLifeGoal(db: Database, faults: set<Op>, now: Instant, id: string, body: Option<LifeGoals.LifeGoalBody>)
    returns (res: Response<()>)
    modifies db
    ensures id == "" ==> res == Reply(422, "invalid life goal id") && db.tables == old(db.tables)
    ensures id != "" && body.None? ==> res == Reply(422, "invalid json body") && db.tables == old(db.tables)
    ensures id != "" && body.Some? && Op.UpdateLifeGoal in faults ==>
      res == Reply(403, "cannot update life goal") && db.tables == old(db.tables)
    ensures id != "" && body.Some? && Op.UpdateLifeGoal !in faults ==>
      && res == Reply(200, "successfully updated life goal")
      && db.tables == old(db.tables).(lifeGoals := LifeGoals.UpdatedGoals(old(db.tables).lifeGoals, id, body.value, now))
  {
    if id == "" {
      return Reply(422, "invalid life goal id");
    }
    if body.None? {
      return Reply(422, "invalid json body");
    }
    var err := LifeGoals.UpdateLifeGoal(db, faults, now, id, body.value);
    if err.Some? {
      return Reply(403, "cannot update life goal");
    }
    return Reply(200, "successfully updated life goal");
  }

  /** An update of an id no goal has answers 200 and leaves the goals as they were. */
  lemma UpdateOfUnknownIdIsSilent(rows: seq<Row<LifeGoal>>, id: string, b: LifeGoals.LifeGoalBody, now: Instant)
    requires forall i :: 0 <= i < |rows| ==> rows[i].id != id
    ensures LifeGoals.UpdatedGoals(rows, id, b, now) == rows
  {
  }
}

=== FILE: server_gw_schedule.dfy ===
// The schedule endpoints: read a schedule by its own id or by its user's
// id, and create one for a user.

module ScheduleGateway {
  import opened Common
  import opened Store
  import opened Responses
  import ScheduleService

  /** GetScheduleByID: 422 for an empty id, 403 when no schedule has that id, else the first that does. */
  function GetScheduleByID(t: Tables, faults: set<Op>, id: string): (res: Response<Row<Schedule>>)
    ensures id == "" ==> res == Reply(422, "invalid user id")
    ensures id != "" && FindScheduleById in faults ==> res == Reply(403, "cannot get schedule data")
    ensures res.status == 200 <==> id != "" && FindScheduleById !in faults && WithId(t.schedules, id) != []
    ensures res.status == 200 ==>
      res.message == "success" && res.data.Some? && res.data.value.id == id && res.data.value in t.schedules
  {
    if id == "" then Reply(422, "invalid user id")
    else
      var found := FindScheduleByID(t, id, faults);
      if found.Err? then Reply(403, "cannot get schedule data")
      else Response(200, "success", Some(found.value))
  }

  /** GetScheduleByUserID: 422 for an empty id, 403 when the user has no schedule, else the user's first. */
  function GetScheduleByUserID(t: Tables, faults: set<Op>, id: string): (res: Response<Row<Schedule>>)
    ensures id == "" ==> res == Reply(422, "invalid user id")
    ensures id != "" && FindSchedule in faults ==> res == Reply(403, "cannot get schedule data")
    ensures res.status == 200 <==> id != "" && FindSchedule !in faults && OwnedBy(t.schedules, id) != []
    ensures res.status == 200 ==>
      res.message == "success" && res.data == Some(OwnedBy(t.schedules, id)[0]) && res.data.value.userId == id
  {
    if id == "" then Reply(422, "invalid user id")
    else
      var found := FindScheduleByUserID(t, id, faults);
      if found.Err? then Reply(403, "cannot get schedule data")
      else Response(200, "success", Some(found.value))
  }

  /**
   * CreateSchedule: 422 for an unparseable body or a missing field; the
   * path's id is not checked here, so an empty one reaches the service and
   * is answered 403 like a failing insert.
   */
  method CreateSchedule(db: Database, faults: set<Op>, now: Instant, newId: string, id: string,
                        body: Option<ScheduleService.ScheduleBody>)
    returns (res: Response<()>)
    modifies db
    ensures body.None? ==> res == Reply(422, "invalid json body") && db.tables == old(db.tables)
    ensures body.Some? && !ScheduleService.ValidSchedule(body.value) ==>
      res == Reply(422, "invalid json body please fill all") && db.tables == old(db.tables)
    ensures body.Some? && ScheduleService.ValidSchedule(body.value) && (id == "" || InsertSchedule in faults) ==>
      res == Reply(403, "cannot insert new schedule.") && db.tables == old(db.tables)
    ensures body.Some? && ScheduleService.ValidSchedule(body.value) && id != "" && InsertSchedule !in faults ==>
      && res == Reply(200, "success")
      && db.tables == old(db.tables).(schedules := old(db.tables).schedules +
           [ScheduleService.NewSchedule(newId, id, body.value, now)])
  {
    if body.None? {
      return Reply(422, "invalid json body");
    }
    if !ScheduleService.ValidSchedule(body.value) {
      return Reply(422, "invalid json body please fill all");
    }
    var err := ScheduleService.CreateSchedule(db, faults, now, newId, id, body.value);
    if err.Some? {
      return Reply(403, "cannot insert new schedule.");
    }
    return Reply(200, "success");
  }

  /**
   * A created schedule is what its user reads when it is the user's first;
   * a user who had one keeps reading the older one.
   */
  lemma {:induction false} CreateThenRead(t: Tables, newId: string, id: string, b: ScheduleService.ScheduleBody, now: Instant)
    requires id != ""
    ensures var row := ScheduleService.NewSchedule(newId, id, b, now);
      var after := t.(schedules := t.schedules + [row]);
      && (OwnedBy(t.schedules, id) == [] ==> GetScheduleByUserID(after, {}, id) == Response(200, "success", Some(row)))
      && (OwnedBy(t.schedules, id) != [] ==> GetScheduleByUserID(after, {}, id) == GetScheduleByUserID(t, {}, id))
  {
    var row := ScheduleService.NewSchedule(newId, id, b, now);
    OwnedByAppend(t.schedules, row, id);
  }
}

=== FILE: server_gw_users.dfy ===
// The user endpoints: create a profile, read it, patch it, post everything
// the setup form collected (health, schedule, life goal, finance, each
// checked just before its own insert), and delete a user's data.

module UsersGateway {
  import opened Common
  import opened Store
  import opened Responses
  import UsersService
  import HealthService
  import ScheduleService
  import LifeGoals = ServerLifeGoalService
  import FinanceService

  /** The profile fields CreateUser insists on: a name, a gender, and age, height and weight other than 0. */
  predicate ValidNewUser(p: Profile)
  {
    p.fullName != "" && p.age != 0 && p.height != 0 && p.gender != "" && p.weight != 0
  }

  /**
   * CreateUser: an unparseable body or a profile missing a required field is
   * 422 and stores nothing; a failing insert is 403; otherwise the profile is
   * stored under the path's id and the answer is 200 "success".
   */
  method CreateUser(db: Database, faults: set<Op>, now: Instant, newId: string, id: string,
                    body: Option<UsersService.UserBody>) returns (res: Response<()>)
    modifies db
    ensures body.None? || !ValidNewUser(body.value.profile) ==>
      res == Reply(422, "invalid json body") && db.tables == old(db.tables)
    ensures body.Some? && ValidNewUser(body.value.profile) && InsertUser in faults ==>
      res == Reply(403, "cannot insert new user account.") && db.tables == old(db.tables)
    ensures body.Some? && ValidNewUser(body.value.profile) && InsertUser !in faults ==>
      && res == Reply(200, "success")
      && db.tables == old(db.tables).(users := old(db.tables).users +
           [Row(newId, id, body.value.profile.(createdAt := now, updatedAt := now))])
  {
    if body.None? {
      return Reply(422, "invalid json body");
    }
    if !ValidNewUser(body.value.profile) {
      return Reply(422, "invalid json body");
    }
    var err := UsersService.InsertNewUser(db, faults, now, newId, id, body.value);
    if err.Some? {
      return Reply(403, "cannot insert new user account.");
    }
    return Reply(200, "success");
  }

  /** GetUserByID: 422 for an empty id, 403 "cannot get user data" when the lookup fails, else the profile. */
  function GetUserByID(t: Tables, faults: set<Op>, id: string): (res: Response<Row<Profile>>)
    ensures id == "" ==> res == Reply(422, "invalid user id")
    ensures id != "" && FindUserByID(t, id, faults).Err? ==> res == Reply(403, "cannot get user data")
    ensures res.status == 200 <==> id != "" && FindUserByID(t, id, faults).Ok?
    ensures res.status == 200 ==>
      res.message == "success" && res.data.Some? && res.data.value.userId == id && res.data.value in t.users
  {
    if id == "" then Reply(422, "invalid user id")
    else
      var found := FindUserByID(t, id, faults);
      if found.Err? then Reply(403, "cannot get user data")
      else Response(200, "success", Some(found.value))
  }

  /** A user with no profile, or with more than one, reads as 403 "cannot get user data". */
  lemma NotExactlyOneProfile(t: Tables, id: string)
    requires id != "" && |OwnedBy(t.users, id)| != 1
    ensures GetUserByID(t, {}, id) == Reply(403, "cannot get user data")
  {
  }

  /**
   * UpdateUser: an unparseable body is 422; the body's user id is replaced
   * by the path's; a failing update is 403 "cannot update user data".
   */
  method UpdateUser(db: Database, faults: set<Op>, now: Instant, id: string, body: Option<Row<Profile>>)
    returns (res: Response<()>)
    modifies db
    ensures body.None? ==> res == Reply(422, "invalid json body") && db.tables == old(db.tables)
    ensures body.Some? && FindUserByID(old(db.tables), id, faults).Err? ==>
      res == Reply(403, "cannot update user data") && db.tables == old(db.tables)
    ensures body.Some? && FindUserByID(old(db.tables), id, faults).Ok? && Op.UpdateUser in faults ==>
      res == Reply(403, "cannot update user data") && db.tables == old(db.tables)
    ensures body.Some? && FindUserByID(old(db.tables), id, faults).Ok? && Op.UpdateUser !in faults ==>
      && res == Reply(200, "success")
      && db.tables == old(db.tables).(users := UsersService.PatchOwned(old(db.tables).users, id,
           UsersService.Merge(body.value.(userId := id), FindUserByID(old(db.tables), id, faults).value, now)))
  {
    if body.None? {
      return Reply(422, "invalid json body");
    }
    var patch := body.value.(userId := id);
    var err := UsersService.UpdateUser(db, faults, now, patch);
    if err.Some? {
      return Reply(403, "cannot update user data");
    }
    return Reply(200, "success");
  }

  /** Whatever user id the body names, the update writes only rows of the path's user. */
  lemma UpdateWritesOnlyPathUser(rows: seq<Row<Profile>>, id: string, patch: Row<Profile>, stored: Row<Profile>, now: Instant)
    ensures var after := UsersService.PatchOwned(rows, id, UsersService.Merge(patch.(userId := id), stored, now));
      forall i :: 0 <= i < |rows| && rows[i].userId != id ==> after[i] == rows[i]
    ensures var after := UsersService.PatchOwned(rows, id, UsersService.Merge(patch.(userId := id), stored, now));
      forall i :: 0 <= i < |rows| ==> after[i].userId == rows[i].userId
  {
  }

  // PostAllInfomation

  /** The body of the setup form: the four sections, flattened as the JSON carries them. */
  datatype BodyData = BodyData(
    health: HealthService.HealthBody,
    workHours: string, availableTime: string, busyDays: List, preferredTimes: List,
    lifeGoal: LifeGoals.LifeGoalBody,
    finance: FinanceService.FinanceBody)

  /** The ids the database gives the four inserted rows. */
  datatype NewIds = NewIds(health: string, schedule: string, lifeGoal: string, finance: string)

  /** The schedule the handler builds: the path's user id and the body's schedule fields. */
  function ScheduleOf(b: BodyData, id: string): (s: ScheduleService.ScheduleBody)
    ensures s.userId == id && s.workHours == b.workHours && s.availableTime == b.availableTime
    ensures s.busyDays == b.busyDays && s.preferredTimes == b.preferredTimes && s.createdAt == 0
  {
    ScheduleService.ScheduleBody(id, b.workHours, b.availableTime, b.busyDays, b.preferredTimes, 0)
  }

  /** Section k (0 health, 1 schedule, 2 life goal, 3 finance) passes its check. */
  predicate SectionValid(b: BodyData, id: string, k: nat)
  {
    if k == 0 then HealthService.ValidHealth(b.health)
    else if k == 1 then ScheduleService.ValidSchedule(ScheduleOf(b, id))
    else if k == 2 then LifeGoals.ValidLifeGoal(b.lifeGoal)
    else FinanceService.ValidFinance(b.finance)
  }

  /** Section k's insert succeeds: the first three services refuse an empty user id, the finance one does not. */
  predicate SectionStored(id: string, faults: set<Op>, k: nat)
  {
    if k == 0 then id != "" && Op.InsertHealth !in faults
    else if k == 1 then id != "" && InsertSchedule !in faults
    else if k == 2 then id != "" && Op.InsertLifeGoal !in faults
    else InsertFinance !in faults
  }

  predicate SectionOk(b: BodyData, id: string, faults: set<Op>, k: nat)
  {
    SectionValid(b, id, k) && SectionStored(id, faults, k)
  }

  /** How many sections, from section `k` on, are checked and stored before the first that is not. */
  function PassedFrom(b: BodyData, id: string, faults: set<Op>, k: nat): (n: nat)
    requires k <= 4
    decreases 4 - k
    ensures k <= n <= 4
    ensures forall j :: k <= j < n ==> SectionOk(b, id, faults, j)
    ensures n < 4 ==> !SectionOk(b, id, faults, n)
  {
    if k == 4 || !SectionOk(b, id, faults, k) then k else PassedFrom(b, id, faults, k + 1)
  }

  function Passed(b: BodyData, id: string, faults: set<Op>): (n: nat)
    ensures n <= 4
    ensures forall j :: 0 <= j < n ==> SectionOk(b, id, faults, j)
    ensures n < 4 ==> !SectionOk(b, id, faults, n)
  {
    PassedFrom(b, id, faults, 0)
  }

  /** The answer when section k stops the request: 422 when its check fails, else 403 for its insert. */
  function Rejection(b: BodyData, id: string, k: nat): (res: Response<()>)
    ensures res.status == (if SectionValid(b, id, k) then 403 else 422)
  {
    if !SectionValid(b, id, k) then
      Reply(422, if k < 2 then "invalid json body please fill all" else "invalid json body")
    else if k == 0 then Reply(403, "cannot insert new health background")
    else if k == 1 then Reply(403, "cannot insert new schedule.")
    else if k == 2 then Reply(403, "cannot insert new life goal.")
    else Reply(403, "cannot insert new finance.")
  }

  /** `rows` with `row` appended when at least `k` sections went through. */
  function AddedIf<D>(rows: seq<Row<D>>, row: Row<D>, n: nat, k: nat): seq<Row<D>>
  {
    if n >= k then rows + [row] else rows
  }

  /**
   * PostAllInfomation: health, schedule, life goal and finance are each
   * checked and then inserted, in that order. The first section that fails
   * its check (422) or its insert (403) ends the request, and the sections
   * before it stay stored; 200 "success" only after all four inserts.
   */
  method PostAllInfomation(db: Database, faults: set<Op>, now: Instant, ids: NewIds, id: string, body: Option<BodyData>)
    returns (res: Response<()>)
    modifies db
    ensures body.None? ==> res == Reply(422, "invalid json body") && db.tables == old(db.tables)
    ensures body.Some? ==>
      var b := body.value;
      var n := Passed(b, id, faults);
      && res == (if n == 4 then Reply(200, "success") else Rejection(b, id, n))
      && db.tables == old(db.tables).(
           health := AddedIf(old(db.tables).health, HealthService.NewHealth(ids.health, id, b.health, now), n, 1),
           schedules := AddedIf(old(db.tables).schedules,
                                ScheduleService.NewSchedule(ids.schedule, id, ScheduleOf(b, id), now), n, 2),
           lifeGoals := AddedIf(old(db.tables).lifeGoals, LifeGoals.NewLifeGoal(ids.lifeGoal, id, b.lifeGoal, now), n, 3),
           finance := AddedIf(old(db.tables).finance, FinanceService.NewFinance(ids.finance, id, b.finance, now), n, 4))
  {
    if body.None? {
      return Reply(422, "invalid json body");
    }
    var b := body.value;
    ghost var n := Passed(b, id, faults);

    if !HealthService.ValidHealth(b.health) {
      return Reply(422, "invalid json body please fill all");
    }
    var err := HealthService.InsertHealth(db, faults, now, ids.health, b.health, id);
    if err.Some? {
      return Reply(403, "cannot insert new health background");
    }

    var schedule := ScheduleOf(b, id);
    if !ScheduleService.ValidSchedule(schedule) {
      return Reply(422, "invalid json body please fill all");
    }
    err := ScheduleService.CreateSchedule(db, faults, now, ids.schedule, id, schedule);
    if err.Some? {
      return Reply(403, "cannot insert new schedule.");
    }

    if !LifeGoals.ValidLifeGoal(b.lifeGoal) {
      return Reply(422, "invalid json body");
    }
    err := LifeGoals.InsertLifeGoal(db, faults, now, ids.lifeGoal, b.lifeGoal, id);
    if err.Some? {
      return Reply(403, "cannot insert new life goal.");
    }

    if !FinanceService.ValidFinance(b.finance) {
      return Reply(422, "invalid json body");
    }
    err := FinanceService.CreateFinance(db, faults, now, ids.finance, id, b.finance);
    if err.Some? {
      return Reply(403, "cannot insert new finance.");
    }
    return Reply(200, "success");
  }

  /** Lists are rejected only when missing: a body whose lists are all empty goes through when nothing fails. */
  lemma EmptyListsGoThrough(b: BodyData, id: string)
    requires id != "" && b.health.fitnessLevel != "" && b.health.sleepPattern != ""
    requires b.workHours != "" && b.availableTime != "" && b.lifeGoal.timeframe != ""
    requires b.finance.currency != "" && b.finance.riskTolerance != ""
    ensures var empty := b.(health := b.health.(medicalConditions := Some([]), allergies := Some([]), medications := Some([])),
                            busyDays := Some([]), preferredTimes := Some([]),
                            lifeGoal := b.lifeGoal.(shortTerm := Some([]), longTerm := Some([]), priorities := Some([])));
      Passed(empty, id, {}) == 4
  {
    var empty := b.(health := b.health.(medicalConditions := Some([]), allergies := Some([]), medications := Some([])),
                    busyDays := Some([]), preferredTimes := Some([]),
                    lifeGoal := b.lifeGoal.(shortTerm := Some([]), longTerm := Some([]), priorities := Some([])));
    assert SectionOk(empty, id, {}, 0) && SectionOk(empty, id, {}, 1);
    assert SectionOk(empty, id, {}, 2) && SectionOk(empty, id, {}, 3);
  }

  /**
   * DeleteUserData: 403 "cannot delete user data" when any step of the
   * delete fails, else 200 "success". The user's life goal, finance record,
   * health background and schedule are deleted in that order up to the
   * first failing step; every other table stays as it was.
   */
  method DeleteUserData(db: Database, faults: set<Op>, id: string) returns (res: Response<()>)
    modifies db
    ensures res == if UsersService.ScheduleStage(old(db.tables), id, faults) then Reply(200, "success")
                   else Reply(403, "cannot delete user data")
    ensures db.tables.users == old(db.tables).users && db.tables.prompts == old(db.tables).prompts
    ensures db.tables.plans == old(db.tables).plans && db.tables.chats == old(db.tables).chats
    ensures db.tables.lifeGoals == if UsersService.LifeGoalStage(old(db.tables), id, faults)
      then Drop(old(db.tables).lifeGoals, FindLifeGoalByUserID(old(db.tables), id, faults).value.id)
      else old(db.tables).lifeGoals
    ensures db.tables.finance == if UsersService.FinanceStage(old(db.tables), id, faults)
      then Drop(old(db.tables).finance, FindFinanceByUserID(old(db.tables), id, faults).value.id)
      else old(db.tables).finance
    ensures db.tables.health == if UsersService.HealthStage(old(db.tables), id, faults)
      then Drop(old(db.tables).health, FindHealthByUserID(old(db.tables), id, faults).value.id)
      else old(db.tables).health
    ensures db.tables.schedules == if UsersService.ScheduleStage(old(db.tables), id, faults)
      then Drop(old(db.tables).schedules, FindScheduleByUserID(old(db.tables), id, faults).value.id)
      else old(db.tables).schedules
  {
    var err := UsersService.DeleteAllData(db, faults, id);
    if err.Some? {
      return Reply(403, "cannot delete user data");
    }
    return Reply(200, "success");
  }
}

=== FILE: server_health.dfy ===
// The health-background service: the lookup by user id and the insert, both
// refusing an empty user id before the repository is called.

module HealthService {
  import opened Common
  import opened Store

  /** A health-background body as a request carries it. */
  datatype HealthBody = HealthBody(
    medicalConditions: List, allergies: List, medications: List, fitnessLevel: string, sleepPattern: string)

  /** What an insert request must carry: all three lists present (possibly empty), a fitness level and a sleep pattern. */
  predicate ValidHealth(b: HealthBody)
  {
    b.medicalConditions.Some? && b.allergies.Some? && b.medications.Some? && b.fitnessLevel != "" && b.sleepPattern != ""
  }

  /** Only a missing list is rejected; empty lists pass. */
  lemma EmptyListsAreValid(b: HealthBody)
    requires b.fitnessLevel != "" && b.sleepPattern != ""
    ensures ValidHealth(b.(medicalConditions := Some([]), allergies := Some([]), medications := Some([])))
    ensures !ValidHealth(b.(allergies := None))
  {
  }

  /** GetHealthByUserID: an empty user id is an error; otherwise the first of the user's rows. */
  function GetHealthByUserID(t: Tables, faults: set<Op>, userId: string): (r: Result<Row<Health>>)
    ensures userId == "" ==> r == Err(EmptyId)
    ensures r.Ok? <==> userId != "" && FindHealth !in faults && OwnedBy(t.health, userId) != []
    ensures r.Ok? ==> r.value.userId == userId && r.value in t.health
  {
    if userId == "" then Err(EmptyId) else FindHealthByUserID(t, userId, faults)
  }

  /** The row InsertHealth adds: owned by `userId`, both time stamps `now`. */
  function NewHealth(newId: string, userId: string, b: HealthBody, now: Instant): (r: Row<Health>)
    ensures r.id == newId && r.userId == userId && r.data.createdAt == now && r.data.updatedAt == now
    ensures r.data.medicalConditions == b.medicalConditions && r.data.allergies == b.allergies
    ensures r.data.medications == b.medications
    ensures r.data.fitnessLevel == b.fitnessLevel && r.data.sleepPattern == b.sleepPattern
  {
    Row(newId, userId, Health(b.medicalConditions, b.allergies, b.medications, b.fitnessLevel, b.sleepPattern, now, now))
  }

  /** InsertHealth: an empty user id is refused; otherwise the row is inserted under `userId`. */
  method InsertHealth(db: Database, faults: set<Op>, now: Instant, newId: string, b: HealthBody, userId: string)
    returns (err: Option<Error>)
    modifies db
    ensures userId == "" ==> err == Some(EmptyId) && db.tables == old(db.tables)
    ensures userId != "" && Op.InsertHealth in faults ==>
      err == Some(QueryFailed(Op.InsertHealth)) && db.tables == old(db.tables)
    ensures userId != "" && Op.InsertHealth !in faults ==>
      && err == None
      && db.tables == old(db.tables).(health := old(db.tables).health + [NewHealth(newId, userId, b, now)])
  {
    if userId == "" {
      return Some(EmptyId);
    }
    if Op.InsertHealth in faults {
      return Some(QueryFailed(Op.InsertHealth));
    }
    db.tables := db.tables.(health := db.tables.health + [NewHealth(newId, userId, b, now)]);
    return None;
  }

  /**
   * A user's first health background is what the lookup reads back; once
   * the user has one, a later insert does not change what the lookup reads.
   */
  lemma InsertThenGet(t: Tables, newId: string, userId: string, b: HealthBody, now: Instant)
    requires userId != ""
    ensures var after := t.(health := t.health + [NewHealth(newId, userId, b, now)]);
      GetHealthByUserID(after, {}, userId) ==
        if OwnedBy(t.health, userId) == [] then Ok(NewHealth(newId, userId, b, now))
        else GetHealthByUserID(t, {}, userId)
  {
    OwnedByAppend(t.health, NewHealth(newId, userId, b, now), userId);
  }
}

=== FILE: server_lifegoal.dfy ===
// The life-goal service: inserting a life goal under a user id, and the
// update that rewrites the goal lists and time frame of the row with a
// given id.

module ServerLifeGoalService {
  import opened Common
  import opened Store

  /** The life-goal fields a request carries; a list the JSON leaves out is nil. */
  datatype LifeGoalBody = LifeGoalBody(shortTerm: List, longTerm: List, priorities: List, timeframe: string)

  /** What a create request must carry: all three lists present (possibly empty) and a time frame. */
  predicate ValidLifeGoal(b: LifeGoalBody)
  {
    b.shortTerm.Some? && b.longTerm.Some? && b.priorities.Some? && b.timeframe != ""
  }

  /** Only a missing list is rejected; empty lists pass. */
  lemma EmptyListsAreValid(timeframe: string)
    ensures ValidLifeGoal(LifeGoalBody(Some([]), Some([]), Some([]), timeframe)) <==> timeframe != ""
    ensures !ValidLifeGoal(LifeGoalBody(None, Some([]), Some([]), timeframe))
  {
  }

  /** The row InsertLifeGoal adds: the body's fields, owned by `userId`, both time stamps `now`. */
  function NewLifeGoal(newId: string, userId: string, b: LifeGoalBody, now: Instant): (r: Row<LifeGoal>)
    ensures r.id == newId && r.userId == userId
    ensures r.data.shortTerm == b.shortTerm && r.data.longTerm == b.longTerm
    ensures r.data.priorities == b.priorities && r.data.timeframe == b.timeframe
    ensures r.data.createdAt == now && r.data.updatedAt == now
  {
    Row(newId, userId, LifeGoal(b.shortTerm, b.longTerm, b.priorities, b.timeframe, now, now))
  }

  /**
   * InsertLifeGoal: an empty user id is refused before the repository is
   * called; otherwise the new row is inserted, or the repository's error
   * returned.
   */
  method InsertLifeGoal(db: Database, faults: set<Op>, now: Instant, newId: string, b: LifeGoalBody, userId: string)
    returns (err: Option<Error>)
    modifies db
    ensures userId == "" ==> err == Some(EmptyId) && db.tables == old(db.tables)
    ensures userId != "" && Op.InsertLifeGoal in faults ==>
      err == Some(QueryFailed(Op.InsertLifeGoal)) && db.tables == old(db.tables)
    ensures userId != "" && Op.InsertLifeGoal !in faults ==>
      && err == None
      && db.tables == old(db.tables).(lifeGoals := old(db.tables).lifeGoals + [NewLifeGoal(newId, userId, b, now)])
  {
    if userId == "" {
      return Some(EmptyId);
    }
    var row := NewLifeGoal(newId, userId, b, now);
    if Op.InsertLifeGoal in faults {
      return Some(QueryFailed(Op.InsertLifeGoal));
    }
    db.tables := db.tables.(lifeGoals := db.tables.lifeGoals + [row]);
    return None;
  }

  /** A life goal rewritten by an update body: the lists and time frame replaced, UpdatedAt `now`, owner and CreatedAt kept. */
  function Rewrite(row: Row<LifeGoal>, b: LifeGoalBody, now: Instant): (r: Row<LifeGoal>)
    ensures r.id == row.id && r.userId == row.userId && r.data.createdAt == row.data.createdAt
    ensures r.data.shortTerm == b.shortTerm && r.data.longTerm == b.longTerm
    ensures r.data.priorities == b.priorities && r.data.timeframe == b.timeframe && r.data.updatedAt == now
  {
    row.(data := row.data.(shortTerm := b.shortTerm, longTerm := b.longTerm, priorities := b.priorities,
                           timeframe := b.timeframe, updatedAt := now))
  }

  /** The life-goal table after an update of row `id` with `b`. */
  function UpdatedGoals(rows: seq<Row<LifeGoal>>, id: string, b: LifeGoalBody, now: Instant): seq<Row<LifeGoal>>
  {
    PatchWithId(rows, id, row => Rewrite(row, b, now))
  }

  /** UpdateLifeGoal: the row with the path's id is rewritten, or the repository's error returned. */
  method UpdateLifeGoal(db: Database, faults: set<Op>, now: Instant, id: string, b: LifeGoalBody)
    returns (err: Option<Error>)
    modifies db
    ensures Op.UpdateLifeGoal in faults ==>
      err == Some(QueryFailed(Op.UpdateLifeGoal)) && db.tables == old(db.tables)
    ensures Op.UpdateLifeGoal !in faults ==>
      err == None && db.tables == old(db.tables).(lifeGoals := UpdatedGoals(old(db.tables).lifeGoals, id, b, now))
  {
    if Op.UpdateLifeGoal in faults {
      return Some(QueryFailed(Op.UpdateLifeGoal));
    }
    db.tables := db.tables.(lifeGoals := UpdatedGoals(db.tables.lifeGoals, id, b, now));
    return None;
  }

  /**
   * Updating a user's only life goal by its id is what the next lookup by
   * user id reads: the body's lists and time frame with the original
   * CreatedAt.
   */
  lemma UpdateReadsBack(t: Tables, uid: string, b: LifeGoalBody, now: Instant)
    requires |OwnedBy(t.lifeGoals, uid)| == 1
    ensures var goal := OwnedBy(t.lifeGoals, uid)[0];
      FindLifeGoalByUserID(t.(lifeGoals := UpdatedGoals(t.lifeGoals, goal.id, b, now)), uid, {}) == Ok(Rewrite(goal, b, now))
  {
    var goal := OwnedBy(t.lifeGoals, uid)[0];
    var f := row => Rewrite(row, b, now);
    assert UpdatedGoals(t.lifeGoals, goal.id, b, now) == PatchWithId(t.lifeGoals, goal.id, f);
    OwnedByPatch(t.lifeGoals, goal.id, f, uid);
    assert OwnedBy(t.lifeGoals, uid) == [goal];
  }
}

=== FILE: server_responses.dfy ===
// What a gateway handler answers: a status and a JSON object with a message
// and, on some successes, a data part; and how the client sees that answer.

module Responses {
  import opened Common
  import Http

  datatype Response<T> = Response(status: int, message: string, data: Option<T>)

  /** An answer without a data part. */
  function Reply<T>(status: int, message: string): (r: Response<T>)
    ensures r.status == status && r.message == message && r.data.None?
  {
    Response(status, message, None)
  }

  /**
   * The answer as the client's fetch receives it; `data` is what the client
   * decodes from the data part. The client sees `response.ok` exactly for a
   * 2xx handler status, its message rule recovers the handler's message
   * whenever that is non-empty, and it decodes the data it was given.
   */
  function AsReceived<T, D>(r: Response<T>, statusText: string, data: D): (t: Http.Transport<D>)
    ensures t.Received? && t.reply.status == r.status && t.reply.jsonContentType
    ensures Http.IsOk(t.reply) <==> 200 <= r.status <= 299
    ensures forall fallback :: Http.MessageOr(t.reply.body, fallback) == if r.message == "" then fallback else r.message
    ensures t.reply.body.JsonBody? && t.reply.body.data == data
  {
    Http.Received(Http.Reply(r.status, statusText, true, Http.JsonBody(Some(r.message), data)))
  }
}

=== FILE: server_schedule.dfy ===
// The schedule service: creating a schedule under a user id, and the update
// that writes a whole schedule body over the row with a given id.

module ScheduleService {
  import opened Common
  import opened Store

  /** A schedule body as a request carries it, with the user id and creation time it names. */
  datatype ScheduleBody = ScheduleBody(
    userId: string, workHours: string, availableTime: string, busyDays: List, preferredTimes: List,
    createdAt: Instant)

  /** What a create request must carry: work hours and available time, and both lists present (possibly empty). */
  predicate ValidSchedule(b: ScheduleBody)
  {
    b.workHours != "" && b.preferredTimes.Some? && b.availableTime != "" && b.busyDays.Some?
  }

  /** Only a missing list is rejected; empty lists pass. */
  lemma EmptyListsAreValid(b: ScheduleBody)
    requires b.workHours != "" && b.availableTime != ""
    ensures ValidSchedule(b.(busyDays := Some([]), preferredTimes := Some([])))
    ensures !ValidSchedule(b.(busyDays := None)) && !ValidSchedule(b.(preferredTimes := None))
  {
  }

  /** The row CreateSchedule adds: owned by the path's user id whatever the body says, both time stamps `now`. */
  function NewSchedule(newId: string, id: string, b: ScheduleBody, now: Instant): (r: Row<Schedule>)
    ensures r.id == newId && r.userId == id
    ensures r.data.workHours == b.workHours && r.data.availableTime == b.availableTime
    ensures r.data.busyDays == b.busyDays && r.data.preferredTimes == b.preferredTimes
    ensures r.data.createdAt == now && r.data.updatedAt == now
  {
    Row(newId, id, Schedule(b.workHours, b.availableTime, b.busyDays, b.preferredTimes, now, now))
  }

  /** CreateSchedule: the body's user id is replaced by `id`; an empty `id` is refused. */
  method CreateSchedule(db: Database, faults: set<Op>, now: Instant, newId: string, id: string, b: ScheduleBody)
    returns (err: Option<Error>)
    modifies db
    ensures id == "" ==> err == Some(EmptyId) && db.tables == old(db.tables)
    ensures id != "" && InsertSchedule in faults ==>
      err == Some(QueryFailed(InsertSchedule)) && db.tables == old(db.tables)
    ensures id != "" && InsertSchedule !in faults ==>
      && err == None
      && db.tables == old(db.tables).(schedules := old(db.tables).schedules + [NewSchedule(newId, id, b, now)])
  {
    var body := b.(userId := id);
    if body.userId == "" {
      return Some(EmptyId);
    }
    if InsertSchedule in faults {
      return Some(QueryFailed(InsertSchedule));
    }
    db.tables := db.tables.(schedules := db.tables.schedules + [NewSchedule(newId, body.userId, body, now)]);
    return None;
  }

  /**
   * A row after an update: the whole body is written over it, including its
   * user id and CreatedAt, and UpdatedAt is `now`; only the row's id stays.
   */
  function Overwrite(row: Row<Schedule>, b: ScheduleBody, now: Instant): (r: Row<Schedule>)
    ensures r.id == row.id && r.userId == b.userId && r.data.createdAt == b.createdAt && r.data.updatedAt == now
    ensures r.data.workHours == b.workHours && r.data.availableTime == b.availableTime
    ensures r.data.busyDays == b.busyDays && r.data.preferredTimes == b.preferredTimes
  {
    Row(row.id, b.userId, Schedule(b.workHours, b.availableTime, b.busyDays, b.preferredTimes, b.createdAt, now))
  }

  function UpdatedSchedules(rows: seq<Row<Schedule>>, id: string, b: ScheduleBody, now: Instant): seq<Row<Schedule>>
  {
    PatchWithId(rows, id, row => Overwrite(row, b, now))
  }

  /** UpdateSchedule: an empty schedule id or an empty body user id is refused; otherwise row `id` is overwritten. */
  method UpdateSchedule(db: Database, faults: set<Op>, now: Instant, id: string, b: ScheduleBody)
    returns (err: Option<Error>)
    modifies db
    ensures (id == "" || b.userId == "") ==> err == Some(EmptyId) && db.tables == old(db.tables)
    ensures id != "" && b.userId != "" && Op.UpdateSchedule in faults ==>
      err == Some(QueryFailed(Op.UpdateSchedule)) && db.tables == old(db.tables)
    ensures id != "" && b.userId != "" && Op.UpdateSchedule !in faults ==>
      err == None && db.tables == old(db.tables).(schedules := UpdatedSchedules(old(db.tables).schedules, id, b, now))
  {
    if id == "" {
      return Some(EmptyId);
    }
    if b.userId == "" {
      return Some(EmptyId);
    }
    if Op.UpdateSchedule in faults {
      return Some(QueryFailed(Op.UpdateSchedule));
    }
    db.tables := db.tables.(schedules := UpdatedSchedules(db.tables.schedules, id, b, now));
    return None;
  }

  /**
   * Because the body's user id is written as given, an update can hand a
   * schedule to another user: the schedule with id `id` is then no longer
   * among its former owner's rows, and a body without CreatedAt resets it
   * to the zero time.
   */
  lemma UpdateCanMoveSchedule(rows: seq<Row<Schedule>>, i: nat, b: ScheduleBody, now: Instant)
    requires i < |rows| && b.userId != rows[i].userId
    ensures var after := UpdatedSchedules(rows, rows[i].id, b, now);
      && after[i].userId == b.userId
      && after[i] !in OwnedBy(after, rows[i].userId)
      && (b.createdAt == 0 ==> after[i].data.createdAt == 0)
  {
    var after := UpdatedSchedules(rows, rows[i].id, b, now);
    assert after[i] == Overwrite(rows[i], b, now);
  }
}

=== FILE: server_store.dfy ===
// The server's view of its Supabase tables: the rows each table holds, the
// lookups the repositories perform on them, and the repository calls that
// can fail. A request is one atomic step; which repository calls fail during
// it is given as a set of operations.

module Store {
  import opened Common

  /** A Go slice that may be nil (sent as JSON null) or a list of strings. */
  type List = Option<seq<string>>

  /** A table row: the database's own id, the owning user's id and the entity's fields. */
  datatype Row<D> = Row(id: string, userId: string, data: D)

  /** Time stamps are instants; 0 is Go's zero time. */
  type Instant = nat

  datatype Profile = Profile(
    fullName: string, age: int, weight: int, height: int, gender: string,
    createdAt: Instant, updatedAt: Instant)

  datatype LifeGoal = LifeGoal(
    shortTerm: List, longTerm: List, priorities: List, timeframe: string,
    createdAt: Instant, updatedAt: Instant)

  datatype Health = Health(
    medicalConditions: List, allergies: List, medications: List,
    fitnessLevel: string, sleepPattern: string, createdAt: Instant, updatedAt: Instant)

  datatype Finance = Finance(
    currency: string, income: real, expenses: real, savingsGoal: real, riskTolerance: string,
    createdAt: Instant, updatedAt: Instant)

  datatype Schedule = Schedule(
    workHours: string, availableTime: string, busyDays: List, preferredTimes: List,
    createdAt: Instant, updatedAt: Instant)

  /** A stored prompt and the ids of the four records it was built from; the text is opaque. */
  datatype Prompt = Prompt(
    text: string, lifeGoalId: string, financeId: string, healthId: string, scheduleId: string,
    createdAt: Instant)

  /** A generated plan, linked to its prompt and to the prompt's four records. */
  datatype Plan = Plan(
    generatedPlan: string, promptId: string, lifeGoalId: string, financeId: string,
    healthId: string, scheduleId: string, createdAt: Instant)

  datatype Chat = Chat(message: string, sender: string, createdAt: Instant)

  datatype Tables = Tables(
    users: seq<Row<Profile>>, lifeGoals: seq<Row<LifeGoal>>, health: seq<Row<Health>>,
    finance: seq<Row<Finance>>, schedules: seq<Row<Schedule>>, prompts: seq<Row<Prompt>>,
    plans: seq<Row<Plan>>, chats: seq<Row<Chat>>)

  /** The repository calls a request makes; a chat insert is told apart by the sender of its row. */
  datatype Op =
    | FindUser | InsertUser | UpdateUser
    | FindLifeGoal | InsertLifeGoal | UpdateLifeGoal | DeleteLifeGoal
    | FindHealth | InsertHealth | DeleteHealth
    | FindFinance | InsertFinance | DeleteFinance
    | FindSchedule | FindScheduleById | InsertSchedule | UpdateSchedule | DeleteSchedule
    | FindPrompt | InsertPrompt | DeletePrompt
    | FindPlan | InsertPlan | DeletePlan
    | InsertChat(sender: string) | FindChats
    | Generate

  /** Why a call failed: a failing query, a lookup that found no row or several, or a guard. */
  datatype Error = QueryFailed(op: Op) | NotFound | MultipleRows | EmptyId | EmptyPrompt

  datatype Result<T> = Ok(value: T) | Err(error: Error)

  /** The rows of `rows` owned by `uid` (a `user_id=eq.` query), in table order. */
  function OwnedBy<D>(rows: seq<Row<D>>, uid: string): (r: seq<Row<D>>)
    ensures |r| <= |rows|
    ensures forall i :: 0 <= i < |r| ==> r[i] in rows && r[i].userId == uid
    ensures forall i :: 0 <= i < |rows| && rows[i].userId == uid ==> rows[i] in r
  {
    if rows == [] then []
    else if rows[0].userId == uid then [rows[0]] + OwnedBy(rows[1..], uid)
    else OwnedBy(rows[1..], uid)
  }

  /** The rows of `rows` whose id is `id` (an `id=eq.` query), in table order. */
  function WithId<D>(rows: seq<Row<D>>, id: string): (r: seq<Row<D>>)
    ensures |r| <= |rows|
    ensures forall i :: 0 <= i < |r| ==> r[i] in rows && r[i].id == id
    ensures forall i :: 0 <= i < |rows| && rows[i].id == id ==> rows[i] in r
  {
    if rows == [] then []
    else if rows[0].id == id then [rows[0]] + WithId(rows[1..], id)
    else WithId(rows[1..], id)
  }

  /** `rows` after a delete of id `id`: the other rows, in order. */
  function Drop<D>(rows: seq<Row<D>>, id: string): (r: seq<Row<D>>)
    ensures |r| <= |rows|
    ensures forall i :: 0 <= i < |r| ==> r[i] in rows && r[i].id != id
    ensures forall i :: 0 <= i < |rows| && rows[i].id != id ==> rows[i] in r
  {
    if rows == [] then []
    else if rows[0].id == id then Drop(rows[1..], id)
    else [rows[0]] + Drop(rows[1..], id)
  }

  /** The rows a delete removes and the rows it keeps add up to the table. */
  lemma {:induction false} DropPartitions<D>(rows: seq<Row<D>>, id: string)
    ensures |Drop(rows, id)| + |WithId(rows, id)| == |rows|
  {
    if rows != [] {
      DropPartitions(rows[1..], id);
    }
  }

  /** Deleting by id and then selecting a user's rows is selecting first and deleting after. */
  lemma {:induction false} OwnedByDrop<D>(rows: seq<Row<D>>, uid: string, id: string)
    ensures OwnedBy(Drop(rows, id), uid) == Drop(OwnedBy(rows, uid), id)
  {
    if rows != [] {
      OwnedByDrop(rows[1..], uid, id);
      if rows[0].id != id && rows[0].userId == uid {
        assert ([rows[0]] + Drop(rows[1..], id))[1..] == Drop(rows[1..], id);
        assert ([rows[0]] + OwnedBy(rows[1..], uid))[1..] == OwnedBy(rows[1..], uid);
      } else if rows[0].id != id {
        assert ([rows[0]] + Drop(rows[1..], id))[1..] == Drop(rows[1..], id);
      } else if rows[0].userId == uid {
        assert ([rows[0]] + OwnedBy(rows[1..], uid))[1..] == OwnedBy(rows[1..], uid);
      }
    }
  }

  /** An inserted row owned by `uid` comes last among the user's rows. */
  lemma {:induction false} OwnedByAppend<D>(rows: seq<Row<D>>, row: Row<D>, uid: string)
    ensures OwnedBy(rows + [row], uid) == OwnedBy(rows, uid) + (if row.userId == uid then [row] else [])
  {
    if rows == [] {
      assert rows + [row] == [row];
    } else {
      assert (rows + [row])[1..] == rows[1..] + [row];
      OwnedByAppend(rows[1..], row, uid);
    }
  }

  /** `rows` after a PATCH with `id=eq.`: every row with that id rewritten by `f`, the others kept. */
  function PatchWithId<D>(rows: seq<Row<D>>, id: string, f: Row<D> -> Row<D>): (r: seq<Row<D>>)
    ensures |r| == |rows|
    ensures forall i :: 0 <= i < |rows| ==> r[i] == if rows[i].id == id then f(rows[i]) else rows[i]
  {
    seq(|rows|, i requires 0 <= i < |rows| => if rows[i].id == id then f(rows[i]) else rows[i])
  }

  /** Patching a concatenation patches each part. */
  lemma PatchConcat<D>(a: seq<Row<D>>, b: seq<Row<D>>, id: string, f: Row<D> -> Row<D>)
    ensures PatchWithId(a + b, id, f) == PatchWithId(a, id, f) + PatchWithId(b, id, f)
  {
    var l := PatchWithId(a + b, id, f);
    var r := PatchWithId(a, id, f) + PatchWithId(b, id, f);
    forall i | 0 <= i < |l| ensures l[i] == r[i] {
      if i < |a| {
        assert (a + b)[i] == a[i];
      } else {
        assert (a + b)[i] == b[i - |a|];
      }
    }
  }

  /**
   * A patch that keeps every row's owner commutes with selecting a user's
   * rows: the user's rows after the patch are the user's rows, patched.
   */
  lemma {:induction false} OwnedByPatch<D>(rows: seq<Row<D>>, id: string, f: Row<D> -> Row<D>, uid: string)
    requires forall x :: f(x).userId == x.userId
    ensures OwnedBy(PatchWithId(rows, id, f), uid) == PatchWithId(OwnedBy(rows, uid), id, f)
  {
    if rows != [] {
      var p := PatchWithId(rows, id, f);
      var rest := OwnedBy(rows[1..], uid);
      assert p[1..] == PatchWithId(rows[1..], id, f);
      assert p[0].userId == rows[0].userId;
      OwnedByPatch(rows[1..], id, f, uid);
      if rows[0].userId == uid {
        calc {
          OwnedBy(p, uid);
          [p[0]] + OwnedBy(p[1..], uid);
          [p[0]] + PatchWithId(rest, id, f);
          { assert PatchWithId([rows[0]], id, f) == [p[0]]; }
          PatchWithId([rows[0]], id, f) + PatchWithId(rest, id, f);
          { PatchConcat([rows[0]], rest, id, f); }
          PatchWithId([rows[0]] + rest, id, f);
        }
      } else {
        assert OwnedBy(p, uid) == OwnedBy(p[1..], uid);
      }
    }
  }

  /** A lookup that wants exactly one row (users, life goals). */
  function ExactlyOne<D>(rows: seq<Row<D>>, op: Op, faults: set<Op>): (r: Result<Row<D>>)
    ensures r.Ok? <==> op !in faults && |rows| == 1
    ensures r.Ok? ==> r.value == rows[0]
    ensures op !in faults && |rows| == 0 ==> r == Err(NotFound)
    ensures op !in faults && |rows| > 1 ==> r == Err(MultipleRows)
  {
    if op in faults then Err(QueryFailed(op))
    else if |rows| == 0 then Err(NotFound)
    else if |rows| > 1 then Err(MultipleRows)
    else Ok(rows[0])
  }

  /** A lookup that takes the first of any number of rows (health, finance, schedules, plans). */
  function FirstOf<D>(rows: seq<Row<D>>, op: Op, faults: set<Op>): (r: Result<Row<D>>)
    ensures r.Ok? <==> op !in faults && |rows| >= 1
    ensures r.Ok? ==> r.value == rows[0]
    ensures op !in faults && rows == [] ==> r == Err(NotFound)
  {
    if op in faults then Err(QueryFailed(op))
    else if rows == [] then Err(NotFound)
    else Ok(rows[0])
  }

  function FindUserByID(t: Tables, uid: string, faults: set<Op>): Result<Row<Profile>>
  {
    ExactlyOne(OwnedBy(t.users, uid), FindUser, faults)
  }

  function FindLifeGoalByUserID(t: Tables, uid: string, faults: set<Op>): Result<Row<LifeGoal>>
  {
    ExactlyOne(OwnedBy(t.lifeGoals, uid), FindLifeGoal, faults)
  }

  function FindHealthByUserID(t: Tables, uid: string, faults: set<Op>): Result<Row<Health>>
  {
    FirstOf(OwnedBy(t.health, uid), FindHealth, faults)
  }

  function FindFinanceByUserID(t: Tables, uid: string, faults: set<Op>): Result<Row<Finance>>
  {
    FirstOf(OwnedBy(t.finance, uid), FindFinance, faults)
  }

  function FindScheduleByUserID(t: Tables, uid: string, faults: set<Op>): Result<Row<Schedule>>
  {
    FirstOf(OwnedBy(t.schedules, uid), FindSchedule, faults)
  }

  function FindScheduleByID(t: Tables, id: string, faults: set<Op>): Result<Row<Schedule>>
  {
    FirstOf(WithId(t.schedules, id), FindScheduleById, faults)
  }

  function FindPlanByID(t: Tables, id: string, faults: set<Op>): Result<Row<Plan>>
  {
    FirstOf(WithId(t.plans, id), FindPlan, faults)
  }

  /** The database all repositories share. */
  class Database {
    var tables: Tables

    constructor(initial: Tables)
      ensures tables == initial
    {
      tables := initial;
    }
  }
}

=== FILE: server_users.dfy ===
// The users service: creating a profile under the path's user id, the
// partial update that fills the fields a patch leaves at their zero value
// from the stored profile, and the delete of everything a user entered
// except the profile itself.

module UsersService {
  import opened Common
  import opened Store

  /** A profile body as the create endpoint parses it. */
  datatype UserBody = UserBody(userId: string, profile: Profile)

  /**
   * InsertNewUser: the body's user id is replaced by `id` and both time
   * stamps by `now`; `newId` is the id the database gives the row.
   */
  method InsertNewUser(db: Database, faults: set<Op>, now: Instant, newId: string, id: string, body: UserBody)
    returns (err: Option<Error>)
    modifies db
    ensures InsertUser in faults ==> err == Some(QueryFailed(InsertUser)) && db.tables == old(db.tables)
    ensures InsertUser !in faults ==>
      && err == None
      && db.tables == old(db.tables).(users := old(db.tables).users +
           [Row(newId, id, body.profile.(createdAt := now, updatedAt := now))])
  {
    if InsertUser in faults {
      return Some(QueryFailed(InsertUser));
    }
    var row := Row(newId, id, body.profile.(createdAt := now, updatedAt := now));
    db.tables := db.tables.(users := db.tables.users + [row]);
    return None;
  }

  /**
   * The profile UpdateUser writes: every field the patch leaves at its zero
   * value (empty id or text, 0, zero time) comes from the stored row, every
   * other field from the patch, and UpdatedAt is `now`.
   */
  function Merge(patch: Row<Profile>, stored: Row<Profile>, now: Instant): (m: Row<Profile>)
    ensures m.userId == patch.userId && m.data.updatedAt == now
    ensures m.id == (if patch.id == "" then stored.id else patch.id)
    ensures m.data.createdAt == (if patch.data.createdAt == 0 then stored.data.createdAt else patch.data.createdAt)
    ensures m.data.age == (if patch.data.age == 0 then stored.data.age else patch.data.age)
    ensures m.data.weight == (if patch.data.weight == 0 then stored.data.weight else patch.data.weight)
    ensures m.data.height == (if patch.data.height == 0 then stored.data.height else patch.data.height)
    ensures m.data.fullName == (if patch.data.fullName == "" then stored.data.fullName else patch.data.fullName)
    ensures m.data.gender == (if patch.data.gender == "" then stored.data.gender else patch.data.gender)
  {
    var p := patch.data;
    var s := stored.data;
    Row(if patch.id == "" then stored.id else patch.id,
        patch.userId,
        Profile(
          if p.fullName == "" then s.fullName else p.fullName,
          if p.age == 0 then s.age else p.age,
          if p.weight == 0 then s.weight else p.weight,
          if p.height == 0 then s.height else p.height,
          if p.gender == "" then s.gender else p.gender,
          if p.createdAt == 0 then s.createdAt else p.createdAt,
          now))
  }

  /** A patch whose every field is at its zero value. */
  predicate IsZeroPatch(patch: Row<Profile>)
  {
    && patch.id == "" && patch.data.fullName == "" && patch.data.age == 0 && patch.data.weight == 0
    && patch.data.height == 0 && patch.data.gender == "" && patch.data.createdAt == 0
  }

  /** An all-zero patch writes the stored profile back, with only UpdatedAt changed. */
  lemma ZeroPatchKeepsStored(patch: Row<Profile>, stored: Row<Profile>, now: Instant)
    requires IsZeroPatch(patch) && patch.userId == stored.userId
    ensures Merge(patch, stored, now) == stored.(data := stored.data.(updatedAt := now))
  {
  }

  /** Merging is idempotent: applying the merged row as a patch to the same stored row gives it back. */
  lemma MergeIdempotent(patch: Row<Profile>, stored: Row<Profile>, now: Instant)
    ensures Merge(Merge(patch, stored, now), stored, now) == Merge(patch, stored, now)
  {
  }

  /** A field the stored profile has filled in is never cleared by a merge. */
  lemma MergeNeverClears(patch: Row<Profile>, stored: Row<Profile>, now: Instant)
    ensures var m := Merge(patch, stored, now);
      && (stored.data.fullName != "" ==> m.data.fullName != "")
      && (stored.data.gender != "" ==> m.data.gender != "")
      && (stored.data.age != 0 ==> m.data.age != 0)
      && (stored.data.weight != 0 ==> m.data.weight != 0)
      && (stored.data.height != 0 ==> m.data.height != 0)
      && (stored.id != "" ==> m.id != "")
  {
  }

  /** The rows of `rows` owned by `uid` replaced by `row` (a `user_id=eq.` PATCH). */
  function PatchOwned<D>(rows: seq<Row<D>>, uid: string, row: Row<D>): (r: seq<Row<D>>)
    ensures |r| == |rows|
    ensures forall i :: 0 <= i < |rows| ==> r[i] == (if rows[i].userId == uid then row else rows[i])
  {
    seq(|rows|, i requires 0 <= i < |rows| => if rows[i].userId == uid then row else rows[i])
  }

  /**
   * UpdateUser: a failed lookup of the stored profile returns its error and
   * writes nothing; otherwise the merged profile replaces the user's row.
   */
  method UpdateUser(db: Database, faults: set<Op>, now: Instant, patch: Row<Profile>) returns (err: Option<Error>)
    modifies db
    ensures FindUserByID(old(db.tables), patch.userId, faults).Err? ==>
      err == Some(FindUserByID(old(db.tables), patch.userId, faults).error) && db.tables == old(db.tables)
    ensures FindUserByID(old(db.tables), patch.userId, faults).Ok? && Op.UpdateUser in faults ==>
      err == Some(QueryFailed(Op.UpdateUser)) && db.tables == old(db.tables)
    ensures FindUserByID(old(db.tables), patch.userId, faults).Ok? && Op.UpdateUser !in faults ==>
      && err == None
      && db.tables == old(db.tables).(users := PatchOwned(old(db.tables).users, patch.userId,
           Merge(patch, FindUserByID(old(db.tables), patch.userId, faults).value, now)))
  {
    var found := FindUserByID(db.tables, patch.userId, faults);
    if found.Err? {
      return Some(found.error);
    }
    var merged := Merge(patch, found.value, now);
    if Op.UpdateUser in faults {
      return Some(QueryFailed(Op.UpdateUser));
    }
    db.tables := db.tables.(users := PatchOwned(db.tables.users, patch.userId, merged));
    return None;
  }

  // The stages of DeleteAllData. Each stage is a lookup by user id and a
  // delete by the found row's id; a stage runs only when every earlier one
  // succeeded. The tables a later stage reads are untouched by earlier ones,
  // so each lookup can be stated on the tables as they were before.

  predicate LifeGoalStage(t: Tables, uid: string, faults: set<Op>)
  {
    FindLifeGoalByUserID(t, uid, faults).Ok? && DeleteLifeGoal !in faults
  }

  predicate FinanceStage(t: Tables, uid: string, faults: set<Op>)
  {
    LifeGoalStage(t, uid, faults) && FindFinanceByUserID(t, uid, faults).Ok? && DeleteFinance !in faults
  }

  predicate HealthStage(t: Tables, uid: string, faults: set<Op>)
  {
    FinanceStage(t, uid, faults) && FindHealthByUserID(t, uid, faults).Ok? && DeleteHealth !in faults
  }

  predicate ScheduleStage(t: Tables, uid: string, faults: set<Op>)
  {
    HealthStage(t, uid, faults) && FindScheduleByUserID(t, uid, faults).Ok? && DeleteSchedule !in faults
  }

  /**
   * DeleteAllData: deletes the user's life goal, then finance record, then
   * health background, then schedule. The first failure is returned; the
   * deletes done before it stay done. Profile, prompts, plans and chats are
   * never touched.
   */
  method DeleteAllData(db: Database, faults: set<Op>, uid: string) returns (err: Option<Error>)
    modifies db
    ensures err.None? <==> ScheduleStage(old(db.tables), uid, faults)
    ensures db.tables.users == old(db.tables).users && db.tables.prompts == old(db.tables).prompts
    ensures db.tables.plans == old(db.tables).plans && db.tables.chats == old(db.tables).chats
    ensures db.tables.lifeGoals == if LifeGoalStage(old(db.tables), uid, faults)
      then Drop(old(db.tables).lifeGoals, FindLifeGoalByUserID(old(db.tables), uid, faults).value.id)
      else old(db.tables).lifeGoals
    ensures db.tables.finance == if FinanceStage(old(db.tables), uid, faults)
      then Drop(old(db.tables).finance, FindFinanceByUserID(old(db.tables), uid, faults).value.id)
      else old(db.tables).finance
    ensures db.tables.health == if HealthStage(old(db.tables), uid, faults)
      then Drop(old(db.tables).health, FindHealthByUserID(old(db.tables), uid, faults).value.id)
      else old(db.tables).health
    ensures db.tables.schedules == if ScheduleStage(old(db.tables), uid, faults)
      then Drop(old(db.tables).schedules, FindScheduleByUserID(old(db.tables), uid, faults).value.id)
      else old(db.tables).schedules
    ensures !LifeGoalStage(old(db.tables), uid, faults) ==> db.tables == old(db.tables)
  {
    var lifeGoal := FindLifeGoalByUserID(db.tables, uid, faults);
    if lifeGoal.Err? {
      return Some(lifeGoal.error);
    }
    if DeleteLifeGoal in faults {
      return Some(QueryFailed(DeleteLifeGoal));
    }
    db.tables := db.tables.(lifeGoals := Drop(db.tables.lifeGoals, lifeGoal.value.id));

    var finance := FindFinanceByUserID(db.tables, uid, faults);
    if finance.Err? {
      return Some(finance.error);
    }
    if DeleteFinance in faults {
      return Some(QueryFailed(DeleteFinance));
    }
    db.tables := db.tables.(finance := Drop(db.tables.finance, finance.value.id));

    var health := FindHealthByUserID(db.tables, uid, faults);
    if health.Err? {
      return Some(health.error);
    }
    if DeleteHealth in faults {
      return Some(QueryFailed(DeleteHealth));
    }
    db.tables := db.tables.(health := Drop(db.tables.health, health.value.id));

    var schedule := FindScheduleByUserID(db.tables, uid, faults);
    if schedule.Err? {
      return Some(schedule.error);
    }
    if DeleteSchedule in faults {
      return Some(QueryFailed(DeleteSchedule));
    }
    db.tables := db.tables.(schedules := Drop(db.tables.schedules, schedule.value.id));
    return None;
  }

  /** With no failing query, a user with exactly one life goal and at least one row in each other table ends with no life goal. */
  lemma CleanDeleteRemovesLifeGoal(t: Tables, uid: string)
    requires |OwnedBy(t.lifeGoals, uid)| == 1
    requires |OwnedBy(t.finance, uid)| >= 1 && |OwnedBy(t.health, uid)| >= 1 && |OwnedBy(t.schedules, uid)| >= 1
    ensures ScheduleStage(t, uid, {})
    ensures OwnedBy(Drop(t.lifeGoals, FindLifeGoalByUserID(t, uid, {}).value.id), uid) == []
  {
    var only := OwnedBy(t.lifeGoals, uid)[0];
    OwnedByDrop(t.lifeGoals, uid, only.id);
    assert OwnedBy(t.lifeGoals, uid) == [only];
  }
}

=== FILE: use_goals.dfy ===
// The goals hook: an in-memory goal list with add (which goes through a
// loading phase), update by id with a partial record, and delete by id.

module UseGoals {
  import opened Common

  datatype GoalCategory = ProductivityGoal | HealthGoal | CareerGoal | PersonalGoal | FinanceGoal
  datatype Priority = Low | Medium | High

  /** The plan generateMockPlan(title, category) looks up; its contents are not modelled. */
  datatype Plan = MockPlan(title: string, category: GoalCategory)

  datatype Goal = Goal(id: string, title: string, description: string, category: GoalCategory, priority: Priority, plan: Option<Plan>)

  /** A Partial<Goal>: the fields present in the update. */
  datatype GoalPatch = GoalPatch(
    id: Option<string>, title: Option<string>, description: Option<string>,
    category: Option<GoalCategory>, priority: Option<Priority>, plan: Option<Option<Plan>>)

  /** `{ ...goal, ...updates }`: each field present in the patch wins. */
  function Patched(g: Goal, p: GoalPatch): (r: Goal)
    ensures r.id == (if p.id.Some? then p.id.value else g.id)
    ensures r.title == (if p.title.Some? then p.title.value else g.title)
    ensures r.description == (if p.description.Some? then p.description.value else g.description)
    ensures r.category == (if p.category.Some? then p.category.value else g.category)
    ensures r.priority == (if p.priority.Some? then p.priority.value else g.priority)
    ensures r.plan == (if p.plan.Some? then p.plan.value else g.plan)
  {
    Goal(
      if p.id.Some? then p.id.value else g.id,
      if p.title.Some? then p.title.value else g.title,
      if p.description.Some? then p.description.value else g.description,
      if p.category.Some? then p.category.value else g.category,
      if p.priority.Some? then p.priority.value else g.priority,
      if p.plan.Some? then p.plan.value else g.plan)
  }

  /** updateGoal's map. */
  function Updated(goals: seq<Goal>, id: string, p: GoalPatch): (r: seq<Goal>)
    ensures |r| == |goals|
    ensures forall i :: 0 <= i < |goals| ==> r[i] == if goals[i].id == id then Patched(goals[i], p) else goals[i]
  {
    seq(|goals|, i requires 0 <= i < |goals| => if goals[i].id == id then Patched(goals[i], p) else goals[i])
  }

  /** Updating an id no goal has is the identity. */
  lemma UpdateAbsentIsIdentity(goals: seq<Goal>, id: string, p: GoalPatch)
    requires forall i :: 0 <= i < |goals| ==> goals[i].id != id
    ensures Updated(goals, id, p) == goals
  {
  }

  /**
   * Applying the same update again changes nothing, as long as the patch
   * keeps the goal's id (an id change would move the goal out of reach).
   */
  lemma UpdateIdempotent(goals: seq<Goal>, id: string, p: GoalPatch)
    requires p.id.None? || p.id == Some(id)
    ensures Updated(Updated(goals, id, p), id, p) == Updated(goals, id, p)
  {
    var once := Updated(goals, id, p);
    forall i | 0 <= i < |goals|
      ensures Updated(once, id, p)[i] == once[i]
    {
      if goals[i].id == id {
        assert once[i].id == id;
      }
    }
  }

  /** deleteGoal's filter. */
  function Removed(goals: seq<Goal>, id: string): (r: seq<Goal>)
    ensures |r| <= |goals|
    ensures forall g :: g in r <==> g in goals && g.id != id
  {
    if goals == [] then []
    else if goals[0].id == id then Removed(goals[1..], id)
    else [goals[0]] + Removed(goals[1..], id)
  }

  /** The filter keeps the order of what it keeps: it works piecewise over a concatenation. */
  lemma {:induction false} RemovedDistributes(a: seq<Goal>, b: seq<Goal>, id: string)
    ensures Removed(a + b, id) == Removed(a, id) + Removed(b, id)
  {
    if a != [] {
      assert (a + b)[0] == a[0];
      assert (a + b)[1..] == a[1..] + b;
      RemovedDistributes(a[1..], b, id);
    } else {
      assert a + b == b;
    }
  }

  /** A list without the id is left as it is, so deleting twice is deleting once. */
  lemma {:induction false} RemovedIdempotent(goals: seq<Goal>, id: string)
    ensures Removed(goals, id) == goals <==> forall i :: 0 <= i < |goals| ==> goals[i].id != id
    ensures Removed(Removed(goals, id), id) == Removed(goals, id)
  {
    if goals != [] {
      RemovedIdempotent(goals[1..], id);
      if goals[0].id == id {
        assert goals[0] in goals;
        assert goals[0] !in Removed(goals, id);
      } else {
        if Removed(goals, id) == goals {
          assert Removed(goals[1..], id) == goals[1..];
        }
      }
    }
  }

  class GoalsHook {
    var goals: seq<Goal>
    var loading: bool

    constructor()
      ensures goals == [] && !loading
    {
      goals := [];
      loading := false;
    }

    /** addGoal up to its simulated delay: loading. */
    method BeginAddGoal()
      modifies this
      ensures loading && goals == old(goals)
    {
      loading := true;
    }

    /** addGoal after the delay: one new medium-priority goal with its mock plan goes at the end; loading ends. */
    method FinishAddGoal(now: nat, title: string, description: string, category: GoalCategory) returns (newGoal: Goal)
      modifies this
      ensures newGoal == Goal(NatToString(now), title, description, category, Medium, Some(MockPlan(title, category)))
      ensures goals == old(goals) + [newGoal]
      ensures !loading
    {
      newGoal := Goal(NatToString(now), title, description, category, Medium, Some(MockPlan(title, category)));
      goals := goals + [newGoal];
      loading := false;
    }

    method UpdateGoal(id: string, p: GoalPatch)
      modifies this
      ensures goals == Updated(old(goals), id, p) && loading == old(loading)
    {
      goals := Updated(goals, id, p);
    }

    method DeleteGoal(id: string)
      modifies this
      ensures goals == Removed(old(goals), id) && loading == old(loading)
    {
      goals := Removed(goals, id);
    }
  }
}

=== FILE: user_profile.dfy ===
// The profile page: the five profile fields as form text, filled from the
// stored profile, and the save button that creates the profile when none
// exists and updates it otherwise.

module UserProfile {
  import opened Common
  import opened Http
  import opened ClientModels
  import UserService

  /** The five profile fields as the form holds them. */
  datatype ProfileForm = ProfileForm(fullName: string, age: string, gender: string, height: string, weight: string)

  /** A profile with no field set at all: what getUserProfile returns for a user without one. */
  predicate IsEmptyProfile(m: UserModel)
  {
    m.fullName.None? && m.age.None? && m.gender.None? && m.height.None? && m.weight.None?
  }

  /** `value || fallback` for an optional string: missing and empty both give the fallback. */
  function TextOr(value: Option<string>, fallback: string): (t: string)
    ensures value.Some? && value.value != "" ==> t == value.value
    ensures value.None? || value.value == "" ==> t == fallback
  {
    if value.Some? && value.value != "" then value.value else fallback
  }

  /** `value?.toString() || ''`: the number's decimal text, or empty when missing. */
  function NumberText(value: Option<int>): (t: string)
    ensures value.None? <==> t == ""
    ensures value.Some? ==> t == IntToString(value.value)
  {
    if value.Some? then IntToString(value.value) else ""
  }

  /** The form fields a fetched profile fills in; a missing gender shows as 'None'. */
  function FormOf(m: UserModel): (f: ProfileForm)
    ensures f.fullName == TextOr(m.fullName, "") && f.gender == TextOr(m.gender, "None")
    ensures f.age == NumberText(m.age) && f.height == NumberText(m.height) && f.weight == NumberText(m.weight)
  {
    ProfileForm(TextOr(m.fullName, ""), NumberText(m.age), TextOr(m.gender, "None"), NumberText(m.height), NumberText(m.weight))
  }

  /** `field ? f(field) : null`: an empty field is sent as null. */
  function OrNull<T>(field: string, f: string -> Option<T>): (v: Option<T>)
    ensures field == "" ==> v.None?
    ensures field != "" ==> v == f(field)
  {
    if field == "" then None else f(field)
  }

  /** buildUserModel; `parseInt` and `parseFloat` are the number parsers (NaN, sent as null, is `None`). */
  function BuildUserModel(f: ProfileForm, parseInt: string -> Option<int>, parseFloat: string -> Option<int>): (m: UserModel)
    ensures m.fullName == (if f.fullName == "" then None else Some(f.fullName))
    ensures m.gender == (if f.gender == "" then None else Some(f.gender))
    ensures m.age == OrNull(f.age, parseInt)
    ensures m.height == OrNull(f.height, parseFloat) && m.weight == OrNull(f.weight, parseFloat)
  {
    UserModel(OrNull(f.fullName, s => Some(s)), OrNull(f.age, parseInt),
              OrNull(f.gender, s => Some(s)), OrNull(f.height, parseFloat), OrNull(f.weight, parseFloat))
  }

  /** The parsers read back what toString wrote. */
  ghost predicate ReadsBack(parse: string -> Option<int>)
  {
    forall n: int :: parse(IntToString(n)) == Some(n)
  }

  /**
   * Saving the form a profile filled in sends that profile back unchanged,
   * except that an empty name is sent as null and a missing gender as the
   * text 'None'. So an empty profile, once saved, is no longer empty.
   */
  lemma SaveAfterFetch(m: UserModel, parseInt: string -> Option<int>, parseFloat: string -> Option<int>)
    requires ReadsBack(parseInt) && ReadsBack(parseFloat)
    ensures var sent := BuildUserModel(FormOf(m), parseInt, parseFloat);
      && sent.age == m.age && sent.height == m.height && sent.weight == m.weight
      && sent.fullName == (if m.fullName == Some("") then None else m.fullName)
      && sent.gender == (if m.gender.None? || m.gender == Some("") then Some("None") else m.gender)
      && (IsEmptyProfile(m) ==> !IsEmptyProfile(sent))
  {
    var f := FormOf(m);
    if m.age.Some? { assert parseInt(IntToString(m.age.value)) == Some(m.age.value); }
    if m.height.Some? { assert parseFloat(IntToString(m.height.value)) == Some(m.height.value); }
    if m.weight.Some? { assert parseFloat(IntToString(m.weight.value)) == Some(m.weight.value); }
  }

  /** Which write the save button issues. */
  datatype Write = CreateProfile(model: UserModel) | UpdateProfile(model: UserModel)

  class ProfilePage {
    var form: ProfileForm
    var isEditing: bool
    var isEmptyProfile: bool

    /** The page as App renders it, without an initial profile. */
    constructor()
      ensures form == ProfileForm("", "", "None", "", "") && !isEditing && !isEmptyProfile
    {
      form := ProfileForm("", "", "None", "", "");
      isEditing := false;
      isEmptyProfile := false;
    }

    /** The mount effect: the fetched profile fills the form; a failed fetch leaves the page as it was. */
    method FetchProfile(fetched: Outcome<UserModel>)
      modifies this
      ensures fetched.Returned? ==> form == FormOf(fetched.value) && isEmptyProfile == IsEmptyProfile(fetched.value)
      ensures fetched.Threw? ==> form == old(form) && isEmptyProfile == old(isEmptyProfile)
      ensures isEditing == old(isEditing)
    {
      if fetched.Returned? {
        form := FormOf(fetched.value);
        isEmptyProfile := IsEmptyProfile(fetched.value);
      }
    }

    /** The Create Profile and Edit Profile buttons. */
    method StartEditing()
      modifies this
      ensures isEditing && form == old(form) && isEmptyProfile == old(isEmptyProfile)
    {
      isEditing := true;
    }

    /** Typing into the form while editing. */
    method Edit(f: ProfileForm)
      requires isEditing
      modifies this
      ensures form == f && isEditing && isEmptyProfile == old(isEmptyProfile)
    {
      form := f;
    }

    /**
     * handleEdit: the form's model is created while the profile is empty and
     * updated otherwise. Only a create answered with the message 'success'
     * marks the profile as existing; any answer ends editing, and a thrown
     * error keeps the page in editing mode.
     */
    method HandleEdit(parseInt: string -> Option<int>, parseFloat: string -> Option<int>,
                      answer: Outcome<UserService.Answer>) returns (write: Write)
      modifies this
      ensures write.model == BuildUserModel(old(form), parseInt, parseFloat)
      ensures write.CreateProfile? <==> old(isEmptyProfile)
      ensures isEmptyProfile <==> old(isEmptyProfile) && !(answer.Returned? && answer.value.message == Some("success"))
      ensures isEditing <==> old(isEditing) && answer.Threw?
      ensures form == old(form)
    {
      var model := BuildUserModel(form, parseInt, parseFloat);
      if isEmptyProfile {
        write := CreateProfile(model);
        if answer.Returned? {
          if answer.value.message == Some("success") {
            isEmptyProfile := false;
          }
          isEditing := false;
        }
        return;
      }
      write := UpdateProfile(model);
      if answer.Returned? {
        isEditing := false;
      }
    }
  }
}

=== FILE: user_service.dfy ===
// UserService: the profile payload transform (comma-separated lists become
// trimmed arrays), the signed-in precondition shared by every method, the
// "403 means no profile yet" convention and the error-message rule.

module UserService {
  import opened Common
  import opened Http
  import opened ClientModels

  /** `field ? field.split(',').map(s => s.trim()) : []` */
  function ListField(field: string): (items: seq<string>)
    ensures field == "" ==> items == []
    ensures field != "" ==> |items| == Count(field, ',') + 1
    ensures field != "" ==> forall i :: 0 <= i < |items| ==> items[i] == Trim(Split(field, ',')[i])
  {
    if field == "" then []
    else
      var parts := Split(field, ',');
      seq(|parts|, i requires 0 <= i < |parts| => Trim(parts[i]))
  }

  /** Joining anything other than no items or the single empty item gives a non-empty text. */
  lemma JoinNonEmpty(items: seq<string>, sep: char)
    requires items != [] && items != [""]
    ensures Join(items, sep) != ""
  {
    if |items| > 1 {
      assert Join(items, sep)[|items[0]|] == sep;
    }
  }

  /**
   * A list typed as its items joined by commas comes back item for item, as
   * long as the items are trimmed, contain no comma, and the list is not the
   * single empty item.
   */
  lemma ListFieldOfJoined(items: seq<string>)
    requires items != [] && items != [""]
    requires forall i :: 0 <= i < |items| ==> ',' !in items[i]
    requires forall i :: 0 <= i < |items| ==> Trim(items[i]) == items[i]
    ensures ListField(Join(items, ',')) == items
  {
    JoinNonEmpty(items, ',');
    SplitJoin(items, ',');
    ListFieldOfTrimmedParts(Join(items, ','), items);
  }

  /** A field whose comma-separated parts are already trimmed lists exactly those parts. */
  lemma ListFieldOfTrimmedParts(field: string, parts: seq<string>)
    requires field != "" && Split(field, ',') == parts
    requires forall i :: 0 <= i < |parts| ==> Trim(parts[i]) == parts[i]
    ensures ListField(field) == parts
  {
    var r := ListField(field);
    assert |r| == |parts|;
    forall i | 0 <= i < |parts| ensures r[i] == parts[i] {
      assert r[i] == Trim(parts[i]);
    }
  }

  /** The body the server expects; numbers are what parseInt gives (NaN, sent as null, is `None`). */
  datatype ApiAllUserData = ApiAllUserData(
    age: Option<int>, allergies: seq<string>, availableTime: string, busyDays: seq<string>,
    currency: string, expenses: Option<int>, fitnessLevel: string, fullName: string, gender: string,
    height: Option<int>, income: Option<int>, longTerm: seq<string>, medicalConditions: seq<string>,
    medications: seq<string>, preferredTimes: seq<string>, priorities: seq<string>, riskTolerance: string,
    savingsGoal: Option<int>, shortTerm: seq<string>, sleepPattern: string, timeframe: string,
    weight: Option<int>, workHours: string)

  /** saveUserProfile's transform; `parseInt` is the page's number parser. */
  function ToApiData(c: ClientProfileData, parseInt: string -> Option<int>): (d: ApiAllUserData)
    ensures d.allergies == ListField(c.health.allergies) && d.busyDays == ListField(c.schedule.busiestDays)
    ensures d.longTerm == ListField(c.lifeGoals.longTermGoals) && d.shortTerm == ListField(c.lifeGoals.shortTermGoals)
    ensures d.medicalConditions == ListField(c.health.medicalConditions)
    ensures d.medications == ListField(c.health.currentMedications)
    ensures d.preferredTimes == ListField(c.schedule.preferredTimes) && d.priorities == ListField(c.lifeGoals.lifePriorities)
    ensures d.currency == c.financial.currency && d.fitnessLevel == c.health.fitnessLevel
    ensures d.sleepPattern == c.health.sleepPattern && d.timeframe == c.lifeGoals.preferredTimeframe
    ensures d.workHours == c.schedule.workHours && d.availableTime == c.schedule.availableTime
    ensures d.riskTolerance == c.financial.riskTolerance
    ensures d.fullName == c.personal.fullName && d.gender == c.personal.gender
    ensures d.age == parseInt(c.personal.age) && d.height == parseInt(c.personal.height) && d.weight == parseInt(c.personal.weight)
    ensures d.income == parseInt(c.financial.monthlyIncome) && d.expenses == parseInt(c.financial.monthlyExpenses)
    ensures d.savingsGoal == parseInt(c.financial.monthlySavingGoal)
  {
    ApiAllUserData(
      parseInt(c.personal.age), ListField(c.health.allergies), c.schedule.availableTime,
      ListField(c.schedule.busiestDays), c.financial.currency, parseInt(c.financial.monthlyExpenses),
      c.health.fitnessLevel, c.personal.fullName, c.personal.gender, parseInt(c.personal.height),
      parseInt(c.financial.monthlyIncome), ListField(c.lifeGoals.longTermGoals),
      ListField(c.health.medicalConditions), ListField(c.health.currentMedications),
      ListField(c.schedule.preferredTimes), ListField(c.lifeGoals.lifePriorities), c.financial.riskTolerance,
      parseInt(c.financial.monthlySavingGoal), ListField(c.lifeGoals.shortTermGoals), c.health.sleepPattern,
      c.lifeGoals.preferredTimeframe, parseInt(c.personal.weight), c.schedule.workHours)
  }

  /** The JSON a write endpoint answers with; only its message is read. */
  datatype Answer = Answer(message: Option<string>)

  const NoSession := "No active Supabase session found. Please log in."

  /**
   * The request flow of the three write methods: no user throws before
   * anything else, no token throws before the request, a failure status
   * throws the body's message or the default, a success returns the body.
   */
  function Write<P>(userId: Option<string>, token: Option<string>, verb: Verb, path: string, body: P,
                    transport: Transport<()>, notAuthenticated: string, failurePrefix: string): (c: Call<P, Answer>)
    ensures !Authenticated(userId) ==> c == Call(None, Threw(notAuthenticated))
    ensures Authenticated(userId) && !HasToken(token) ==> c == Call(None, Threw(NoSession))
    ensures Authenticated(userId) && HasToken(token) ==> c.sent == Some(Request(verb, path, Some(body)))
    ensures c.outcome.Returned? <==>
      Authenticated(userId) && HasToken(token) && transport.Received? && IsOk(transport.reply)
      && transport.reply.body.JsonBody?
    ensures Authenticated(userId) && HasToken(token) && transport.Received? && !IsOk(transport.reply) ==>
      c.outcome == Threw(MessageOr(transport.reply.body, failurePrefix + transport.reply.statusText))
  {
    if !Authenticated(userId) then Call(None, Threw(notAuthenticated))
    else if !HasToken(token) then Call(None, Threw(NoSession))
    else
      var req := Some(Request(verb, path, Some(body)));
      match transport
      case NetworkFailure(reason) => Call(req, Threw(reason))
      case Received(reply) =>
        if !IsOk(reply) then Call(req, Threw(MessageOr(reply.body, failurePrefix + reply.statusText)))
        else if reply.body.NotJson? then Call(req, Threw(NotJsonError))
        else Call(req, Returned(Answer(reply.body.message)))
  }

  /** saveUserProfile: POST users/user/add_alldata/{userId} with the transformed form. */
  function SaveUserProfile(userId: Option<string>, token: Option<string>, c: ClientProfileData,
                           parseInt: string -> Option<int>, transport: Transport<()>): (r: Call<ApiAllUserData, Answer>)
    ensures !Authenticated(userId) ==> r.sent.None? && r.outcome.Threw?
    ensures Authenticated(userId) && HasToken(token) ==>
      r.sent == Some(Request(POST, "/api/v1/users/user/add_alldata/" + userId.value, Some(ToApiData(c, parseInt))))
    ensures r.outcome.Returned? <==>
      Authenticated(userId) && HasToken(token) && transport.Received? && IsOk(transport.reply) && transport.reply.body.JsonBody?
  {
    Write(userId, token, POST, "/api/v1/users/user/add_alldata/" + (if userId.Some? then userId.value else ""),
          ToApiData(c, parseInt), transport, "User not authenticated. Cannot save profile.", "Failed to save profile: ")
  }

  /** updateProfile: PATCH users/update_user/{userId} with the five profile fields as given. */
  function UpdateProfile(userId: Option<string>, token: Option<string>, m: UserModel, transport: Transport<()>): (r: Call<UserModel, Answer>)
    ensures !Authenticated(userId) ==> r.sent.None? && r.outcome.Threw?
    ensures Authenticated(userId) && HasToken(token) ==>
      r.sent == Some(Request(PATCH, "/api/v1/users/update_user/" + userId.value, Some(m)))
    ensures r.outcome.Returned? <==>
      Authenticated(userId) && HasToken(token) && transport.Received? && IsOk(transport.reply) && transport.reply.body.JsonBody?
  {
    Write(userId, token, PATCH, "/api/v1/users/update_user/" + (if userId.Some? then userId.value else ""),
          UserModel(m.fullName, m.age, m.gender, m.height, m.weight), transport,
          "User not authenticated. Cannot update profile.", "Failed to save profile: ")
  }

  /** saveUserData: POST users/add_user/{userId} with the five profile fields as given. */
  function SaveUserData(userId: Option<string>, token: Option<string>, m: UserModel, transport: Transport<()>): (r: Call<UserModel, Answer>)
    ensures !Authenticated(userId) ==> r.sent.None? && r.outcome.Threw?
    ensures Authenticated(userId) && HasToken(token) ==>
      r.sent == Some(Request(POST, "/api/v1/users/add_user/" + userId.value, Some(m)))
    ensures r.outcome.Returned? <==>
      Authenticated(userId) && HasToken(token) && transport.Received? && IsOk(transport.reply) && transport.reply.body.JsonBody?
  {
    Write(userId, token, POST, "/api/v1/users/add_user/" + (if userId.Some? then userId.value else ""),
          UserModel(m.fullName, m.age, m.gender, m.height, m.weight), transport,
          "User not authenticated. Cannot save user data.", "Failed to save user data: ")
  }

  /** The all-null model getUserProfile returns for a user without a profile. */
  const EmptyUserModel := UserModel(None, None, None, None, None)

  /** The server's way of saying that no profile exists, matched case-insensitively. */
  predicate SaysNoUserData(message: Option<string>)
  {
    message.Some? && Contains(Lower(message.value), "cannot get user data")
  }

  /**
   * getUserProfile. The body is parsed before the status is looked at, so a
   * body that is not JSON throws whatever the status.
   */
  function GetUserProfile(userId: Option<string>, token: Option<string>, transport: Transport<UserModel>): (c: Call<(), UserModel>)
    ensures !Authenticated(userId) ==> c.sent.None? && c.outcome.Threw?
    ensures Authenticated(userId) && HasToken(token) ==>
      c.sent == Some(Request(GET, "/api/v1/users/user/" + userId.value, None))
    ensures Authenticated(userId) && HasToken(token) && transport.Received? && transport.reply.status == 403
            && transport.reply.body.JsonBody? && SaysNoUserData(transport.reply.body.message) ==>
      c.outcome == Returned(EmptyUserModel)
    ensures c.outcome.Returned? && c.outcome.value != EmptyUserModel ==>
      transport.Received? && IsOk(transport.reply) && transport.reply.body.JsonBody?
      && c.outcome.value == transport.reply.body.data
    ensures Authenticated(userId) && HasToken(token) && transport.Received? && !IsOk(transport.reply)
            && transport.reply.body.JsonBody?
            && !(transport.reply.status == 403 && SaysNoUserData(transport.reply.body.message)) ==>
      c.outcome == Threw(MessageOr(transport.reply.body, "Failed to get profile: " + transport.reply.statusText))
  {
    if !Authenticated(userId) then Call(None, Threw("User not authenticated. Cannot get profile."))
    else if !HasToken(token) then Call(None, Threw(NoSession))
    else
      var req := Some(Request(GET, "/api/v1/users/user/" + userId.value, None));
      match transport
      case NetworkFailure(reason) => Call(req, Threw(reason))
      case Received(reply) =>
        match reply.body
        case NotJson => Call(req, Threw(NotJsonError))
        case JsonBody(message, data) =>
          if !IsOk(reply) then
            if reply.status == 403 && SaysNoUserData(message) then Call(req, Returned(EmptyUserModel))
            else Call(req, Threw(MessageOr(reply.body, "Failed to get profile: " + reply.statusText)))
          else Call(req, Returned(data))
  }
}
